=== FILE: README.md ===
# dishdash marketplace: a verified Dafny model

This project models the decision logic and list handling of the dishdash
food marketplace: a Pi-network restaurant ordering system with an Express
and GraphQL server, a static web client, a public web client and a
React Native app. The database is a sequence of records, and the Stellar
ledger, the Pi SDK, bcrypt and JSON web tokens are function parameters.
The clock is a parameter too. Money on the client and order side is
integer cents. Transaction amounts are `real`.

Modules, one per source file or shared concern:

- `Wrappers`, `Collections`, `Text`, `Sorting`: results and HTTP errors, the folds behind `filter`/`reduce`/`forEach`, the JavaScript string operations used (`toLowerCase`, `includes`, `trim`, `replace`, `parseInt`, string comparison), and a stable sort.
- `Transactions`, `TransactionQueries` (services/transactionService.js): the record store as a class with `createTransaction`, `updateTransactionStatus` and `cleanupPendingTransactions`, then the paged queries and the per-type statistics.
- `Withdrawals` (services/withdrawalService.js): validation, the withdraw sequence against the store and the ledger, fees and time estimates.
- `Admin` (services/adminService.js): system statistics, admin queries, the error rate, the status classifier, alerts and reconciliation.
- `Ledger`, `WalletService`, `PcmService` (services/walletService.js, services/pcmService.js): balance folds, trustlines, deposits, transfers and history filters.
- `Orders` (routes/orders.js, models/Order.js): order pricing, the status machine and the driver and cancel guards.
- `GraphQLResolvers` (server/src/graphql/resolvers.js): order totals with options and variations, cancel, status update, profile update, signup and login.
- `Users` (server/src/models/User.js) and `RestaurantModel` (server/src/models/Restaurant.js): the wallet upsert, schema constraints and `isOpen`.
- `Menu`, `PublicRestaurantPage`, `QuantityCart`, `PublicApp`, `App`, `StaticRestaurantPage`, `Checkout`, `CartScreen`: the client carts, badges, totals, search, grouping, filters and payment gating of each page.
- `RestaurantRoutes`, `AuthRoutes`, `AuthMiddleware` (routes/restaurants.js, routes/auth.js with models/User.js, middleware/auth.js): search and lookup, registration, login, profile update, Pi linking, the bearer token and the role gates.

Where the code and its documentation disagree, the model follows the code.
One case: a failed withdrawal leaves its record PENDING, and is not marked FAILED.

## Model

| member | source | states |
|---|---|---|
| Admin.SystemStatsRow | services/adminService.js:8-32 | Per transaction type, a row exists iff some record since the start date has that type; its count, success count, failure count, total amount, total fees (a missing fee adds 0) and mean amount are those of exactly those records, and successes plus failures never exceed the count |
| Admin.GetPendingWithdrawals | services/adminService.js:41-51 | Exactly the PENDING withdrawals of either currency (the same multiset as the filter), newest first |
| Admin.GetFailedTransactions | services/adminService.js:59-88 | The page is exactly the window at `skip` (default 0) of `limit` (default 50) rows over the FAILED records inside the inclusive date bounds, newest first, so at most 50 rows without a limit; `total` counts all of them; `hasMore` iff total > skip + limit |
| Admin.GetAllTransactions | services/adminService.js:97-140 | The page is exactly the window at `skip` (default 0) of `limit` (default 50) rows over the records matching every given filter (falsy amount bounds ignored), newest first, so at most 50 rows without a limit; `total` counts all matches; `hasMore` iff total > skip + limit |
| Admin.ZeroMinimumIgnored | services/adminService.js:122-126 | A minimum amount of 0 is falsy, so it filters exactly like no minimum |
| Admin.ErrorRate | services/adminService.js:298-309 | The rate lies in [0, 1]; it is 0 for an hour without transactions and otherwise the failed share of the last hour's transactions |
| Admin.AverageProcessingTime | services/adminService.js:283-296 | 0 when nothing completed in the last hour; NaN exactly when one of those records has no completion time; otherwise the mean of completion time minus creation time |
| Admin.AverageProcessingTimeNonNegative | services/adminService.js:283-296 | When no record completes before it was created, the average is not negative |
| Admin.CalculateSystemStatus | services/adminService.js:329-337 | DEGRADED iff the error rate exceeds 0.1, the processing time exceeds 5000 or Redis is unhealthy; WARNING iff not degraded and the rate exceeds 0.05 or the time 2000; a NaN time exceeds no threshold |
| Admin.StatusMonotone | services/adminService.js:329-337 | A higher error rate, a longer processing time or an unhealthy Redis never gives a better status |
| Admin.GetSystemHealth | services/adminService.js:239-276 | Transactions per hour is the count of the last hour; the error rate is the failed share of that hour (0 when idle) and the processing time the mean completion delay of the hour's completed records (NaN when one lacks `completedAt`); DEGRADED iff the rate exceeds 0.1, the time 5000 ms or Redis is down; otherwise WARNING iff the rate exceeds 0.05 or the time 2000 ms; HEALTHY else |
| Admin.CountViolations | services/adminService.js:189-195 | The loop over the rate-limit keys counts exactly the counters above 100 |
| Admin.ViolationsCounted | services/adminService.js:186-197 | Some `rl:` counter exceeds 100 iff the blocked count is positive |
| Admin.PushedInOrder | services/adminService.js:161-207 | Three optional alerts pushed one after another appear in rank order, each present iff its own check produced it |
| Admin.GetSystemAlerts | services/adminService.js:149-210 | Alerts come in the order failure rate, large pending withdrawals, rate limits; the first iff more than 10% of the last hour failed, the second iff some PENDING withdrawal exceeds 1000 (with their number), the third iff some `rl:` counter exceeds 100 (with their number) |
| Admin.FailureRateSlot | services/adminService.js:153-168 | The failure-rate alert is due iff the last hour has transactions and more than 10% of them failed |
| Admin.LargePendingSlot | services/adminService.js:171-184 | The withdrawal alert is due iff a PENDING withdrawal exceeds 1000, and carries the number of such withdrawals |
| Admin.RateLimitSlot | services/adminService.js:186-204 | The rate-limit alert is due iff a counter exceeds 100, and carries the number of such counters |
| Admin.ReconcileByTypeAsWritten | services/adminService.js:339-353 | As written every known type fails with the TypeError of calling the undefined `_verifyDepositOnChain` or `_verifyWithdrawalCompletion`; exactly the other types fail with 'Unknown transaction type' |
| Admin.ReconcileTransactionAsWritten | services/adminService.js:214-235 | As written every call fails with 'Failed to reconcile transaction' and no record changes |
| Admin.ReconcileAsWrittenNeverReconciles | services/adminService.js:339-353 | For a stored record of a known type the corrected dispatch reaches a check, while as written it throws |
| Admin.ReconcileByType | services/adminService.js:339-353 | Corrected, with the two on-chain checks as parameters: both deposit kinds go to the deposit check, both withdrawal kinds to the withdrawal check; exactly the other types fail |
| Admin.ReconcileTransaction | services/adminService.js:214-235 | Corrected, with the two checks as parameters: succeeds iff the id is stored with a known type; the record becomes COMPLETED or FAILED by the check, with the admin and time recorded, and no other record changes; every failure reads 'Failed to reconcile transaction' and changes nothing |
| App.HomePage.constructor | js/app.js:5-7 | The cart read from storage, not yet connected, with badge and total drawn for it |
| App.HomePage.UpdateCartUI | js/app.js:36-67 | The badge shows the number of entries and the total Σ price × quantity of the cart; nothing else changes |
| App.HomePage.AddToCart | js/app.js:69-78 | The cart becomes `Added(cart, item)`: one more unit on the entry with that id, or a new entry of quantity 1 at the end; the page shows it |
| App.HomePage.UpdateQuantity | js/app.js:80-86 | The entry's quantity moves by the change and the entry is dropped when it reaches 0 or less |
| App.HomePage.RemoveFromCart | js/app.js:88-92 | JavaScript's `splice(index, 1)` on the cart, for any index, then the page shows it |
| App.HomePage.Authenticate | js/app.js:140-158 | A truthy answer connects the page; nothing disconnects it; the cart is untouched |
| App.HomePage.CreatePayment | js/app.js:161-197 | A payment is requested iff the page is connected and the cart has entries; it asks for the cart total with the memo "Food order payment"; the cart is emptied iff the status is "completed" |
| App.BadgeAtMostUnits | js/app.js:37 | On a well-formed cart the entry count shown here never exceeds the unit count, and equals it exactly when every quantity is 1 |
| App.SearchPlaces | js/app.js:243-256 | Exactly the sample restaurants whose name or description contains the query, ignoring case |
| App.SearchResults | js/app.js:99-112 | No results are shown iff the trimmed input has fewer than two characters; otherwise exactly the sample restaurants whose name or description contains the trimmed input, ignoring case |
| AuthMiddleware.Auth | middleware/auth.js:5-26 | 401 "Please authenticate" for a missing or empty token, a token the verifier rejects and a decoded id with no user, and success exactly otherwise, carrying the token and the user found |
| AuthMiddleware.BearerHeaderAuthenticates | middleware/auth.js:7 | The header "Bearer t" hands exactly t to the verifier, so a valid t naming a user authenticates |
| AuthMiddleware.NoTokenRefused | middleware/auth.js:7-11 | No header, or "Bearer " with nothing after it, is refused whatever the verifier says |
| AuthMiddleware.RawHeaderIsToken | middleware/auth.js:7 | A header without "Bearer " is itself the token |
| AuthMiddleware.IsAdmin | middleware/auth.js:29-38 | Passes iff there is a user whose role is "admin"; otherwise 403 "Access denied" |
| AuthMiddleware.IsRestaurant | middleware/auth.js:41-50 | Passes iff there is a user whose role is "restaurant"; otherwise 403 "Access denied" |
| AuthMiddleware.GatesDisjoint | middleware/auth.js:29-50 | No account passes both role gates |
| AuthRoutes.UserDoc.constructor | models/User.js:4-48 | A new document has the email lowercased and trimmed, the name and phone trimmed, no addresses, role "user", no Pi link and no login time, and is not yet saved |
| AuthRoutes.UserDoc.Save | models/User.js:51-61 | A save succeeds iff the document passes the schema's validators and the database accepts it; it then hashes a modified password and stores the snapshot; a refused save changes nothing |
| AuthRoutes.Register | routes/auth.js:7-43 | 400 "User already exists" iff the email is taken; otherwise the new account is stored iff it validates, with its password hashed, and the reply is 201 with the user and token iff it was stored and a token was made, else 500 "Error registering user" |
| AuthRoutes.Login | routes/auth.js:46-82 | 401 "Invalid credentials" alike for an unknown email and a wrong password, changing nothing; a match records the login time, and the reply carries the user and token iff the save and the token succeed, else 500 "Error logging in" |
| AuthRoutes.RegisterAsWritten | models/User.js:73-84 | With the token made as written no registration succeeds, yet a valid new account is stored before the 500 |
| AuthRoutes.LoginAsWritten | models/User.js:73-84 | With the token made as written correct credentials get 500 "Error logging in" after the login time was saved |
| AuthRoutes.Applied | routes/auth.js:113 | Applying the body's keys never changes the email, the password, the role, the Pi link or the login time |
| AuthRoutes.AppliedLastWrite | routes/auth.js:113 | The last entry for a field decides its new value, trimmed by the schema's setters where it has one |
| AuthRoutes.AppliedUntouched | routes/auth.js:113 | A field the body does not name keeps its value |
| AuthRoutes.UpdateProfile | routes/auth.js:103-129 | 400 "Invalid updates" and no change iff some key is not name, phone or addresses; otherwise every key is applied in order, and the reply is the saved profile iff it validates and saves, else 500 "Error updating user" |
| AuthRoutes.UserDoc.Assign | routes/auth.js:112 | one accepted field is written into the user document: that field takes the request's value, the other fields, the saved state and the password flag stay |
| AuthRoutes.LinkPi | routes/auth.js:132-158 | 400 "Pi account already linked to another user" iff a different account holds the id, changing nothing; otherwise the id is set, and the reply is the saved profile iff the save succeeds, else 500 "Error linking Pi account" |
| CartScreen.FirstPos | src/screens/CartScreen.js:28 | The position `find` reaches: the first element with the id, or the length when none has it |
| CartScreen.GroupStepFound | src/screens/CartScreen.js:28-31 | A reduction step on an id already grouped adds one unit to its entry and keeps the grouping's promise |
| CartScreen.GroupStepNew | src/screens/CartScreen.js:33 | A reduction step on a new id appends an entry of quantity 1 and keeps the grouping's promise |
| CartScreen.GroupShape | src/screens/CartScreen.js:27-34 | The grouped cart has distinct ids and positive quantities, one entry per id of the input, in order of first occurrence, each with the number of times its id occurs |
| CartScreen.GroupUnits | src/screens/CartScreen.js:27-34 | The units of the grouped cart add up to the number of elements given: nothing is lost or counted twice |
| CartScreen.GroupSubtotal | src/screens/CartScreen.js:27-42 | When each id has one price, the grouped subtotal is the sum of the prices of the elements given, and the total adds the fees to it |
| CartScreen.UnknownIdUnchanged | src/screens/CartScreen.js:44-55 | An id no entry carries leaves the cart unchanged |
| CartScreen.ChangeById | src/screens/CartScreen.js:44-55 | With distinct ids, changing by id is the home page's change by index (js/app.js:80-86) on that entry |
| CartScreen.ChangeKeeps | src/screens/CartScreen.js:44-55 | A well-formed cart stays well formed; the units move by the change, or lose the entry's quantity when it falls below 1 |
| Checkout.CheckoutPage.constructor | js/checkout.js:6-26 | The page starts on the stored cart with both totals drawn and the pay button disabled exactly when the cart is empty |
| Checkout.CheckoutPage.UpdateTotals | js/checkout.js:66-81 | The subtotal is Σ price, the total adds both fees, and the button is disabled exactly when the cart is empty |
| Checkout.CheckoutPage.RemoveItem | js/checkout.js:58-63 | JavaScript's `splice(index, 1)` on the cart, for any index, and the totals redrawn |
| Checkout.CheckoutPage.PayClicked | js/checkout.js:84-179 | Nothing happens on a disabled button; an invalid form stops before payment; a payment is requested iff the form is valid and Pi authenticates, for the drawn total with a dated memo; the order is confirmed and the cart emptied iff the payment completes and the order endpoint accepts it |
| Checkout.RemoveItemTotal | js/checkout.js:58-68 | Removing the entry at an index lowers the total by exactly that dish's price; an empty cart still costs the fees |
| Checkout.OrderTotalBounds | js/checkout.js:66-68 | With prices that are not negative, the total is at least the fees and at least the fees plus any one dish's price |
| GraphQLResolvers.FindDish | server/src/graphql/resolvers.js:203 | The dish found carries the id and is on the menu; none is found only when no dish has that id |
| GraphQLResolvers.FindChoice | server/src/graphql/resolvers.js:213-223 | In the shape the GraphQL schema declares: the option or variation found carries the id and belongs to the dish; none only when no choice has that id |
| GraphQLResolvers.FindAddress | server/src/graphql/resolvers.js:194 | In the shape the GraphQL schema declares: the address found carries the id and is the user's; none only when no address has that id |
| GraphQLResolvers.ChoicesCostScales | server/src/graphql/resolvers.js:211-229 | Options and variations are paid per portion: their cost for q portions is q times the cost of one |
| GraphQLResolvers.UnknownChoiceSkipped | server/src/graphql/resolvers.js:213-216 | In the shape the GraphQL schema declares: an id the dish does not offer is skipped without error and without cost |
| GraphQLResolvers.ItemTotalPerPortion | server/src/graphql/resolvers.js:208-229 | An item costs its quantity times the price of one portion with its choices |
| GraphQLResolvers.ItemTotalAsWritten | server/src/graphql/resolvers.js:211-228 | As written: an item with a non-empty option or variation list throws the TypeError of `undefined.id`; otherwise it costs the dish price times the quantity |
| GraphQLResolvers.ChosenOptionThrows | server/src/graphql/resolvers.js:211-218 | A 10.00 dish ordered once with its 1.50 option costs 11.50 in the schema's shape and throws as written |
| GraphQLResolvers.ItemsTotalNonNegative | server/src/graphql/resolvers.js:199-241 | With prices and quantities that are not negative, the items never total below zero |
| GraphQLResolvers.PlacedOrder.constructor | server/src/graphql/resolvers.js:246-254 | A new order holds the given user, restaurant, lines, total, address and payment method, with status PENDING |
| GraphQLResolvers.AddChoices | server/src/graphql/resolvers.js:211-229 | In the shape the GraphQL schema declares: the `forEach` over the selected ids adds exactly the specified cost of the found choices |
| GraphQLResolvers.PriceItems | server/src/graphql/resolvers.js:199-241 | In the shape the GraphQL schema declares: either every item is on the menu, with the specified total and one line per item in order, or it reports the first item whose dish is missing |
| GraphQLResolvers.CreateOrder | server/src/graphql/resolvers.js:185-266 | Corrected to the GraphQL schema's shape: not authenticated, restaurant not found, address not found and "Menu item N not found" (the first missing dish) in that order; otherwise a new PENDING order for the caller, restaurant and address, with the items priced plus the delivery fee |
| GraphQLResolvers.CreateOrderAsWritten | server/src/graphql/resolvers.js:185-195 | As written no order is ever created: not authenticated without a caller, restaurant not found without one, and otherwise the TypeError of `userDoc.address.id` |
| GraphQLResolvers.UpdateOrderStatus | server/src/graphql/resolvers.js:268-294 | Not authenticated, order not found, then, with the code's "ADMIN" corrected to the schema's "admin" role (see Findings), only an administrator or the restaurant's owner passes; any status string then replaces the old one, and a refusal changes nothing |
| GraphQLResolvers.CancelRules | server/src/graphql/resolvers.js:296-320 | A cancellation passes iff the caller is signed in, the order is PENDING and the caller placed it or has the schema's "admin" role, corrected from the code's "ADMIN" (see Findings); the PENDING check comes first |
| GraphQLResolvers.AdminOverrideNeverFires | server/src/graphql/resolvers.js:281 | For any role the account schema allows, the as-written status check passes only the restaurant's owner and the as-written cancel check only the customer of a PENDING order, while the corrected checks pass an "admin" account |
| GraphQLResolvers.StatusChangeCheck | server/src/graphql/resolvers.js:280-283 | Corrected: passes iff the caller has the "admin" role or owns the restaurant, otherwise "Not authorized" |
| GraphQLResolvers.CancelOrder | server/src/graphql/resolvers.js:296-322 | With the role corrected, the order becomes CANCELLED iff the cancellation rules pass; otherwise nothing changes |
| GraphQLResolvers.UpdateProfile | server/src/graphql/resolvers.js:129-150 | Only a non-empty name or phone replaces the stored one, trimmed by the schema's setter, which applies to the update; the password changes, to the hash of the new one, exactly when both passwords are given and the current one matches; a wrong current password is refused |
| GraphQLResolvers.Login | server/src/graphql/resolvers.js:109-126 | Succeeds iff the email is known and the password matches, with the token for that account; otherwise "Invalid email or password" |
| GraphQLResolvers.LoginHidesWhichCheckFailed | server/src/graphql/resolvers.js:110-118 | An unknown email and a wrong password give the same error |
| GraphQLResolvers.SignupAsWritten | server/src/graphql/resolvers.js:85-106 | As written, a free email always ends in a validation error, because the role 'USER' is not in the schema's enumeration |
| GraphQLResolvers.Signup | server/src/graphql/resolvers.js:85-106 | With the schema's role, a free email with valid fields creates the account with its normalised fields, the password hashed once and role "user", and the token for it |
| GraphQLResolvers.SignupHashingTwice | server/src/graphql/resolvers.js:85-106 | With only the role corrected, the stored password is the hash of the hash of the one chosen |
| GraphQLResolvers.DoubleHashLocksOut | server/src/graphql/resolvers.js:91-117 | A password hashed twice is refused at login with "Invalid email or password", one hashed once is accepted |
| GraphQLResolvers.SignupThenLogin | server/src/graphql/resolvers.js:85-126 | An account created by signup logs in with the same password |
| Menu.Search | js/restaurant.js:157-162 | Exactly the dishes whose lower-cased name or description contains the lower-cased query; their order and multiplicity are the menu's by Menu.SearchAppend |
| Menu.SearchAppend | js/restaurant.js:157-162 | Searching two parts of a menu gives the first part's matches followed by the second's, and one dish is kept iff it matches, so the result keeps menu order and repeats |
| Menu.LowerIdempotent | js/restaurant.js:158 | Lower-casing twice is lower-casing once |
| Menu.SearchIgnoresQueryCase | js/restaurant.js:158-162 | Lower-casing the query first changes no result |
| Menu.EmptyQueryKeepsAll | js/restaurant.js:157-162 | The empty query keeps every dish |
| Menu.GroupByCategoryBuckets | js/restaurant.js:65-73 | There is a bucket exactly for each category that occurs, holding exactly that category's dishes in menu order |
| Menu.BucketOfDish | js/restaurant.js:65-73 | Every dish lands in the bucket of its own category |
| StaticRestaurantPage.AppendCountTotal | js/restaurant.js:110-114 | Adding a dish lists it once more at the end, raising the count by one and the total by its price |
| StaticRestaurantPage.SpliceCountTotal | js/restaurant.js:117-121 | `splice(index, 1)` on an index of an entry removes exactly that entry and its price; an index past the end changes nothing; one before the start removes the first entry |
| StaticRestaurantPage.AddThenRemoveLast | js/restaurant.js:110-121 | Removing the entry just added, by its index or by -1, gives back the cart as it was |
| StaticRestaurantPage.RestaurantPage.constructor | js/restaurant.js:3-12 | The stored cart with an empty menu, count and total drawn |
| StaticRestaurantPage.RestaurantPage.UpdateCartUI | js/restaurant.js:124-151 | The count is the number of entries and the total Σ price; cart and menu untouched |
| StaticRestaurantPage.RestaurantPage.AddToCart | js/restaurant.js:110-114 | The dish is appended whether or not it is already in the cart, and the page shows it |
| StaticRestaurantPage.RestaurantPage.RemoveFromCart | js/restaurant.js:117-121 | JavaScript's `splice(index, 1)` on the cart, for any index, and the page shows it |
| StaticRestaurantPage.RestaurantPage.LoadMenuItems | js/restaurant.js:51-62 | The fetched menu replaces the page's list; the cart and its display stay |
| StaticRestaurantPage.RestaurantPage.MenuView | js/restaurant.js:56-73 | One bucket per category present in the menu, holding that category's dishes in menu order |
| StaticRestaurantPage.RestaurantPage.SearchView | js/restaurant.js:157-166 | One bucket exactly for each category among the matching dishes, holding that category's matches in menu order, each on the menu and matching the query |
| Orders.ParseStatus | models/Order.js:15-19 | A string read as a status is that status's stored name |
| Orders.ParseStatusName | models/Order.js:15-19 | Every status name reads back as that status |
| Orders.TransitionTable | routes/orders.js:137-147 | The `validTransitions` table edge by edge: only the five listed statuses have moves, and cancelling is possible only from pending or picked_up |
| Orders.TransitionNamesStatus | routes/orders.js:145 | A requested string that passes the table names a status |
| Orders.FinalStatuses | routes/orders.js:137-147 | A delivered or cancelled order accepts no further status |
| Orders.TransitionAdvances | routes/orders.js:137-147 | Every allowed move goes strictly forward in the order's life |
| Orders.HistoryRanks | routes/orders.js:137-147 | Along a history of allowed moves the rank grows by at least one per move |
| Orders.HistoryBounded | routes/orders.js:137-147 | No order returns to a status: a history holds at most seven statuses |
| Orders.ParsePaymentMethod | routes/orders.js:52 | A payment method is accepted iff it is pi_network, credit_card or wallet |
| Orders.RequestErrorsEmpty | routes/orders.js:46-57 | The validator reports no error exactly for a well-formed request |
| Orders.FailingIndexes | routes/orders.js:49-50 | Exactly the indexes of the items failing a wildcard rule, each once, in increasing order |
| Orders.IndexedErrors | routes/orders.js:49-50 | A wildcard item rule reports exactly one path `items[k].<field>` per failing index k, in index order, so none exactly when every item passes |
| Orders.FindMenuEntry | routes/orders.js:70 | The entry found carries the id and is on the menu; none only when no entry has that id |
| Orders.LineFor | routes/orders.js:70-85 | An item is priced iff its dish is on the menu and available, with the dish's name and price and the requested quantity; an unknown dish gives 400 "Invalid menu item" |
| Orders.SubtotalBounds | routes/orders.js:66-78 | With quantities that are not negative, the subtotal is not negative and no smaller than any one line |
| Orders.Order.constructor | models/Order.js:4-51 | A new order is pending with payment pending, both timestamps now, and no driver or delivery time |
| Orders.Order.Duration | models/Order.js:65-71 | A duration exists iff the order was delivered, and is the delivery time minus the creation time |
| Orders.Order.Save | models/Order.js:3-57 | Saving succeeds iff the document is valid: every quantity at least 1 and all four delivery address fields non-empty; a valid save stamps `updatedAt` and changes nothing else, a rejected one changes nothing |
| Orders.CreateOrder | routes/orders.js:46-115 | Validation errors, then 404 "Restaurant not found", then the first item that cannot be priced, then 500 "Server error" when the save rejects an incomplete delivery address; otherwise a pending order for the caller whose lines price each item in order, with the subtotal, 10% tax, the fixed delivery fee of 5 and their sum |
| Orders.StatusUpdateAllowed | routes/orders.js:125-147 | A restaurant without an owner answers 500 (`owner.toString()` throws); a status update passes iff the restaurant exists and has an owner, the caller is its owner, the assigned driver or no driver is assigned, and the table allows the move |
| Orders.UpdateOrderStatus | routes/orders.js:118-161 | A failed check is the outcome and changes nothing; once the checks pass the status becomes the requested one and the delivery time is set on "delivered", and the outcome is success iff the save accepts the document (stamping the time), otherwise 500 "Server error" |
| Orders.AssignCheck | routes/orders.js:171-179 | Assignment passes iff the order is ready and has no driver |
| Orders.DriverNeverReplaced | routes/orders.js:171-179 | An order that has a driver never gets another |
| Orders.AssignDriver | routes/orders.js:164-189 | A failed check changes nothing; otherwise the caller becomes the driver, and the outcome is success iff the save accepts the document (stamping the time), otherwise 500 "Server error" |
| Ledger.LastMatchWins | services/pcmService.js:82-91 | The `forEach` that overwrites one slot on every match leaves the balance of the last matching entry, or the default when none matches |
| Ledger.FirstMatch | services/pcmService.js:137-140 | `find`: the position of the first entry that matches, none only when no entry matches |
| PcmService.CreateTrustline | services/pcmService.js:12-44 | An account that already trusts PCM from the issuer gets nothing submitted and null; otherwise exactly one change-trust transaction with limit 1000000, signed by the distributor, whose hash is returned iff the network accepts it; every failure reads "Failed to create PCM trustline" |
| PcmService.SendPcm | services/pcmService.js:47-76 | The trustline step's transactions come first and are all that is submitted when it fails; once it succeeds with the distributor account and base fee known, exactly the PCM payment of that amount follows; success iff that payment is accepted, and then its hash is returned; failures read "Failed to send PCM" |
| PcmService.GetPcmBalance | services/pcmService.js:79-96 | The balance of the last PCM entry from the configured issuer, '0' without one; an unknown account fails with "Failed to get PCM balance" |
| PcmService.IsAccountFrozen | services/pcmService.js:134-147 | An unknown account fails; a known one answers: false without a PCM trustline from the issuer, otherwise exactly the frozen flag of the first such trustline |
| PcmService.TransfersIn | services/pcmService.js:111-123 | The k-th transfer is the k-th PCM operation from the issuer among the given operations, tagged with its transaction's id and time; no other transfers |
| PcmService.PcmTransfers | services/pcmService.js:108-124 | Every transfer reported names one of the transactions read |
| PcmService.PcmTransfersSingle | services/pcmService.js:111-123 | One transaction contributes exactly its own PCM operations from the issuer |
| PcmService.PcmTransfersAppend | services/pcmService.js:111-123 | The transfers of two runs of history are those of the first followed by those of the second |
| PcmService.PcmTransfersContents | services/pcmService.js:111-123 | A transfer is listed iff it is that of a PCM operation from the issuer in one of the transactions read |
| PcmService.GetPcmTransactions | services/pcmService.js:99-131 | An unknown account fails with "Failed to get PCM transactions"; otherwise exactly the transfers of the first 50 transactions, which contain a transfer iff it is that of a PCM operation from the issuer in them, in transaction then operation order |
| PcmService.CollectTransfers | services/pcmService.js:111-123 | The inner `forEach` over one transaction's operations collects exactly the PCM operations of the configured issuer, in operation order, each tagged with the transaction's id and time |
| PcmService.GetPcmInfo | services/pcmService.js:150-172 | Code PCM and the configured issuer and domain; supply '0' and no flags without a PCM entry; otherwise the supply and flags of the first PCM entry, and a failure when that entry has no flags; an unknown issuer account fails |
| PublicApp.HomePage.constructor | public/js/app.js:6-8 | The cart read from storage, not yet connected, with badge and total drawn for it |
| PublicApp.HomePage.UpdateCartUI | public/js/app.js:49-89 | The badge shows the number of units and the total Σ price × quantity of the cart; nothing else changes |
| PublicApp.HomePage.AddToCart | public/js/app.js:91-101 | The cart becomes `Added(cart, item)`: one more unit on the entry with that id, or a new entry of quantity 1 at the end |
| PublicApp.HomePage.UpdateQuantity | public/js/app.js:103-111 | The entry's quantity moves by the change and the entry is dropped when it reaches 0 or less |
| PublicApp.HomePage.RemoveFromCart | public/js/app.js:113-119 | JavaScript's `splice(index, 1)` on the cart, for any index |
| PublicApp.HomePage.Authenticate | public/js/app.js:196-220 | An already connected page stays as it is; otherwise a truthy answer connects it; the cart is untouched |
| PublicApp.HomePage.CreatePayment | public/js/app.js:223-264 | A payment is requested iff the page is connected and the cart has entries; it asks for the cart total with the memo "DishDash order - N items", N the number of entries; the cart is emptied iff the status is "completed" |
| PublicApp.SearchSamples | public/js/app.js:314-330 | Exactly the sample dishes whose name or description contains the query, ignoring case |
| PublicApp.SearchResults | public/js/app.js:121-135 | No results iff the trimmed input has fewer than two characters; otherwise exactly the sample dishes whose name or description contains the trimmed input, ignoring case |
| PublicRestaurantPage.AddedCountTotal | public/js/restaurant.js:206-272 | Adding raises the unit count by one and the total by the price of the entry that grew (or of the new dish), for carts whose entries lack a quantity or have a non-negative one (`quantity \|\| 1` counts each as at least one unit), and keeps the cart so |
| PublicRestaurantPage.RemovedCountTotal | public/js/restaurant.js:218-272 | Removing lowers the unit count by one and the total by the entry's price, for the same carts, including entries without a quantity, and keeps the cart so |
| PublicRestaurantPage.AddThenRemove | public/js/restaurant.js:206-229 | Adding a dish and then removing from the entry it landed in gives back the cart |
| PublicRestaurantPage.SortCycle | public/js/restaurant.js:297-304 | Three presses of the sort button bring the setting back, and every press changes it |
| PublicRestaurantPage.VegFiltered | public/js/restaurant.js:123-125 | With the veg filter on, exactly the vegetarian dishes remain; off, all of them |
| PublicRestaurantPage.Shown | public/js/restaurant.js:119-132 | The shown dishes are a permutation of the filtered ones, unsorted by default, in ascending or descending price otherwise |
| PublicRestaurantPage.PriceAscending | public/js/restaurant.js:128-129 | The ascending price sort keeps exactly the filtered dishes and orders them by non-decreasing price |
| PublicRestaurantPage.PriceDescending | public/js/restaurant.js:130-131 | The descending price sort keeps exactly the filtered dishes and orders them by non-increasing price |
| PublicRestaurantPage.StarCountsFit | public/js/restaurant.js:91-95 | For a rating in [0, 5] the full, half and empty stars add up to five and the stars drawn are within half a star below the rating |
| PublicRestaurantPage.RestaurantPage.constructor | public/js/restaurant.js:2-18 | The stored cart and the menu, with the veg filter off and the default order |
| PublicRestaurantPage.RestaurantPage.AddToCart | public/js/restaurant.js:206-216 | The cart becomes `Added(cart, item)`; menu, filter and order stay |
| PublicRestaurantPage.RestaurantPage.RemoveFromCart | public/js/restaurant.js:218-229 | One unit fewer on the entry, dropping it at its last unit; menu, filter and order stay |
| PublicRestaurantPage.RestaurantPage.ToggleVeg | public/js/restaurant.js:290-295 | The veg filter flips; nothing else changes |
| PublicRestaurantPage.RestaurantPage.ToggleSort | public/js/restaurant.js:297-304 | The order moves default, ascending, descending, default; nothing else changes |
| PublicRestaurantPage.RestaurantPage.MenuView | public/js/restaurant.js:119-149 | One bucket exactly for each category among the shown dishes, holding the shown dishes of its category in shown order |
| PublicRestaurantPage.RestaurantPage.SearchView | public/js/restaurant.js:278-287 | The search covers the whole menu, ignoring the veg filter and the sort: one bucket exactly for each category among the matches, holding that category's matches in menu order |
| QuantityCart.AddedKeeps | public/js/app.js:91-101 | Adding keeps ids distinct and quantities positive, adds one unit and the price of the entry that grew (or of the new item), and leaves an entry with the item's id |
| QuantityCart.RemoveAtKeeps | public/js/app.js:103-111 | Dropping an entry keeps the cart well formed and takes away exactly that entry's units and cost |
| QuantityCart.QuantityUpdatedKeeps | public/js/app.js:103-111 | Changing a quantity keeps the cart well formed; the units move by the change while the entry stays, and lose the entry's units when it goes |
| QuantityCart.Splice1Keeps | public/js/app.js:113-119 | `splice(index, 1)` with any index keeps the cart well formed |
| QuantityCart.CartTotal | public/js/app.js:61-64 | The `forEach` that adds up price × quantity computes the cart total |
| RestaurantModel.FindHours | server/src/models/Restaurant.js:180 | The first opening-hours entry for the day, none only when no entry names the day |
| RestaurantModel.IsOpen | server/src/models/Restaurant.js:175-184 | Open only when an entry for the day is not closed and the time lies in its inclusive window by string order; a day with no entry is never open |
| RestaurantModel.IsOpenWindow | server/src/models/Restaurant.js:180-183 | When the day's first entry is open, exactly the times of its inclusive window are open, bounds included |
| RestaurantModel.ClosedDayNeverOpen | server/src/models/Restaurant.js:181 | A day whose first entry is closed is never open |
| RestaurantModel.InvertedWindowNeverOpen | server/src/models/Restaurant.js:183 | A window whose closing time sorts before its opening time, as one across midnight does, is open at no time |
| RestaurantModel.FirstHoursAt | server/src/models/Restaurant.js:180 | The entry found is the first one naming the day |
| RestaurantModel.ValidationErrors | server/src/models/Restaurant.js:3-165 | One error path per failing constraint: the rating outside [0, 5], a negative delivery fee or minimum order, an invalid menu item, a day outside the week |
| RestaurantModel.ValidationErrorsEmpty | server/src/models/Restaurant.js:3-165 | A document has no validation error exactly when it meets every constraint: the required strings, cuisine entries, coordinates and owner, the rating in [0, 5], non-negative fees and times, valid menu items, opening hours with a weekday and both times, payments and chains in their enums and every wallet with an address |
| RestaurantModel.HoursPathsReported | server/src/models/Restaurant.js:110-117 | `openingHours.open` and `openingHours.close` are reported exactly when an entry lacks that time |
| RestaurantModel.ListPathsReported | server/src/models/Restaurant.js:56-152 | `walletAddresses.address` is reported exactly when a wallet lacks an address and `cuisine` when an entry is empty |
| RestaurantModel.ReferencePathsReported | server/src/models/Restaurant.js:73-162 | `owner` is reported exactly when no owner is set and `location.coordinates` when the coordinates are null |
| RestaurantModel.NewRestaurant | server/src/models/Restaurant.js:45-165 | A new document has no rating yet, is active, has its name trimmed and email lower-cased, its owner and coordinates set, and no payments or wallets |
| RestaurantModel.NewRestaurantValid | server/src/models/Restaurant.js:45-165 | The defaults never break a constraint: a new document is valid whenever the supplied values are |
| RestaurantModel.UnknownDayNeverOpen | server/src/models/Restaurant.js:175-184 | For a valid document, a day name outside the week is never open |
| RestaurantRoutes.ListAll | routes/restaurants.js:41-43 | The whole catalogue, every restaurant in its place |
| RestaurantRoutes.Search | routes/restaurants.js:46-53 | Without `q` the handler throws and the answer is 500; otherwise exactly the restaurants whose lower-cased name or cuisine contains the lower-cased query, from the catalogue |
| RestaurantRoutes.EmptySearchListsAll | routes/restaurants.js:41-53 | An empty query lists what GET `/` lists |
| RestaurantRoutes.FindListing | routes/restaurants.js:57 | A restaurant is found only when the path parses as an integer and a restaurant has that id; none when it does not parse or no id matches |
| RestaurantRoutes.GetById | routes/restaurants.js:56-62 | 404 "Restaurant not found" exactly when no restaurant is found; otherwise the one found |
| RestaurantRoutes.GetMenu | routes/restaurants.js:65-71 | Fails exactly when GET `/:id` fails, with the same 404; otherwise the menu of the restaurant it returns |
| RestaurantRoutes.GetByRenderedId | routes/restaurants.js:57-66 | The decimal id of a restaurant, put in the path, finds the first restaurant with that id and its menu |
| RestaurantRoutes.NonNumericNotFound | routes/restaurants.js:57-69 | A path that does not start with a number finds nothing on either route |
| RestaurantRoutes.TrailingTextIgnored | routes/restaurants.js:57 | `parseInt` stops at the first non-digit, so "1abc" finds what "1" finds |
| Transactions.IndexOfId | services/transactionService.js:58-62 | `findByIdAndUpdate`'s lookup: the first position holding the id, or none when no record has it |
| Transactions.MaxAgeMs | services/transactionService.js:181 | The age is one hour exactly when the argument is '1h' or absent (the default), one day for every other value |
| Transactions.TransactionStore.constructor | services/transactionService.js:36 | An empty collection whose id counter starts at 0 |
| Transactions.TransactionStore.CreateTransaction | services/transactionService.js:38-47 | Succeeds exactly when the type is in the schema's enum; the stored record is new, PENDING and stamped now, appended with a fresh id; a type outside the enum fails with "Failed to create transaction record" and stores nothing |
| Transactions.TransactionStore.UpdateTransactionStatus | services/transactionService.js:50-70 | Null exactly when no record has the id, and then nothing changes; otherwise only that record changes, taking the new status always and a hash or error message only when one is given non-empty (the old one stays otherwise), and the updated record is returned |
| Transactions.TransactionStore.CleanupPendingTransactions | services/transactionService.js:178-193 | Keeps exactly the records that are not PENDING-and-older-than-the-cutoff, deletes the rest, and returns how many it deleted; ids stay unique |
| Transactions.Sweep | services/transactionService.js:184-189 | The kept records are exactly those the filter keeps and the count is the number of stale PENDING records |
| Transactions.FilterKeepsUnique | services/transactionService.js:184-189 | Deleting records keeps every id unique and below the counter |
| TransactionQueries.NewestFirst | services/transactionService.js:82-96 | The sort `{ timestamp: -1 }`: a permutation of the matches, ordered by non-increasing timestamp |
| TransactionQueries.Window | services/transactionService.js:97-98 | `skip` then `limit` (0 meaning none): the elements from `skip` on, at most `limit` of them, in order |
| TransactionQueries.WindowsTile | services/transactionService.js:97-98 | Two consecutive pages read together equal one page of their combined size: paging neither skips nor repeats a record |
| TransactionQueries.PageOf | services/transactionService.js:95-107 | The page is exactly the window at `skip` of at most `limit` rows over the matching records, newest first; `total` counts every match; `hasMore` iff total > skip + limit |
| TransactionQueries.HasMoreMeansNextPage | services/transactionService.js:106 | With a positive limit, `hasMore` holds exactly when the next page is non-empty |
| TransactionQueries.GetUserTransactions | services/transactionService.js:73-112 | The page is exactly the window at `skip` (default 0) of `limit` (default 50) rows over the user's records that satisfy the optional type, status and date bounds, newest first; `total` counts all such records; `hasMore` iff total > skip + limit |
| TransactionQueries.GetTransactionDetails | services/transactionService.js:115-130 | Found exactly when a record has the id, and then it is that record; a missing id fails with "Failed to fetch transaction details" (the inner "Transaction not found" is rethrown as that) |
| TransactionQueries.BucketStep | services/transactionService.js:160-167 | One more record changes only its own type's group, by one count and its amount and fee |
| TransactionQueries.GroupByTypeBuckets | services/transactionService.js:160-167 | `$group` by type: a group exists exactly for the types present, and each group summarises exactly that type's records |
| TransactionQueries.PeriodMs | services/transactionService.js:133-150 | '7d' selects 7 days and '30d' 30 days; '24h', the default and every other value select 24 hours |
| TransactionQueries.StatsRow | services/transactionService.js:133-171 | A type appears in the statistics exactly when the user has COMPLETED records of it in the window; its count, total amount and total fees are those records' count and sums, and its average is total over count |
| Users.FindChain | server/src/models/User.js:129 | `find` by chain: the first entry of that chain, or none when no entry has it |
| Users.FindChainAt | server/src/models/User.js:129 | An entry of the chain with none of that chain before it is the one `find` returns |
| Users.UpsertExisting | server/src/models/User.js:129-131 | A chain already present: its first entry takes the new address, the length is unchanged and every other entry is untouched |
| Users.UpsertNew | server/src/models/User.js:132-134 | A chain not yet present: the new entry is pushed at the end |
| Users.UpsertKeepsDistinct | server/src/models/User.js:128-136 | Adding an address keeps at most one entry per chain, and afterwards the chain is found holding the new address |
| Users.FindChainSamePrefix | server/src/models/User.js:129 | Lists that agree on their chains up to a point, and differ only by entries of other chains, give the same lookup |
| Users.UpsertOtherChain | server/src/models/User.js:128-136 | Adding an address for one chain leaves every other chain's lookup and entry as it was |
| Users.UpsertIdempotent | server/src/models/User.js:128-136 | Adding the same address twice gives the same list as adding it once |
| Users.UserDocument.constructor | server/src/models/User.js:4-88 | A new document: email trimmed and lower-cased, name and phone trimmed, role "user" unless given, no wallets, the password counted as modified |
| Users.UserDocument.Save | server/src/models/User.js:4-116 | Succeeds exactly when the schema validators pass (required fields, password of at least 6, role in its enum, every wallet with a chain of the enum and an address); a successful save replaces a modified password by its hash and clears the modified flag; a failed save changes nothing |
| Users.UserDocument.AddWalletAddress | server/src/models/User.js:128-136 | The wallets become the upsert of the old ones, even when the save then fails; the save succeeds exactly when the other fields were valid and every wallet afterwards has an enum chain and an address, so an empty address or unknown chain is refused; a successful save hashes a modified password and clears the flag, a failed one leaves both; distinct chains stay distinct |
| Users.ChainsAfterUpsert | server/src/models/User.js:128-136 | After adding an address every chain is in the enum exactly when every chain was before and the new one is |
| Users.WalletsAfterUpsert | server/src/models/User.js:128-136 | After adding an address every wallet is valid only if the new chain is in the enum and the address is non-empty, and it is whenever every wallet was valid before and both hold |
| WalletService.GetBalance | services/walletService.js:35-56 | An unknown account fails with "Failed to get wallet balance"; otherwise PI is the last native entry's balance and PCM the last entry of PCM from the configured issuer, each '0' when there is none |
| WalletService.GetBalancePiSlot | services/walletService.js:38-49 | The PI slot is '0' when no entry is native and otherwise the balance of the latest native entry |
| WalletService.DepositPi | services/walletService.js:59-76 | Succeeds exactly when the user has a wallet key and the payment service answers; then the answer is returned for a DEPOSIT payment to that wallet; every failure is "Failed to deposit Pi" |
| WalletService.DepositPiAsWritten | services/walletService.js:59-76 | As written every call fails with "Failed to deposit Pi", since `User` is never required |
| WalletService.DepositPiAsWrittenNeverPays | services/walletService.js:59-76 | A user with a wallet key whose payment is answered is paid by the corrected deposit and not as written |
| WalletService.CreatePcmTrustlineAsWritten | services/walletService.js:104-134 | As written: nothing is ever submitted, and the call succeeds exactly when the account exists and already holds the PCM trustline |
| WalletService.CreatePcmTrustlineAsWrittenNeverOpens | services/walletService.js:112-128 | An account without the trustline never gets one as written, even on a network that accepts every transaction, where the corrected call succeeds |
| WalletService.CreatePcmTrustline | services/walletService.js:104-134 | Nothing is submitted when the trustline exists; otherwise at most one change-trust transaction for the PCM asset at the base fee, signed with the owner's secret; success exactly when the trustline exists or that transaction is accepted; failures are "Failed to create PCM trustline" |
| WalletService.DepositPcm | services/walletService.js:79-101 | Without a wallet key it fails and submits nothing; otherwise it submits what the trustline step submits, and succeeds exactly when that step succeeds and the DEPOSIT_PCM payment in PCM is answered; every failure is "Failed to deposit PCM" |
| WalletService.DepositPcmAsWritten | services/walletService.js:79-101 | As written every call fails with "Failed to deposit PCM" and submits nothing |
| WalletService.DepositPcmAsWrittenNeverPays | services/walletService.js:79-101 | A user with a wallet key, a trustline step that succeeds and an answered payment is paid by the corrected deposit and not as written |
| WalletService.SummariseAll | services/walletService.js:150-156 | One summary per operation, in order, carrying its type, amount, sender and receiver; the asset is "PI" for native operations and the asset code otherwise |
| WalletService.GetTransactionHistory | services/walletService.js:137-165 | An unknown account fails with "Failed to get transaction history"; otherwise the newest 20 transactions (all when fewer), newest first, each with its id, creation time and operations summarised |
| Withdrawals.ValidateWithdrawal | services/withdrawalService.js:12-31 | As written: "Invalid withdrawal amount" exactly when the amount is missing, not a number or not positive; "Insufficient balance" exactly when it is valid but above the balance; "Daily withdrawal limit exceeded" exactly when the user already has completed withdrawals of that currency in the last 24 hours and their total plus the amount exceeds 1000 PI or 5000 PCM; nothing else is refused |
| Withdrawals.ValidateWithdrawalSkipsFirstCap | services/withdrawalService.js:22-30 | A first withdrawal of 1500 PI in a day passes as written, while the corrected check refuses it |
| Withdrawals.WindowOfOne | services/transactionService.js:133-171 | A completed 950 PI withdrawal stamped now is the whole 24-hour window, totalling 950 |
| Withdrawals.ValidateWithdrawalCapExample | services/withdrawalService.js:27-30 | After 950 PI withdrawn today, 50 more reaches the cap exactly and passes; 60 more is refused |
| Withdrawals.ValidateWithdrawalCapped | services/withdrawalService.js:12-31 | Corrected: the same amount and balance errors, and it passes exactly when the day's completed withdrawals plus the amount stay within the cap, none counting as zero |
| Withdrawals.MemoNamesRecord | services/withdrawalService.js:61 | The memo "Food Pi Hub withdrawal: <id>" (or "… PCM withdrawal: <id>") reads back as the record's id |
| Withdrawals.MemoTooLong | services/withdrawalService.js:61 | The memo built from a 24-digit object id is 48 bytes for Pi and 52 for PCM, over the ledger SDK's 28-byte text-memo limit |
| Withdrawals.WithdrawAsWritten | services/withdrawalService.js:34-147 | As written: the PENDING record is stored, nothing is submitted, and the call always fails with "Failed to process Pi withdrawal" or "Failed to process PCM withdrawal" |
| Withdrawals.Withdraw | services/withdrawalService.js:34-147 | A PENDING withdrawal record of the right type and destination is always created first; success exactly when the source account exists, the base fee is known and the payment is accepted; then the record becomes COMPLETED with the hash and the receipt names it; otherwise the record stays PENDING and the error is "Failed to process Pi withdrawal" or "Failed to process PCM withdrawal" |
| Withdrawals.GetWithdrawalFees | services/withdrawalService.js:150-164 | Succeeds exactly when the base fee is known; the total fee is the base fee for one operation; the currency is the one asked for, 'PI' by default; otherwise "Failed to fetch withdrawal fees" |
| Withdrawals.EstimateBrackets | services/withdrawalService.js:167-179 | The estimate is 5000 plus the amount rounded down to a multiple of 1000: no more than the amount and less than 1000 below it |
| Withdrawals.EstimateMonotone | services/withdrawalService.js:167-179 | A larger amount never gets a shorter estimate |

## Left out

- Rendering, the DOM, toasts, alerts, animations, the search debounce timer, redirect timers and `localStorage` persistence in every client file: the pages are modelled by the state they keep and what they would display.
- Floating point: money is integer cents and rates are `real`; IEEE rounding and `toFixed`/`Intl` formatting are not reproduced, and checkout's `toFixed(2)` amount is the integer total.
- `parseInt`'s hexadecimal "0x" prefix and its radix argument are not modelled: `Text.ParseInt` reads leading whitespace, an optional sign and decimal digits.
- The restaurant search with an array-valued `q` (Express query parsing) is not modelled; `q` is a string or absent.
- The Pi payment metadata (order id, cart, timestamp) is not part of the payment request the model builds.
- The Redis ping behind the system status is the input `redisHealthy`; the rate-limiter counters are an input map.
- `ownsRestaurant` (middleware/auth.js:53-67) is not modelled: `Restaurant` is not imported there, so it always answers 403.
- `createWallet` (services/walletService.js:12-32) is not modelled: it generates a random key pair, which has no deterministic model (and it calls the `User` model that the service never requires).
- `completedAt` is written by nobody in the services modelled, so the average processing time is over whatever the records hold.
- bcrypt hashing and comparison, JSON web token signing and verification, the Stellar network and the Pi SDK are function parameters; `comparePassword` (server/src/models/User.js:119-125) is the `matches` parameter.
- The GraphQL schema (server/src/graphql/schema.js) is not modelled as such. The corrected resolvers take documents as values in the shape it declares: dishes with `options` and `variations`, saved addresses looked up by id. The Mongoose models used at run time lack that shape, and the consequences are listed under Findings.
- Orders.CreateOrder: routes/orders.js imports the middleware module's exported object rather than its `auth` function and passes it to `router.get` at line 9. Express throws when a route handler is not a function, so the module fails while loading and none of its routes is ever registered. The model describes each route as its handler defines it, behind an authenticated caller.
- Text.Lower: only the ASCII letters are lower-cased; `toLowerCase`'s Unicode case mapping of other letters is not modelled.
- TransactionQueries.GetUserTransactions: the caller's `sort` option (services/transactionService.js:82) is not modelled; the page is always in the default order, newest first.
- Admin.GetAllTransactions: the caller's `sort` option (services/adminService.js:109) is not modelled; the page is always in the default order, newest first.
- PublicRestaurantPage.RestaurantPage.ToggleVeg: `querySelector` rejects the `:contains(...)` selector at public/js/restaurant.js:290 with a SyntaxError. The script therefore stops there: no filter handler is attached, and the DOMContentLoaded initialiser at line 351 is never registered. As written a click changes nothing. The model gives the handler the behaviour its body defines.
- PublicRestaurantPage.RestaurantPage.ToggleSort: the same SyntaxError stops the script before line 297 attaches this handler, so as written a click changes nothing; the model gives the handler the behaviour its body defines.
- RestaurantModel.ValidationErrors: `required` on the coordinates array is read as Mongoose 5 and later read it, where only a null array fails and an empty one passes. The `location.type` enum, the free-form address, the `images` list and the unique email index are not modelled. An error is reported per constraint; Mongoose's indexed keys for array elements ("openingHours.0.day") are not reproduced.
- The GET routes for the order list and order detail and GET `/me` only read and return documents; they are not modelled.
- `groupByCategory`'s object key order (insertion order in JavaScript) is not modelled: the grouping is a map.
- `isOpen` derives the weekday with `toLocaleLowerCase` on a Date, which throws; the weekday and the time of day are inputs.
- The menu returned by `/:id/menu` is modelled as a flat list of dishes, not grouped in sections.
- `addAddress`/`removeAddress` of the GraphQL resolvers are not modelled.
- `CartScreen`: the effect that groups `route.params.cart` runs only when that parameter is truthy; the model groups the list it is given.
- `Checkout.CheckoutPage.PayClicked`: the totals shown are not redrawn after the confirmation clears the cart, so the page shows stale totals, as in the source.
- Races between concurrent requests (the email uniqueness check before saving, validate-then-withdraw) are not modelled; each call runs alone. A unique-index violation on save is covered only by the `dbUp` parameter.
- `AuthRoutes.Applied`: mongoose's casting of a non-string value under an allowed key is not modelled; such a field is applied as no change.
- Linking a Pi account with an undefined `piUserId` queries for a missing field; the model takes the holder of the id as an input.
- The resolvers' pub/sub notifications and the socket service are not modelled.
- Withdrawals.Withdraw: a failure after the record is created leaves it PENDING, as the code does; documentation describing it as FAILED is not followed. Its memo names the record by its `nat` id in decimal, and the ledger SDK's 28-byte limit on text memos is not applied to it. The code writes the record's 24-digit object id into the memo (services/withdrawalService.js:61 and :119), which makes it 48 or 52 bytes, so `Memo.text` throws and as written no withdrawal is ever submitted; `Withdrawals.WithdrawAsWritten` models that path. The SDK itself is not part of this model, and no single correction is evident, so no corrected memo is modelled.
- PcmService.CreateTrustline: the ledger's signature check is not modelled. The change-trust transaction's source is the destination account (services/pcmService.js:14), but only the distributor signs it (line 35). A ledger would refuse that unless the distributor is a signer of the destination account, and the model leaves acceptance to the `submit` parameter.
- Orders.UpdateOrderStatus: only the in-memory document is modelled. When the save rejects it, the route answers 500 and the stored document keeps its old status; the model does not separate the stored copy from the in-memory one.

## Findings

| source | as written | input that shows it | evidently intended | confidence | as-written member | corrected member |
|---|---|---|---|---|---|---|
| services/walletService.js:126 | signs the trustline transaction with `user.wallet.encryptedSecretKey`, but no `user` is in scope | any account without a PCM trustline: the call throws and reports "Failed to create PCM trustline" | sign with the wallet owner's secret and submit the change-trust transaction | high, not executed | WalletService.CreatePcmTrustlineAsWritten | WalletService.CreatePcmTrustline |
| services/withdrawalService.js:28-30 | the daily cap is checked only when a statistics row exists | a first withdrawal of 1500 PI in a day, with 2000 available, passes | a missing row counts as 0 withdrawn, so 1500 PI exceeds the 1000 cap | medium, not executed | Withdrawals.ValidateWithdrawal | Withdrawals.ValidateWithdrawalCapped |
| server/src/graphql/resolvers.js:97 | signup creates the user with role 'USER', outside the schema's enumeration | any signup with a free email: `User.create` fails validation | the schema's default role 'user' | high, not executed | GraphQLResolvers.SignupAsWritten | GraphQLResolvers.Signup |
| models/User.js:74 | `generateAuthToken` calls `jwt.sign`, but the file never requires jsonwebtoken | any valid registration: the user is stored and the reply is 500, so a retry gets "User already exists" | sign the token with the jsonwebtoken library | high, not executed | AuthRoutes.RegisterAsWritten | AuthRoutes.Register |
| server/src/graphql/resolvers.js:194 | looks the delivery address up in `userDoc.address`, but the user schema names that array `addresses` | any signed-in `createOrder` whose restaurant exists: `undefined.id(...)` throws a TypeError and no order is created | look the address up among the user's saved addresses | high, not executed | GraphQLResolvers.CreateOrderAsWritten | GraphQLResolvers.CreateOrder |
| server/src/graphql/resolvers.js:211-228 | prices choices through `menuItem.options` and `menuItem.variations`, which the menu item schema does not define (its options sit under `customization`) | a dish ordered with one option id: `undefined.id(...)` throws a TypeError | add the price of each chosen option and variation the dish offers | high, not executed | GraphQLResolvers.ItemTotalAsWritten | GraphQLResolvers.AddChoices |
| server/src/graphql/resolvers.js:91 | hashes the password before `User.create`, whose pre-save hook hashes it a second time | signing up with "secret123" stores the hash of its hash, so logging in with "secret123" is refused | hand the plain password to the document and let the hook hash it once | high, not executed | GraphQLResolvers.SignupHashingTwice | GraphQLResolvers.Signup |
| services/walletService.js:61 | `depositPi` calls `User.findById`, but the service never requires the `User` model | any deposit by a user with a wallet: "Failed to deposit Pi" | require the user model and look the user up | high, not executed | WalletService.DepositPiAsWritten | WalletService.DepositPi |
| services/walletService.js:81 | `depositPcm` calls `User.findById`, but the service never requires the `User` model | any deposit by a user with a wallet: "Failed to deposit PCM" and no trustline is created | require the user model and look the user up | high, not executed | WalletService.DepositPcmAsWritten | WalletService.DepositPcm |
| services/adminService.js:345 | `_reconcileByType` calls `this._verifyDepositOnChain` (and at line 349 `this._verifyWithdrawalCompletion`), which the service never defines | reconciling any stored PI_DEPOSIT record: the call throws a TypeError, the reply is 'Failed to reconcile transaction' and the record stays as it was | verify the deposit or withdrawal and mark the record COMPLETED or FAILED accordingly | high, not executed | Admin.ReconcileTransactionAsWritten | Admin.ReconcileTransaction |
| server/src/graphql/resolvers.js:281 | the status and cancel resolvers (also line 314) grant the administrator override to the role string 'ADMIN', which the account schema's role enumeration ('user', 'admin', 'restaurant_owner') does not contain | an account with role 'admin' setting the status of another owner's order is refused "Not authorized" | compare against the schema's 'admin' role | high, not executed | GraphQLResolvers.AdminOverrideNeverFires | GraphQLResolvers.StatusChangeCheck |

=== FILE: admin.dfy ===
/** services/adminService.js: system-wide statistics, admin queries, health
    classification, alerts and manual reconciliation over the transaction
    store. */
module Admin {
  import opened Wrappers
  import opened Collections
  import opened Text
  import opened Transactions
  import opened TransactionQueries
  import opened Sorting

  /** One row of `getSystemStats`. */
  datatype SystemStatEntry = SystemStatEntry(
    count: nat, totalAmount: real, avgAmount: real,
    successCount: nat, failureCount: nat, totalFees: real)

  function Since(start: int): TxRecord -> bool { (r: TxRecord) => r.timestamp >= start }

  function SinceOfType(start: int, t: TxType): TxRecord -> bool
  {
    (r: TxRecord) => r.timestamp >= start && r.txType == t
  }

  function SystemRow(g: Group): SystemStatEntry
  {
    SystemStatEntry(g.count, g.totalAmount, if g.count == 0 then 0.0 else g.totalAmount / g.count as real,
      g.successCount, g.failureCount, g.totalFees)
  }

  /** `getSystemStats`: every record since `startDate`, whatever its status
      or user, grouped by type. */
  function SystemStats(records: seq<TxRecord>, startDate: int): map<TxType, SystemStatEntry>
  {
    var g := GroupByType(Filter(records, Since(startDate)));
    map t | t in g :: SystemRow(g[t])
  }

  /** A type has a row exactly when some record of that type is at least as
      recent as `startDate`; `count` includes every status, `successCount`
      counts the COMPLETED ones and `failureCount` the FAILED ones, so the
      two never exceed `count`; `totalAmount` and `totalFees` sum their
      amounts and fees (a missing fee adds nothing) and `avgAmount` is the
      mean amount. */
  lemma SystemStatsRow(records: seq<TxRecord>, startDate: int, t: TxType)
    ensures var stats := SystemStats(records, startDate);
            var m := Filter(records, SinceOfType(startDate, t));
            && (t in stats <==> |m| > 0)
            && (t in stats ==>
                 && stats[t].count == |m|
                 && stats[t].successCount == Count(m, HasStatus(Completed))
                 && stats[t].failureCount == Count(m, HasStatus(Failed))
                 && stats[t].successCount + stats[t].failureCount <= stats[t].count
                 && stats[t].totalAmount == SumReal(m, Amount)
                 && stats[t].avgAmount == SumReal(m, Amount) / (|m| as real)
                 && stats[t].totalFees == SumReal(m, FeeOf))
  {
    var w := Filter(records, Since(startDate));
    var m := Filter(records, SinceOfType(startDate, t));
    var g := GroupByType(w);
    assert SystemStats(records, startDate) == map t | t in g :: SystemRow(g[t]);
    GroupByTypeBuckets(w, t);
    FilterFilter(records, Since(startDate), OfType(t), SinceOfType(startDate, t));
    assert Filter(w, OfType(t)) == m;
    CountDisjoint(m, HasStatus(Completed), HasStatus(Failed));
  }

  predicate IsPendingWithdrawal(r: TxRecord) { IsWithdrawal(r.txType) && r.status == Pending }

  function PendingWithdrawal(): TxRecord -> bool { (r: TxRecord) => IsPendingWithdrawal(r) }

  /** `getPendingWithdrawals`: exactly the PENDING withdrawals of either
      currency, newest first. */
  function GetPendingWithdrawals(records: seq<TxRecord>): (r: seq<TxRecord>)
    ensures multiset(r) == multiset(Filter(records, PendingWithdrawal()))
    ensures forall i :: 0 <= i < |r| ==> r[i] in records && IsPendingWithdrawal(r[i])
    ensures forall i :: 0 <= i < |records| && IsPendingWithdrawal(records[i]) ==> records[i] in r
    ensures forall i, j :: 0 <= i < j < |r| ==> r[i].timestamp >= r[j].timestamp
  {
    var r := NewestFirst(Filter(records, PendingWithdrawal()));
    SameElements(r, Filter(records, PendingWithdrawal()));
    SameElements(Filter(records, PendingWithdrawal()), r);
    r
  }

  /** The options of `getFailedTransactions`. */
  datatype FailedQuery = FailedQuery(startDate: Option<int>, endDate: Option<int>, limit: Option<nat>, skip: Option<nat>)

  function FailedIn(q: FailedQuery): TxRecord -> bool
  {
    (r: TxRecord) => r.status == Failed && InRange(r.timestamp, q.startDate, q.endDate)
  }

  /** `getFailedTransactions`: only FAILED records within the inclusive date
      bounds, newest first, paged with the defaults limit 50 and skip 0. */
  function GetFailedTransactions(records: seq<TxRecord>, q: FailedQuery): (p: Page)
    ensures forall i :: 0 <= i < |p.transactions| ==>
              p.transactions[i] in records && p.transactions[i].status == Failed
              && InRange(p.transactions[i].timestamp, q.startDate, q.endDate)
    ensures p.total == Count(records, FailedIn(q))
    ensures p.transactions == Window(NewestFirst(Filter(records, FailedIn(q))), q.skip.GetOr(0), q.limit.GetOr(50))
    ensures q.limit.None? ==> |p.transactions| <= 50
    ensures p.hasMore <==> p.total > q.skip.GetOr(0) + q.limit.GetOr(50)
  {
    PageOf(records, FailedIn(q), q.skip.GetOr(0), q.limit.GetOr(50))
  }

  /** The options of `getAllTransactions` (the custom sort is not modelled). */
  datatype AdminQuery = AdminQuery(
    txType: Option<TxType>, status: Option<TxStatus>, userId: Option<nat>,
    startDate: Option<int>, endDate: Option<int>,
    minAmount: Option<real>, maxAmount: Option<real>,
    limit: Option<nat>, skip: Option<nat>)

  /** A bound given as 0 is falsy and does not restrict. */
  predicate TruthyBound(b: Option<real>) { b.Some? && b.value != 0.0 }

  predicate MatchesAdminQuery(r: TxRecord, q: AdminQuery)
  {
    && (q.txType.None? || r.txType == q.txType.value)
    && (q.status.None? || r.status == q.status.value)
    && (q.userId.None? || r.userId == q.userId.value)
    && InRange(r.timestamp, q.startDate, q.endDate)
    && (!TruthyBound(q.minAmount) || r.amount >= q.minAmount.value)
    && (!TruthyBound(q.maxAmount) || r.amount <= q.maxAmount.value)
  }

  function AdminMatch(q: AdminQuery): TxRecord -> bool { (r: TxRecord) => MatchesAdminQuery(r, q) }

  /** `getAllTransactions`: the records matching every given filter, with
      falsy amount bounds ignored, newest first and paged. */
  function GetAllTransactions(records: seq<TxRecord>, q: AdminQuery): (p: Page)
    ensures forall i :: 0 <= i < |p.transactions| ==>
              p.transactions[i] in records && MatchesAdminQuery(p.transactions[i], q)
    ensures p.transactions == Window(NewestFirst(Filter(records, AdminMatch(q))), q.skip.GetOr(0), q.limit.GetOr(50))
    ensures p.total == Count(records, AdminMatch(q))
    ensures q.limit.None? ==> |p.transactions| <= 50
    ensures p.hasMore <==> p.total > q.skip.GetOr(0) + q.limit.GetOr(50)
  {
    PageOf(records, AdminMatch(q), q.skip.GetOr(0), q.limit.GetOr(50))
  }

  /** A minimum amount of 0 filters exactly like no minimum. */
  lemma {:induction false} ZeroMinimumIgnored(records: seq<TxRecord>, q: AdminQuery)
    ensures GetAllTransactions(records, q.(minAmount := Some(0.0))) == GetAllTransactions(records, q.(minAmount := None))
  {
    var q0, q1 := q.(minAmount := Some(0.0)), q.(minAmount := None);
    FilterSamePredicate(records, AdminMatch(q0), AdminMatch(q1));
  }

  const HOUR_WINDOW: int := HOUR_MS

  function InLastHour(now: int): TxRecord -> bool { (r: TxRecord) => r.timestamp >= now - HOUR_MS }

  function FailedInLastHour(now: int): TxRecord -> bool
  {
    (r: TxRecord) => r.timestamp >= now - HOUR_MS && r.status == Failed
  }

  /** A part over a positive whole lies in [0, 1]. */
  lemma RatioBounds(part: nat, whole: nat)
    requires part <= whole && whole > 0
    ensures 0.0 <= part as real / whole as real <= 1.0
  {
  }

  /** `_getErrorRate`: 0 for an hour without transactions, otherwise the
      failed share of the last hour's transactions. */
  function ErrorRate(records: seq<TxRecord>, now: int): (rate: real)
    ensures 0.0 <= rate <= 1.0
    ensures Count(records, InLastHour(now)) == 0 ==> rate == 0.0
    ensures Count(records, InLastHour(now)) > 0 ==>
              rate == Count(records, FailedInLastHour(now)) as real / Count(records, InLastHour(now)) as real
  {
    var total := Count(records, InLastHour(now));
    var failed := Count(records, FailedInLastHour(now));
    FilterStronger(records, InLastHour(now), FailedInLastHour(now));
    if total == 0 then 0.0
    else
      RatioBounds(failed, total);
      failed as real / total as real
  }

  function CompletedInLastHour(now: int): TxRecord -> bool
  {
    (r: TxRecord) => r.status == Completed && r.timestamp >= now - HOUR_MS
  }

  function ProcessingTime(r: TxRecord): real
  {
    match r.completedAt
    case None => 0.0
    case Some(c) => (c - r.timestamp) as real
  }

  predicate AllCompletedAt(m: seq<TxRecord>)
  {
    forall i :: 0 <= i < |m| ==> m[i].completedAt.Some?
  }

  /** `_getAverageProcessingTime`: 0 for an hour without completed records;
      otherwise the mean of `completedAt - timestamp`, which is NaN as soon
      as one of them has no `completedAt`. */
  function AverageProcessingTime(records: seq<TxRecord>, now: int): (t: JsNum)
    ensures Count(records, CompletedInLastHour(now)) == 0 ==> t == Val(0.0)
    ensures t.NaN? <==> !AllCompletedAt(Filter(records, CompletedInLastHour(now)))
    ensures t.Val? && Count(records, CompletedInLastHour(now)) > 0 ==>
              t.r == SumReal(Filter(records, CompletedInLastHour(now)), ProcessingTime)
                     / Count(records, CompletedInLastHour(now)) as real
  {
    var m := Filter(records, CompletedInLastHour(now));
    if |m| == 0 then Val(0.0)
    else if !AllCompletedAt(m) then NaN
    else Val(SumReal(m, ProcessingTime) / |m| as real)
  }

  /** Records never completed before they were created give a
      non-negative average. */
  lemma AverageProcessingTimeNonNegative(records: seq<TxRecord>, now: int)
    requires forall i :: 0 <= i < |records| ==>
               records[i].completedAt.Some? ==> records[i].completedAt.value >= records[i].timestamp
    ensures AverageProcessingTime(records, now).Val? ==> AverageProcessingTime(records, now).r >= 0.0
  {
    var m := Filter(records, CompletedInLastHour(now));
    SumRealNonNegative(m);
  }

  lemma {:induction false} SumRealNonNegative(m: seq<TxRecord>)
    requires forall x :: x in m ==> x.completedAt.Some? ==> x.completedAt.value >= x.timestamp
    ensures SumReal(m, ProcessingTime) >= 0.0
  {
    if m != [] {
      SumRealNonNegative(m[..|m| - 1]);
    }
  }

  datatype SystemStatus = Healthy | Warning | Degraded

  function Rank(s: SystemStatus): nat
  {
    match s case Healthy => 0 case Warning => 1 case Degraded => 2
  }

  /** `_calculateSystemStatus`: DEGRADED above a 10% error rate, above 5000
      ms processing or with Redis down; else WARNING above 5% or 2000 ms;
      else HEALTHY. A NaN processing time exceeds no threshold. */
  function CalculateSystemStatus(errorRate: real, processingTime: JsNum, redisHealthy: bool): (s: SystemStatus)
    ensures s == Degraded <==> errorRate > 0.1 || processingTime.Gt(5000.0) || !redisHealthy
    ensures s == Warning <==> !(errorRate > 0.1 || processingTime.Gt(5000.0) || !redisHealthy)
                              && (errorRate > 0.05 || processingTime.Gt(2000.0))
  {
    if errorRate > 0.1 || processingTime.Gt(5000.0) || !redisHealthy then Degraded
    else if errorRate > 0.05 || processingTime.Gt(2000.0) then Warning
    else Healthy
  }

  /** Worse inputs never give a better status. */
  lemma StatusMonotone(e1: real, p1: real, h1: bool, e2: real, p2: real, h2: bool)
    requires e1 <= e2 && p1 <= p2 && (h2 ==> h1)
    ensures Rank(CalculateSystemStatus(e1, Val(p1), h1)) <= Rank(CalculateSystemStatus(e2, Val(p2), h2))
  {
  }

  /** The health report of `getSystemHealth` (CPU usage is not modelled). */
  datatype HealthReport = HealthReport(
    timestamp: int, transactionsPerHour: nat, activeUsers: nat,
    averageProcessingTime: JsNum, errorRate: real, redisHealthy: bool, status: SystemStatus)

  /** `getSystemHealth`: the hour's metrics and the status classified from
      them; the active-user count and the Redis probe are inputs. */
  function GetSystemHealth(records: seq<TxRecord>, now: int, activeUsers: nat, redisHealthy: bool): (h: HealthReport)
    ensures h.timestamp == now && h.activeUsers == activeUsers && h.redisHealthy == redisHealthy
    ensures h.transactionsPerHour == Count(records, InLastHour(now))
    ensures h.errorRate == ErrorRate(records, now)
    ensures h.averageProcessingTime == AverageProcessingTime(records, now)
    ensures h.status == CalculateSystemStatus(h.errorRate, h.averageProcessingTime, redisHealthy)
    ensures 0.0 <= h.errorRate <= 1.0
    ensures h.status == Degraded <==> h.errorRate > 0.1 || h.averageProcessingTime.Gt(5000.0) || !redisHealthy
    ensures h.status == Warning <==> !(h.errorRate > 0.1 || h.averageProcessingTime.Gt(5000.0) || !redisHealthy)
                                     && (h.errorRate > 0.05 || h.averageProcessingTime.Gt(2000.0))
    ensures h.transactionsPerHour == 0 ==> h.status == (if redisHealthy then Healthy else Degraded)
  {
    var rate := ErrorRate(records, now);
    var avg := AverageProcessingTime(records, now);
    FilterStronger(records, InLastHour(now), CompletedInLastHour(now));
    HealthReport(now, Count(records, InLastHour(now)), activeUsers, avg, rate, redisHealthy,
      CalculateSystemStatus(rate, avg, redisHealthy))
  }

  datatype Severity = High | Medium

  /** The alerts of `getSystemAlerts`, with the figure each message reports. */
  datatype Alert =
    | HighFailureRate(rate: real)
    | LargePendingWithdrawals(count: nat)
    | RateLimitViolations(blocked: nat)

  function SeverityOf(a: Alert): Severity
  {
    if a.HighFailureRate? then High else Medium
  }

  /** A Redis key and the number its counter holds. */
  datatype RateCounter = RateCounter(key: string, count: JsNum)

  predicate IsRateKey(c: RateCounter) { StartsWith(c.key, "rl:") }

  predicate OverLimit(c: RateCounter) { c.count.Gt(100.0) }

  function RateKey(): RateCounter -> bool { (c: RateCounter) => IsRateKey(c) }

  function Violation(): RateCounter -> bool { (c: RateCounter) => OverLimit(c) }

  predicate IsLargePendingWithdrawal(r: TxRecord) { IsPendingWithdrawal(r) && r.amount > 1000.0 }

  function LargePending(): TxRecord -> bool { (r: TxRecord) => IsLargePendingWithdrawal(r) }

  function AlertRank(a: Alert): nat
  {
    match a case HighFailureRate(_) => 0 case LargePendingWithdrawals(_) => 1 case RateLimitViolations(_) => 2
  }

  /** The loop over the rate-limit keys: counts the counters above 100. */
  method CountViolations(keys: seq<RateCounter>) returns (blocked: nat)
    ensures blocked == Count(keys, Violation())
  {
    blocked := 0;
    var i := 0;
    while i < |keys|
      invariant 0 <= i <= |keys|
      invariant blocked == |Filter(keys[..i], Violation())|
    {
      assert keys[..i + 1][..i] == keys[..i];
      if OverLimit(keys[i]) {
        blocked := blocked + 1;
      }
      i := i + 1;
    }
    assert keys[..i] == keys;
  }

  /** Some `rl:` counter is over the limit. */
  predicate AnyViolation(redisEntries: seq<RateCounter>)
  {
    exists i :: 0 <= i < |redisEntries| && IsRateKey(redisEntries[i]) && OverLimit(redisEntries[i])
  }

  lemma ViolationsCounted(redisEntries: seq<RateCounter>)
    ensures Count(Filter(redisEntries, RateKey()), Violation()) > 0 <==> AnyViolation(redisEntries)
  {
    var keys := Filter(redisEntries, RateKey());
    FilterNonEmpty(keys, Violation());
    if AnyViolation(redisEntries) {
      var j :| 0 <= j < |redisEntries| && IsRateKey(redisEntries[j]) && OverLimit(redisEntries[j]);
      assert redisEntries[j] in keys;
    }
  }

  /** The list holds an alert of the kind ranked `k`. */
  predicate HasAlert(alerts: seq<Alert>, k: nat)
  {
    exists i :: 0 <= i < |alerts| && AlertRank(alerts[i]) == k
  }

  /** The alert of rank `k`, when the slot holds one. */
  predicate Slot(a: seq<Alert>, k: nat)
  {
    |a| <= 1 && forall i :: 0 <= i < |a| ==> AlertRank(a[i]) == k
  }

  /** Three optional alerts pushed in rank order. */
  lemma PushedInOrder(first: seq<Alert>, second: seq<Alert>, third: seq<Alert>)
    requires Slot(first, 0) && Slot(second, 1) && Slot(third, 2)
    ensures var alerts := first + second + third;
            && (forall i, j :: 0 <= i < j < |alerts| ==> AlertRank(alerts[i]) < AlertRank(alerts[j]))
            && (HasAlert(alerts, 0) <==> first != [])
            && (HasAlert(alerts, 1) <==> second != [])
            && (HasAlert(alerts, 2) <==> third != [])
            && (forall i :: 0 <= i < |alerts| && AlertRank(alerts[i]) == 1 ==> alerts[i] == second[0])
            && (forall i :: 0 <= i < |alerts| && AlertRank(alerts[i]) == 2 ==> alerts[i] == third[0])
  {
    var alerts := first + second + third;
    if first != [] { assert alerts[0] == first[0]; }
    if second != [] { assert alerts[|first|] == second[0]; }
    if third != [] { assert alerts[|first| + |second|] == third[0]; }
  }

  /** `getSystemAlerts`: a failure-rate alert (rank 0) when more than a
      tenth of the last hour's transactions failed, none when there were
      none; a withdrawal alert (rank 1) when some pending withdrawal exceeds
      1000; a rate-limit alert (rank 2) when some `rl:` counter exceeds 100;
      pushed in that order. */
  method GetSystemAlerts(records: seq<TxRecord>, now: int, redisEntries: seq<RateCounter>) returns (alerts: seq<Alert>)
    ensures forall i, j :: 0 <= i < j < |alerts| ==> AlertRank(alerts[i]) < AlertRank(alerts[j])
    ensures HasAlert(alerts, 0) <==>
              Count(records, InLastHour(now)) > 0
              && Count(records, FailedInLastHour(now)) as real / Count(records, InLastHour(now)) as real > 0.1
    ensures HasAlert(alerts, 1) <==> exists i :: 0 <= i < |records| && IsLargePendingWithdrawal(records[i])
    ensures forall i :: 0 <= i < |alerts| && alerts[i].LargePendingWithdrawals? ==>
              alerts[i].count == Count(records, LargePending())
    ensures HasAlert(alerts, 2) <==> AnyViolation(redisEntries)
    ensures forall i :: 0 <= i < |alerts| && alerts[i].RateLimitViolations? ==>
              alerts[i].blocked == Count(Filter(redisEntries, RateKey()), Violation())
  {
    var first := FailureRateSlot(records, now);
    var second := LargePendingSlot(records);
    var third := RateLimitSlot(redisEntries);
    PushedInOrder(first, second, third);
    alerts := first + second + third;
  }

  /** The failure-rate alert of `getSystemAlerts`, when one is due. */
  method FailureRateSlot(records: seq<TxRecord>, now: int) returns (first: seq<Alert>)
    ensures Slot(first, 0)
    ensures first != [] <==>
              Count(records, InLastHour(now)) > 0
              && Count(records, FailedInLastHour(now)) as real / Count(records, InLastHour(now)) as real > 0.1
  {
    var recent := Count(records, InLastHour(now));
    var failed := Count(records, FailedInLastHour(now));
    first := [];
    if recent > 0 && failed as real / recent as real > 0.1 {
      first := [HighFailureRate(failed as real / recent as real)];
    }
  }

  /** The pending-withdrawal alert of `getSystemAlerts`, when one is due. */
  method LargePendingSlot(records: seq<TxRecord>) returns (second: seq<Alert>)
    ensures Slot(second, 1)
    ensures second != [] <==> exists i :: 0 <= i < |records| && IsLargePendingWithdrawal(records[i])
    ensures second != [] ==> second[0].LargePendingWithdrawals? && second[0].count == Count(records, LargePending())
  {
    var large := Count(records, LargePending());
    FilterNonEmpty(records, LargePending());
    second := if large > 0 then [LargePendingWithdrawals(large)] else [];
  }

  /** The rate-limit alert of `getSystemAlerts`, when one is due. */
  method RateLimitSlot(redisEntries: seq<RateCounter>) returns (third: seq<Alert>)
    ensures Slot(third, 2)
    ensures third != [] <==> AnyViolation(redisEntries)
    ensures third != [] ==> third[0].RateLimitViolations? && third[0].blocked == Count(Filter(redisEntries, RateKey()), Violation())
  {
    var blocked := CountViolations(Filter(redisEntries, RateKey()));
    ViolationsCounted(redisEntries);
    third := if blocked > 0 then [RateLimitViolations(blocked)] else [];
  }

  /** `_reconcileByType` as written: the service defines neither
      `_verifyDepositOnChain` nor `_verifyWithdrawalCompletion`, so every
      known type throws a TypeError on the call; any other type throws
      'Unknown transaction type'. */
  function ReconcileByTypeAsWritten(r: TxRecord): (v: Result<bool, string>)
    ensures v.Failure?
    ensures v.error == "Unknown transaction type" <==> !IsSchemaType(r.txType)
    ensures (r.txType == PiDeposit || r.txType == PcmDeposit) ==> v.error == "this._verifyDepositOnChain is not a function"
    ensures IsWithdrawal(r.txType) ==> v.error == "this._verifyWithdrawalCompletion is not a function"
  {
    match r.txType
    case PiDeposit => Failure("this._verifyDepositOnChain is not a function")
    case PcmDeposit => Failure("this._verifyDepositOnChain is not a function")
    case PiWithdrawal => Failure("this._verifyWithdrawalCompletion is not a function")
    case PcmWithdrawal => Failure("this._verifyWithdrawalCompletion is not a function")
    case Unrecognised(_) => Failure("Unknown transaction type")
  }

  /** `reconcileTransaction` as written: whatever the record, the call into
      `_reconcileByType` throws, the catch answers 'Failed to reconcile
      transaction', and no record is touched. */
  method ReconcileTransactionAsWritten(store: TransactionStore, id: nat, adminId: nat, now: int)
    returns (r: Result<TxRecord, string>)
    ensures r == Failure("Failed to reconcile transaction")
  {
    var found := IndexOfId(store.records, id);
    if found.Some? {
      var thrown := ReconcileByTypeAsWritten(store.records[found.value]);
      assert thrown.Failure?;
    }
    r := Failure("Failed to reconcile transaction");
  }

  /** A stored deposit or withdrawal is reconciled once the two checks
      exist, while as written its reconciliation always throws. */
  lemma ReconcileAsWrittenNeverReconciles(r: TxRecord, verifyDeposit: TxRecord -> bool, verifyWithdrawal: TxRecord -> bool)
    requires IsSchemaType(r.txType)
    ensures ReconcileByType(r, verifyDeposit, verifyWithdrawal).Success?
    ensures ReconcileByTypeAsWritten(r).Failure? && ReconcileByTypeAsWritten(r).error != "Unknown transaction type"
  {
  }

  /** `_reconcileByType`, corrected: the two on-chain checks it calls are
      supplied as `verifyDeposit` and `verifyWithdrawal`. Both deposit kinds
      go to the deposit check, both withdrawal kinds to the withdrawal
      check; any other type fails. */
  function ReconcileByType(r: TxRecord, verifyDeposit: TxRecord -> bool, verifyWithdrawal: TxRecord -> bool): (v: Result<bool, string>)
    ensures (r.txType == PiDeposit || r.txType == PcmDeposit) ==> v == Success(verifyDeposit(r))
    ensures IsWithdrawal(r.txType) ==> v == Success(verifyWithdrawal(r))
    ensures v.Failure? <==> !IsSchemaType(r.txType)
  {
    match r.txType
    case PiDeposit => Success(verifyDeposit(r))
    case PcmDeposit => Success(verifyDeposit(r))
    case PiWithdrawal => Success(verifyWithdrawal(r))
    case PcmWithdrawal => Success(verifyWithdrawal(r))
    case Unrecognised(_) => Failure("Unknown transaction type")
  }

  /** `reconcileTransaction`, corrected as above: the record becomes
      COMPLETED when its check passes and FAILED otherwise, stamped with the admin and the time. A
      missing record or an unknown type changes nothing, and every failure is
      reported as 'Failed to reconcile transaction'. */
  method ReconcileTransaction(store: TransactionStore, id: nat, adminId: nat, now: int,
                              verifyDeposit: TxRecord -> bool, verifyWithdrawal: TxRecord -> bool)
    returns (r: Result<TxRecord, string>)
    requires store.Valid()
    modifies store
    ensures store.Valid() && store.nextId == old(store.nextId)
    ensures r.Failure? ==> r.error == "Failed to reconcile transaction" && store.records == old(store.records)
    ensures r.Success? <==>
              IndexOfId(old(store.records), id).Some?
              && IsSchemaType(old(store.records)[IndexOfId(old(store.records), id).value].txType)
    ensures r.Success? ==>
              var i := IndexOfId(old(store.records), id).value;
              var before := old(store.records)[i];
              var passed := ReconcileByType(before, verifyDeposit, verifyWithdrawal).value;
              && r.value == before.(status := if passed then Completed else Failed,
                                    lastModifiedBy := Some(adminId), lastModifiedAt := Some(now))
              && store.records == old(store.records)[i := r.value]
  {
    var found := IndexOfId(store.records, id);
    if found.None? {
      return Failure("Failed to reconcile transaction");
    }
    var i := found.value;
    var rec := store.records[i];
    var verdict := ReconcileByType(rec, verifyDeposit, verifyWithdrawal);
    if verdict.Failure? {
      return Failure("Failed to reconcile transaction");
    }
    var updated := rec.(status := if verdict.value then Completed else Failed,
                        lastModifiedBy := Some(adminId), lastModifiedAt := Some(now));
    store.records := store.records[i := updated];
    r := Success(updated);
  }
}

=== FILE: app_cart.dfy ===
/** The home page of the static client (js/app.js): the same cart
    operations as the public client, but a badge that counts entries
    (`cart.length`) rather than units, a fixed payment memo, and a search box
    over sample restaurants. The page's globals are the fields of one
    object; the Pi SDK's payment call is a function parameter; rendering,
    toasts, timers and `localStorage` are left out. */
module App {
  import opened Wrappers
  import opened Collections
  import opened Text
  import opened QuantityCart
  import Menu

  /** The home page's state. */
  class HomePage {
    var cart: seq<Line>
    var isAuthenticated: bool
    /** The numbers `updateCartUI` last wrote into the page. */
    var badge: int
    var totalShown: int

    /** The page shows the current cart. */
    predicate Shows()
      reads this
    {
      badge == |cart| && totalShown == Total(cart)
    }

    /** The cart read from storage, shown on load; not yet connected. */
    constructor (saved: seq<Line>)
      ensures cart == saved && !isAuthenticated && Shows()
    {
      cart := saved;
      isAuthenticated := false;
      badge := |saved|;
      var total := CartTotal(saved);
      totalShown := total;
    }

    /** `updateCartUI`: the badge is the number of entries; the total comes
        from the `forEach` loop. */
    method UpdateCartUI()
      modifies this
      ensures cart == old(cart) && isAuthenticated == old(isAuthenticated)
      ensures Shows()
    {
      badge := |cart|;
      var total := CartTotal(cart);
      totalShown := total;
    }

    /** `addToCart(item)`. */
    method AddToCart(x: Item)
      modifies this
      ensures cart == Added(old(cart), x)
      ensures isAuthenticated == old(isAuthenticated) && Shows()
    {
      var found := FindFirst(cart, HasId(x.id));
      if found.Some? {
        var i := found.value;
        cart := cart[i := cart[i].(quantity := cart[i].quantity + 1)];
      } else {
        cart := cart + [Line(x, 1)];
      }
      UpdateCartUI();
    }

    /** `updateQuantity(index, change)`; the source writes
        `cart[index].quantity` first, so the index must be that of an entry. */
    method UpdateQuantity(index: nat, change: int)
      requires index < |cart|
      modifies this
      ensures cart == QuantityUpdated(old(cart), index, change)
      ensures isAuthenticated == old(isAuthenticated) && Shows()
    {
      var q := cart[index].quantity + change;
      cart := cart[index := cart[index].(quantity := q)];
      if q <= 0 {
        cart := cart[..index] + cart[index + 1..];
      }
      UpdateCartUI();
    }

    /** `removeFromCart(index)`: JavaScript's `splice` on whatever index it
        is given. */
    method RemoveFromCart(index: int)
      modifies this
      ensures cart == Splice1(old(cart), index)
      ensures isAuthenticated == old(isAuthenticated) && Shows()
    {
      cart := Splice1(cart, index);
      UpdateCartUI();
    }

    /** `authenticate`: a truthy answer from the SDK connects the page;
        nothing disconnects it. */
    method Authenticate(answered: bool)
      modifies this
      ensures isAuthenticated == (old(isAuthenticated) || answered)
      ensures cart == old(cart) && badge == old(badge) && totalShown == old(totalShown)
    {
      if answered {
        isAuthenticated := true;
      }
    }

    /** `createPayment`: nothing happens unless the page is connected and
        the cart has entries; the payment asks for the cart total; only a
        "completed" status empties the cart. `pay` stands for
        `Pi.createPayment` and yields the status (anything but "completed"
        when it throws). */
    method CreatePayment(pay: PaymentRequest -> string) returns (request: Option<PaymentRequest>)
      modifies this
      ensures request.Some? <==> old(isAuthenticated) && old(cart) != []
      ensures request.Some? ==> request.value == PaymentRequest(Total(old(cart)), "Food order payment")
      ensures cart == if request.Some? && pay(request.value) == "completed" then [] else old(cart)
      ensures isAuthenticated == old(isAuthenticated)
      ensures old(Shows()) ==> Shows()
    {
      if !isAuthenticated {
        return None;
      }
      if cart == [] {
        return None;
      }
      var total := CartTotal(cart);
      request := Some(PaymentRequest(total, "Food order payment"));
      var status := pay(request.value);
      if status == "completed" {
        cart := [];
        UpdateCartUI();
      }
    }
  }

  /** On a well-formed cart this page's badge never exceeds the unit count
      the public client shows, and equals it exactly when every quantity is
      one. */
  lemma {:induction false} BadgeAtMostUnits(cart: seq<Line>)
    requires WellFormed(cart)
    ensures |cart| <= Units(cart)
    ensures |cart| == Units(cart) <==> forall k :: 0 <= k < |cart| ==> cart[k].quantity == 1
  {
    if cart != [] {
      var init := cart[..|cart| - 1];
      assert WellFormed(init) by {
        assert forall k :: 0 <= k < |init| ==> init[k] == cart[k];
      }
      BadgeAtMostUnits(init);
      assert Units(cart) == Units(init) + cart[|cart| - 1].quantity;
      if |cart| == Units(cart) {
        forall k | 0 <= k < |cart| ensures cart[k].quantity == 1 {
          if k < |init| {
            assert init[k] == cart[k];
          }
        }
      }
      if forall k :: 0 <= k < |cart| ==> cart[k].quantity == 1 {
        assert forall k :: 0 <= k < |init| ==> init[k] == cart[k];
      }
    }
  }

  /** A search result of the sample data. */
  datatype SamplePlace = SamplePlace(name: string, description: string)

  /** The sample restaurants `mockSearchAPI` filters. */
  const SAMPLE_PLACES: seq<SamplePlace> := [
    SamplePlace("Pizza Paradise", "Italian • Pizza • Pasta"),
    SamplePlace("Burger Bliss", "American • Burgers • Fries"),
    SamplePlace("Sushi Supreme", "Japanese • Sushi • Ramen")
  ]

  /** The input must keep at least two characters once trimmed. */
  const SEARCH_MIN_LENGTH: nat := 2

  function PlaceMatches(query: string): SamplePlace -> bool
  {
    (p: SamplePlace) => Menu.TextMatches(p.name, p.description, query)
  }

  /** The `filter` of `mockSearchAPI` over some data. */
  function SearchPlaces(data: seq<SamplePlace>, query: string): (r: seq<SamplePlace>)
    ensures forall k :: 0 <= k < |r| ==> r[k] in data && Menu.TextMatches(r[k].name, r[k].description, query)
    ensures forall k :: 0 <= k < |data| && Menu.TextMatches(data[k].name, data[k].description, query)
              ==> data[k] in r
  {
    Filter(data, PlaceMatches(query))
  }

  /** What the search box shows for an input: nothing when the trimmed
      input is shorter than two characters, otherwise the sample restaurants
      matching the trimmed input (an empty list hides the results too). */
  function SearchResults(input: string): (r: Option<seq<SamplePlace>>)
    ensures r.None? <==> |Trim(input)| < SEARCH_MIN_LENGTH
    ensures r.Some? ==> forall k :: 0 <= k < |r.value| ==> r.value[k] in SAMPLE_PLACES
    ensures r.Some? ==> r.value == SearchPlaces(SAMPLE_PLACES, Trim(input))
    ensures r.Some? ==> forall x :: x in r.value <==>
              x in SAMPLE_PLACES && Menu.TextMatches(x.name, x.description, Trim(input))
  {
    var query := Trim(input);
    if |query| < SEARCH_MIN_LENGTH then None
    else Some(SearchPlaces(SAMPLE_PLACES, query))
  }
}

=== FILE: auth_middleware.dfy ===
/** The authentication middleware of the Express server
    (middleware/auth.js): the bearer token taken from the `Authorization`
    header, the `auth` check that the token verifies and names a stored
    user, and the `isAdmin` and `isRestaurant` role gates. Verifying a JSON
    web token and finding the user are function parameters. */
module AuthMiddleware {
  import opened Wrappers
  import opened Text

  const UNAUTHENTICATED: HttpError := HttpError(401, "Please authenticate")
  const ACCESS_DENIED: HttpError := HttpError(403, "Access denied")

  const BEARER: string := "Bearer "

  /** The user `auth` loads: what the role gates look at. */
  datatype Principal = Principal(id: int, role: string)

  /** What `auth` leaves on the request: `req.token` and `req.user`. */
  datatype Authenticated = Authenticated(token: string, user: Principal)

  /** `req.header('Authorization')?.replace('Bearer ', '')`: no header gives
      no token; otherwise the first "Bearer " anywhere in it is cut out. */
  function BearerToken(header: Option<string>): Option<string>
  {
    match header
    case None => None
    case Some(h) => Some(ReplaceFirst(h, BEARER, ""))
  }

  /** `auth`: a missing or empty token, a token `verify` rejects (None) and
      a decoded id with no stored user all answer 401 "Please
      authenticate"; otherwise the request carries the token and the user. */
  function Auth(header: Option<string>, verify: string -> Option<int>, findUser: int -> Option<Principal>)
    : (r: Result<Authenticated, HttpError>)
    ensures r.Failure? ==> r.error == UNAUTHENTICATED
    ensures r.Success? <==>
              && BearerToken(header).Some? && BearerToken(header).value != ""
              && verify(BearerToken(header).value).Some?
              && findUser(verify(BearerToken(header).value).value).Some?
    ensures r.Success? ==>
              r.value.token == BearerToken(header).value
              && Some(r.value.user) == findUser(verify(r.value.token).value)
  {
    match BearerToken(header)
    case None => Failure(UNAUTHENTICATED)
    case Some(token) =>
      if token == "" then Failure(UNAUTHENTICATED)
      else match verify(token)
        case None => Failure(UNAUTHENTICATED)
        case Some(id) =>
          match findUser(id)
          case None => Failure(UNAUTHENTICATED)
          case Some(user) => Success(Authenticated(token, user))
  }

  /** A header "Bearer <token>" hands exactly `<token>` to the verifier, so
      a token that verifies and names a user authenticates. */
  lemma BearerHeaderAuthenticates(token: string, verify: string -> Option<int>, findUser: int -> Option<Principal>)
    requires token != "" && verify(token).Some? && findUser(verify(token).value).Some?
    ensures Auth(Some(BEARER + token), verify, findUser) == Success(Authenticated(token, findUser(verify(token).value).value))
  {
    assert StartsWith(BEARER + token, BEARER);
    ReplaceFirstPrefix(BEARER + token, BEARER);
    assert (BEARER + token)[|BEARER|..] == token;
  }

  /** Without a header, or with "Bearer " and nothing after it, the request
      is refused whatever the verifier says. */
  lemma NoTokenRefused(verify: string -> Option<int>, findUser: int -> Option<Principal>)
    ensures Auth(None, verify, findUser) == Failure(UNAUTHENTICATED)
    ensures Auth(Some(BEARER), verify, findUser) == Failure(UNAUTHENTICATED)
  {
    assert StartsWith(BEARER, BEARER);
    ReplaceFirstPrefix(BEARER, BEARER);
  }

  /** A header without "Bearer " is used as the token as it stands. */
  lemma RawHeaderIsToken(h: string)
    requires !Contains(h, BEARER)
    ensures BearerToken(Some(h)) == Some(h)
  {
    ReplaceFirstAbsent(h, BEARER, "");
  }

  /** `isAdmin`: passes exactly an admin; anything else, a missing user
      included, answers 403 "Access denied". */
  function IsAdmin(user: Option<Principal>): (r: Outcome<HttpError>)
    ensures r.Pass? <==> user.Some? && user.value.role == "admin"
    ensures r.Fail? ==> r.error == ACCESS_DENIED
  {
    if user.Some? && user.value.role == "admin" then Pass else Fail(ACCESS_DENIED)
  }

  /** `isRestaurant`: passes exactly a restaurant account. */
  function IsRestaurant(user: Option<Principal>): (r: Outcome<HttpError>)
    ensures r.Pass? <==> user.Some? && user.value.role == "restaurant"
    ensures r.Fail? ==> r.error == ACCESS_DENIED
  {
    if user.Some? && user.value.role == "restaurant" then Pass else Fail(ACCESS_DENIED)
  }

  /** The two gates exclude each other: no account passes both, and an
      admin is refused the restaurant routes. */
  lemma GatesDisjoint(user: Option<Principal>)
    ensures !(IsAdmin(user).Pass? && IsRestaurant(user).Pass?)
    ensures IsAdmin(user).Pass? ==> IsRestaurant(user) == Fail(ACCESS_DENIED)
  {
  }
}

=== FILE: auth_routes.dfy ===
/** The account routes of the Express server (routes/auth.js) over the user
    document of models/User.js: registration, login, the profile update of
    `PATCH /me` and the linking of a Pi account. A user document is an
    object whose fields the handlers assign before saving it; the database
    holds the last snapshot saved. Whether the database accepts a save,
    bcrypt's hash and compare, and the JSON web token signer are
    parameters; the clock is the parameter `now`. */
module AuthRoutes {
  import opened Wrappers
  import opened Text

  /** An entry of `addresses`. */
  datatype Address = Address(street: string, city: string, state: string, zipCode: string, isDefault: bool)

  /** The fields of a user document, as saved. */
  datatype Profile = Profile(
    email: string,
    password: string,
    name: string,
    phone: Option<string>,
    addresses: seq<Address>,
    role: string,
    piUserId: Option<string>,
    lastLogin: Option<int>)

  const ROLES: seq<string> := ["user", "admin", "restaurant"]
  const PASSWORD_MIN_LENGTH: nat := 6

  /** The schema's validators: email and name required (an empty string
      fails `required`), a password of at least six characters, a role from
      the enumeration. */
  predicate SchemaValid(p: Profile)
  {
    p.email != "" && p.name != "" && |p.password| >= PASSWORD_MIN_LENGTH && p.role in ROLES
  }

  /** A user document in memory, and what the database holds for it. */
  class UserDoc {
    const id: int
    var email: string
    var password: string
    var name: string
    var phone: Option<string>
    var addresses: seq<Address>
    var role: string
    var piUserId: Option<string>
    var lastLogin: Option<int>
    /** The password was assigned and not yet hashed by a save. */
    var passwordModified: bool
    /** The snapshot the last successful save wrote (None: never saved). */
    var persisted: Option<Profile>

    function View(): Profile
      reads this
    {
      Profile(email, password, name, phone, addresses, role, piUserId, lastLogin)
    }

    /** `new User({ email, password, name, phone })`: the schema's setters
        lowercase and trim the email and trim the name and phone; the role
        defaults to "user". */
    constructor (id: int, email: string, password: string, name: string, phone: Option<string>)
      ensures this.id == id
      ensures View() == Profile(Trim(Lower(email)), password, Trim(name),
                                if phone.Some? then Some(Trim(phone.value)) else None,
                                [], "user", None, None)
      ensures passwordModified && persisted == None
    {
      this.id := id;
      this.email := Trim(Lower(email));
      this.password := password;
      this.name := Trim(name);
      this.phone := if phone.Some? then Some(Trim(phone.value)) else None;
      addresses := [];
      role := "user";
      piUserId := None;
      lastLogin := None;
      passwordModified := true;
      persisted := None;
    }

    /** `save()`: validation runs first and refuses an invalid document;
        the pre-save hook then replaces a modified password by its hash;
        the snapshot is written when the database accepts it (`dbUp`).
        A refused save changes nothing. */
    method Save(dbUp: bool, hash: string -> string) returns (ok: bool)
      modifies this
      ensures ok <==> SchemaValid(old(View())) && dbUp
      ensures !ok ==> View() == old(View()) && persisted == old(persisted) && passwordModified == old(passwordModified)
      ensures ok ==> View() == old(View()).(password := if old(passwordModified) then hash(old(password)) else old(password))
      ensures ok ==> persisted == Some(View()) && !passwordModified
    {
      if !SchemaValid(View()) || !dbUp {
        return false;
      }
      if passwordModified {
        password := hash(password);
        passwordModified := false;
      }
      persisted := Some(View());
      ok := true;
    }

    /** `req.user[update] = req.body[update]` for one key of the body. */
    method Assign(f: BodyField)
      modifies this
      ensures View() == ApplyField(old(View()), f)
      ensures persisted == old(persisted) && passwordModified == old(passwordModified)
    {
      match f
      case NameField(s) => name := Trim(s);
      case PhoneField(s) => phone := Some(Trim(s));
      case AddressesField(a) => addresses := a;
      case OtherField(_) =>
    }
  }

  /** The reply body's `user` and the token. */
  datatype Session = Session(id: int, profile: Profile, token: string)

  const USER_EXISTS: HttpError := HttpError(400, "User already exists")
  const REGISTER_FAILED: HttpError := HttpError(500, "Error registering user")
  const INVALID_CREDENTIALS: HttpError := HttpError(401, "Invalid credentials")
  const LOGIN_FAILED: HttpError := HttpError(500, "Error logging in")
  const INVALID_UPDATES: HttpError := HttpError(400, "Invalid updates")
  const UPDATE_FAILED: HttpError := HttpError(500, "Error updating user")
  const PI_TAKEN: HttpError := HttpError(400, "Pi account already linked to another user")
  const LINK_FAILED: HttpError := HttpError(500, "Error linking Pi account")

  /** `POST /register`. `emailTaken` is what `User.findOne({ email })`
      found; `sign` stands for `generateAuthToken` and yields None when it
      throws. A throw after the save leaves the account stored. */
  method Register(emailTaken: bool, newId: int, email: string, password: string, name: string,
                  phone: Option<string>, dbUp: bool, hash: string -> string, sign: Profile -> Option<string>)
    returns (user: UserDoc?, reply: Result<Session, HttpError>)
    ensures emailTaken <==> user == null
    ensures emailTaken ==> reply == Failure(USER_EXISTS)
    ensures user != null ==> fresh(user) && user.id == newId
    ensures user != null ==>
              var entered := Profile(Trim(Lower(email)), password, Trim(name),
                                     if phone.Some? then Some(Trim(phone.value)) else None,
                                     [], "user", None, None);
              && (user.persisted.Some? <==> SchemaValid(entered) && dbUp)
              && (user.persisted.Some? ==> user.persisted == Some(entered.(password := hash(password))))
              && (reply.Success? <==> user.persisted.Some? && sign(user.View()).Some?)
              && (reply.Success? ==> reply.value == Session(newId, user.View(), sign(user.View()).value))
              && (reply.Failure? ==> reply.error == REGISTER_FAILED)
  {
    if emailTaken {
      return null, Failure(USER_EXISTS);
    }
    user := new UserDoc(newId, email, password, name, phone);
    var ok := user.Save(dbUp, hash);
    if !ok {
      return user, Failure(REGISTER_FAILED);
    }
    var token := sign(user.View());
    if token.None? {
      return user, Failure(REGISTER_FAILED);
    }
    reply := Success(Session(user.id, user.View(), token.value));
  }

  /** `POST /login`. `found` is what `User.findOne({ email })` found;
      `matches` stands for bcrypt's compare of the candidate with the stored
      hash. An unknown email and a wrong password get the same answer; a
      match records the login time before the token is made. */
  method Login(found: UserDoc?, candidate: string, matches: (string, string) -> bool, now: int,
               dbUp: bool, hash: string -> string, sign: Profile -> Option<string>)
    returns (reply: Result<Session, HttpError>)
    requires found != null ==> !found.passwordModified
    modifies found
    ensures found == null || !matches(candidate, old(found.password)) <==> reply == Failure(INVALID_CREDENTIALS)
    ensures found != null && !matches(candidate, old(found.password)) ==>
              found.View() == old(found.View()) && found.persisted == old(found.persisted)
    ensures found != null && matches(candidate, old(found.password)) ==>
              && found.View() == old(found.View()).(lastLogin := Some(now))
              && found.persisted == (if SchemaValid(old(found.View())) && dbUp then Some(found.View()) else old(found.persisted))
              && (reply.Success? <==> SchemaValid(old(found.View())) && dbUp && sign(found.View()).Some?)
              && (reply.Success? ==> reply.value == Session(found.id, found.View(), sign(found.View()).value))
              && (reply.Failure? ==> reply.error == LOGIN_FAILED)
  {
    if found == null {
      return Failure(INVALID_CREDENTIALS);
    }
    if !matches(candidate, found.password) {
      return Failure(INVALID_CREDENTIALS);
    }
    found.lastLogin := Some(now);
    var ok := found.Save(dbUp, hash);
    if !ok {
      return Failure(LOGIN_FAILED);
    }
    var token := sign(found.View());
    if token.None? {
      return Failure(LOGIN_FAILED);
    }
    reply := Success(Session(found.id, found.View(), token.value));
  }

  /** `generateAuthToken` as models/User.js writes it: the file calls
      `jwt.sign` but never loads the `jsonwebtoken` module, so the call
      throws a ReferenceError whatever the user. */
  function SignAsWritten(p: Profile): Option<string>
  {
    None
  }

  /** `POST /register` with the token made as written: no registration
      ever answers 201, yet a valid new account is stored before the 500,
      so a retry then meets "User already exists". */
  method RegisterAsWritten(emailTaken: bool, newId: int, email: string, password: string, name: string,
                           phone: Option<string>, dbUp: bool, hash: string -> string)
    returns (user: UserDoc?, reply: Result<Session, HttpError>)
    ensures reply.Failure?
    ensures !emailTaken && dbUp
            && SchemaValid(Profile(Trim(Lower(email)), password, Trim(name),
                                   if phone.Some? then Some(Trim(phone.value)) else None,
                                   [], "user", None, None))
            ==> user != null && user.persisted.Some? && reply == Failure(REGISTER_FAILED)
  {
    user, reply := Register(emailTaken, newId, email, password, name, phone, dbUp, hash, SignAsWritten);
  }

  /** `POST /login` with the token made as written: correct credentials
      get 500 "Error logging in", after the login time has been saved. */
  method LoginAsWritten(found: UserDoc?, candidate: string, matches: (string, string) -> bool, now: int,
                        dbUp: bool, hash: string -> string)
    returns (reply: Result<Session, HttpError>)
    requires found != null ==> !found.passwordModified
    modifies found
    ensures reply.Failure?
    ensures found != null && matches(candidate, old(found.password)) && SchemaValid(old(found.View())) && dbUp ==>
              found.persisted == Some(found.View()) && found.lastLogin == Some(now) && reply == Failure(LOGIN_FAILED)
  {
    reply := Login(found, candidate, matches, now, dbUp, hash, SignAsWritten);
  }

  /** A key of the `PATCH /me` body with its value: the three fields a user
      may change, or any other key. */
  datatype BodyField =
    | NameField(text: string)
    | PhoneField(text: string)
    | AddressesField(list: seq<Address>)
    | OtherField(key: string)

  function Key(f: BodyField): string
  {
    match f
    case NameField(_) => "name"
    case PhoneField(_) => "phone"
    case AddressesField(_) => "addresses"
    case OtherField(k) => k
  }

  const ALLOWED_UPDATES: seq<string> := ["name", "phone", "addresses"]

  /** `updates.every(update => allowedUpdates.includes(update))`. */
  predicate IsValidOperation(body: seq<BodyField>)
  {
    forall k :: 0 <= k < |body| ==> Key(body[k]) in ALLOWED_UPDATES
  }

  /** `req.user[update] = req.body[update]` for one key, through the
      schema's trim setters. */
  function ApplyField(p: Profile, f: BodyField): Profile
  {
    match f
    case NameField(s) => p.(name := Trim(s))
    case PhoneField(s) => p.(phone := Some(Trim(s)))
    case AddressesField(a) => p.(addresses := a)
    case OtherField(_) => p
  }

  /** Every key of the body applied in order. Whatever the body holds, the
      email, the password, the role, the Pi link and the login time stay. */
  function Applied(p: Profile, body: seq<BodyField>): (q: Profile)
    ensures q.email == p.email && q.password == p.password && q.role == p.role
    ensures q.piUserId == p.piUserId && q.lastLogin == p.lastLogin
  {
    if body == [] then p else ApplyField(Applied(p, body[..|body| - 1]), body[|body| - 1])
  }

  /** The two profiles agree on the field a key names. */
  predicate SameAt(q: Profile, r: Profile, key: string)
  {
    && (key == "name" ==> q.name == r.name)
    && (key == "phone" ==> q.phone == r.phone)
    && (key == "addresses" ==> q.addresses == r.addresses)
  }

  /** The last entry for a field decides it. */
  lemma {:induction false} AppliedLastWrite(p: Profile, body: seq<BodyField>, k: nat)
    requires k < |body| && !body[k].OtherField?
    requires forall j :: k < j < |body| ==> Key(body[j]) != Key(body[k])
    ensures SameAt(Applied(p, body), ApplyField(p, body[k]), Key(body[k]))
  {
    var init, last := body[..|body| - 1], body[|body| - 1];
    assert Applied(p, body) == ApplyField(Applied(p, init), last);
    if k < |body| - 1 {
      assert init[k] == body[k];
      assert forall j :: k < j < |init| ==> init[j] == body[j];
      AppliedLastWrite(p, init, k);
      ApplyFieldElsewhere(Applied(p, init), last, Key(body[k]));
    }
  }

  /** Assigning one key leaves the fields of the other keys as they were. */
  lemma ApplyFieldElsewhere(q: Profile, f: BodyField, key: string)
    requires Key(f) != key
    ensures SameAt(ApplyField(q, f), q, key)
  {
  }

  /** A field the body does not name keeps its value. */
  lemma {:induction false} AppliedUntouched(p: Profile, body: seq<BodyField>, key: string)
    requires forall j :: 0 <= j < |body| ==> Key(body[j]) != key
    ensures SameAt(Applied(p, body), p, key)
  {
    if body != [] {
      AppliedUntouched(p, body[..|body| - 1], key);
    }
  }

  /** `PATCH /me` for the user `auth` loaded: a body with any key other
      than name, phone and addresses is refused before anything changes;
      otherwise every key is assigned (the `forEach`) and the document saved. */
  method UpdateProfile(user: UserDoc, body: seq<BodyField>, dbUp: bool, hash: string -> string)
    returns (reply: Result<Profile, HttpError>)
    requires !user.passwordModified
    modifies user
    ensures !IsValidOperation(body) ==>
              reply == Failure(INVALID_UPDATES) && user.View() == old(user.View()) && user.persisted == old(user.persisted)
    ensures IsValidOperation(body) ==>
              && user.View() == Applied(old(user.View()), body)
              && user.persisted == (if SchemaValid(user.View()) && dbUp then Some(user.View()) else old(user.persisted))
              && reply == (if SchemaValid(user.View()) && dbUp then Success(user.View()) else Failure(UPDATE_FAILED))
  {
    if !IsValidOperation(body) {
      return Failure(INVALID_UPDATES);
    }
    for i := 0 to |body|
      invariant user.View() == Applied(old(user.View()), body[..i])
      invariant !user.passwordModified && user.persisted == old(user.persisted)
    {
      assert body[..i + 1][..i] == body[..i];
      user.Assign(body[i]);
    }
    assert body[..|body|] == body;
    var ok := user.Save(dbUp, hash);
    if !ok {
      return Failure(UPDATE_FAILED);
    }
    reply := Success(user.View());
  }

  /** `POST /link-pi` for the user `auth` loaded. `holder` is the id of the
      account `User.findOne({ piUserId })` found. Only an account other
      than this one blocks the link; linking the same id again is allowed. */
  method LinkPi(user: UserDoc, holder: Option<int>, piUserId: string, dbUp: bool, hash: string -> string)
    returns (reply: Result<Profile, HttpError>)
    requires !user.passwordModified
    modifies user
    ensures reply == Failure(PI_TAKEN) <==> holder.Some? && holder.value != user.id
    ensures holder.Some? && holder.value != user.id ==>
              user.View() == old(user.View()) && user.persisted == old(user.persisted)
    ensures !(holder.Some? && holder.value != user.id) ==>
              && user.View() == old(user.View()).(piUserId := Some(piUserId))
              && user.persisted == (if SchemaValid(user.View()) && dbUp then Some(user.View()) else old(user.persisted))
              && reply == (if SchemaValid(user.View()) && dbUp then Success(user.View()) else Failure(LINK_FAILED))
  {
    if holder.Some? && holder.value != user.id {
      return Failure(PI_TAKEN);
    }
    user.piUserId := Some(piUserId);
    var ok := user.Save(dbUp, hash);
    if !ok {
      return Failure(LINK_FAILED);
    }
    reply := Success(user.View());
  }
}

=== FILE: cart_screen.dfy ===
/** The cart screen of the mobile app (src/screens/CartScreen.js): the
    grouping of the cart it receives (a list with one element per dish
    added) into entries with quantities, the quantity buttons, and the
    subtotal and total with the delivery and service fees. The screen keeps
    its cart in React state, so every operation here is a function from
    the old list to the new one. Money is integer cents (2.99 and 1.99 are
    299 and 199). */
module CartScreen {
  import opened Wrappers
  import opened Collections
  import opened QuantityCart

  const DELIVERY_FEE: int := 299
  const SERVICE_FEE: int := 199

  /** The grouping `reduce`: each element either adds one to the entry
      with its id, found with `acc.find`, or is appended with quantity one;
      a step is exactly the home page's `addToCart`. */
  function Group(items: seq<Item>): seq<Line>
  {
    if items == [] then []
    else Added(Group(items[..|items| - 1]), items[|items| - 1])
  }

  /** Where id `id` first occurs in `items`, or the length when it does
      not occur. */
  function FirstPos(items: seq<Item>, id: int): (r: nat)
    ensures r <= |items|
    ensures r < |items| ==> items[r].id == id
    ensures forall k :: 0 <= k < r ==> items[k].id != id
  {
    if items == [] then 0
    else if items[0].id == id then 0
    else
      var r := FirstPos(items[1..], id);
      assert forall k :: 1 <= k < r + 1 ==> items[k] == items[1..][k - 1];
      1 + r
  }

  /** The number of elements of `items` with id `id`. */
  function Occurrences(items: seq<Item>, id: int): nat
  {
    if items == [] then 0
    else Occurrences(items[..|items| - 1], id) + (if items[|items| - 1].id == id then 1 else 0)
  }

  /** Appending an element moves no first occurrence, and places the first
      occurrence of a new id at the end. */
  lemma FirstPosSnoc(init: seq<Item>, x: Item, id: int)
    ensures FirstPos(init + [x], id) ==
              if FirstPos(init, id) < |init| then FirstPos(init, id)
              else if x.id == id then |init| else |init| + 1
  {
    var r, r' := FirstPos(init, id), FirstPos(init + [x], id);
    if r < |init| {
      assert (init + [x])[r] == init[r];
    } else {
      assert (init + [x])[|init|] == x;
    }
  }

  /** Every entry carries the dish of its id's first occurrence. */
  predicate FromFirsts(g: seq<Line>, items: seq<Item>)
  {
    forall j :: 0 <= j < |g| ==> FirstPos(items, g[j].item.id) < |items| && items[FirstPos(items, g[j].item.id)] == g[j].item
  }

  /** The ids of the entries, in order. */
  function Ids(g: seq<Line>): (ids: seq<int>)
    ensures |ids| == |g| && forall j :: 0 <= j < |g| ==> ids[j] == g[j].item.id
  {
    seq(|g|, j requires 0 <= j < |g| => g[j].item.id)
  }

  /** Every id that occurs has an entry. */
  predicate CoversIds(g: seq<Line>, items: seq<Item>)
  {
    forall i :: 0 <= i < |items| ==> items[i].id in Ids(g)
  }

  /** Every entry counts the occurrences of its id. */
  predicate CountsIds(g: seq<Line>, items: seq<Item>)
  {
    forall j :: 0 <= j < |g| ==> g[j].quantity == Occurrences(items, g[j].item.id)
  }

  /** The entries are in the order of their ids' first occurrences. */
  predicate InFirstOrder(g: seq<Line>, items: seq<Item>)
  {
    forall j, j' :: 0 <= j < j' < |g| ==> FirstPos(items, g[j].item.id) < FirstPos(items, g[j'].item.id)
  }

  /** What the grouping promises: one entry per id that occurs and no
      other, each carrying the dish of its id's first occurrence and as many
      units as the id occurs, the entries in first-occurrence order. */
  ghost predicate GroupedFrom(g: seq<Line>, items: seq<Item>)
  {
    WellFormed(g) && FromFirsts(g, items) && CoversIds(g, items) && CountsIds(g, items) && InFirstOrder(g, items)
  }

  /** Appending an element adds one occurrence to its own id only. */
  lemma CountSnoc(init: seq<Item>, x: Item, id: int)
    ensures Occurrences(init + [x], id) == Occurrences(init, id) + (if x.id == id then 1 else 0)
  {
    assert (init + [x])[..|init|] == init;
  }

  /** An id that does not occur has no occurrences. */
  lemma {:induction false} NoOccurrences(items: seq<Item>, id: int)
    requires forall k :: 0 <= k < |items| ==> items[k].id != id
    ensures Occurrences(items, id) == 0
  {
    if items != [] {
      NoOccurrences(items[..|items| - 1], id);
    }
  }

  /** An id that has an entry keeps its first position when an element is
      appended. */
  lemma FirstsStay(g: seq<Line>, init: seq<Item>, x: Item)
    requires FromFirsts(g, init)
    ensures forall j :: 0 <= j < |g| ==> FirstPos(init + [x], g[j].item.id) == FirstPos(init, g[j].item.id)
    ensures FromFirsts(g, init + [x])
  {
    forall j | 0 <= j < |g| ensures FirstPos(init + [x], g[j].item.id) == FirstPos(init, g[j].item.id) {
      FirstPosSnoc(init, x, g[j].item.id);
    }
    forall j | 0 <= j < |g| ensures (init + [x])[FirstPos(init, g[j].item.id)] == g[j].item {
      assert (init + [x])[FirstPos(init, g[j].item.id)] == init[FirstPos(init, g[j].item.id)];
    }
  }

  /** The counts of ids other than the appended one stay. */
  lemma CountsStay(g: seq<Line>, init: seq<Item>, x: Item)
    requires CountsIds(g, init)
    ensures forall j :: 0 <= j < |g| && g[j].item.id != x.id ==>
              g[j].quantity == Occurrences(init + [x], g[j].item.id)
  {
    forall j | 0 <= j < |g| && g[j].item.id != x.id ensures g[j].quantity == Occurrences(init + [x], g[j].item.id) {
      CountSnoc(init, x, g[j].item.id);
    }
  }

  /** Bumping the entry of an id that occurs keeps every id covered. */
  lemma CoversFound(g0: seq<Line>, init: seq<Item>, x: Item, f: nat, l: Line)
    requires CoversIds(g0, init) && f < |g0| && g0[f].item.id == x.id && l.item.id == x.id
    ensures CoversIds(g0[f := l], init + [x])
  {
    assert Ids(g0[f := l]) == Ids(g0);
    assert forall i :: 0 <= i < |init| ==> (init + [x])[i] == init[i];
    assert Ids(g0)[f] == x.id;
  }

  /** Appending an entry for the appended element keeps every id covered. */
  lemma CoversNew(g0: seq<Line>, init: seq<Item>, x: Item, l: Line)
    requires CoversIds(g0, init) && l.item == x
    ensures CoversIds(g0 + [l], init + [x])
  {
    assert Ids(g0 + [l]) == Ids(g0) + [x.id];
    assert forall i :: 0 <= i < |init| ==> (init + [x])[i] == init[i];
  }

  /** An id without an entry does not occur. */
  lemma Uncovered(g0: seq<Line>, init: seq<Item>, id: int)
    requires CoversIds(g0, init) && forall j :: 0 <= j < |g0| ==> g0[j].item.id != id
    ensures forall k :: 0 <= k < |init| ==> init[k].id != id
  {
    assert id !in Ids(g0);
  }

  /** A grouping step on an id already present: the entry at `f` gains a
      unit. */
  lemma GroupStepFound(g0: seq<Line>, init: seq<Item>, x: Item, f: nat)
    requires GroupedFrom(g0, init) && f < |g0| && g0[f].item.id == x.id
    ensures GroupedFrom(g0[f := g0[f].(quantity := g0[f].quantity + 1)], init + [x])
  {
    var g := g0[f := g0[f].(quantity := g0[f].quantity + 1)];
    CoversFound(g0, init, x, f, g[f]);
    BumpWellFormed(g0, f);
    BumpFirsts(g0, init, x, f);
    BumpCounts(g0, init, x, f);
    BumpOrder(g0, init, x, f);
  }

  lemma BumpWellFormed(g0: seq<Line>, f: nat)
    requires WellFormed(g0) && f < |g0|
    ensures WellFormed(g0[f := g0[f].(quantity := g0[f].quantity + 1)])
  {
    var g := g0[f := g0[f].(quantity := g0[f].quantity + 1)];
    assert forall j :: 0 <= j < |g| ==> g[j].item == g0[j].item && g[j].quantity >= g0[j].quantity;
  }

  lemma BumpFirsts(g0: seq<Line>, init: seq<Item>, x: Item, f: nat)
    requires FromFirsts(g0, init) && f < |g0|
    ensures FromFirsts(g0[f := g0[f].(quantity := g0[f].quantity + 1)], init + [x])
  {
    FirstsStay(g0, init, x);
    var g := g0[f := g0[f].(quantity := g0[f].quantity + 1)];
    assert forall j :: 0 <= j < |g| ==> g[j].item == g0[j].item;
  }

  lemma BumpCounts(g0: seq<Line>, init: seq<Item>, x: Item, f: nat)
    requires WellFormed(g0) && CountsIds(g0, init) && f < |g0| && g0[f].item.id == x.id
    ensures CountsIds(g0[f := g0[f].(quantity := g0[f].quantity + 1)], init + [x])
  {
    CountsStay(g0, init, x);
    CountSnoc(init, x, x.id);
    var g := g0[f := g0[f].(quantity := g0[f].quantity + 1)];
    assert forall j :: 0 <= j < |g| ==> g[j].item == g0[j].item;
  }

  lemma BumpOrder(g0: seq<Line>, init: seq<Item>, x: Item, f: nat)
    requires FromFirsts(g0, init) && InFirstOrder(g0, init) && f < |g0|
    ensures InFirstOrder(g0[f := g0[f].(quantity := g0[f].quantity + 1)], init + [x])
  {
    FirstsStay(g0, init, x);
    var g := g0[f := g0[f].(quantity := g0[f].quantity + 1)];
    assert forall j :: 0 <= j < |g| ==> g[j].item == g0[j].item;
  }

  /** A grouping step on an id no entry carries: a new entry at the end. */
  lemma GroupStepNew(g0: seq<Line>, init: seq<Item>, x: Item)
    requires GroupedFrom(g0, init) && forall j :: 0 <= j < |g0| ==> g0[j].item.id != x.id
    ensures GroupedFrom(g0 + [Line(x, 1)], init + [x])
  {
    var g, items := g0 + [Line(x, 1)], init + [x];
    CoversNew(g0, init, x, Line(x, 1));
    Uncovered(g0, init, x.id);
    FirstPosSnoc(init, x, x.id);
    NewEntryWellFormed(g0, x);
    NewEntryFirsts(g0, init, x);
    NewEntryCounts(g0, init, x);
    NewEntryOrder(g0, init, x);
  }

  lemma NewEntryWellFormed(g0: seq<Line>, x: Item)
    requires WellFormed(g0) && forall j :: 0 <= j < |g0| ==> g0[j].item.id != x.id
    ensures WellFormed(g0 + [Line(x, 1)])
  {
    var g := g0 + [Line(x, 1)];
    assert forall j :: 0 <= j < |g0| ==> g[j] == g0[j];
  }

  lemma NewEntryFirsts(g0: seq<Line>, init: seq<Item>, x: Item)
    requires FromFirsts(g0, init) && FirstPos(init + [x], x.id) == |init|
    ensures FromFirsts(g0 + [Line(x, 1)], init + [x])
  {
    FirstsStay(g0, init, x);
    var g := g0 + [Line(x, 1)];
    assert forall j :: 0 <= j < |g0| ==> g[j] == g0[j];
  }

  lemma NewEntryCounts(g0: seq<Line>, init: seq<Item>, x: Item)
    requires CountsIds(g0, init) && forall j :: 0 <= j < |g0| ==> g0[j].item.id != x.id
    requires forall k :: 0 <= k < |init| ==> init[k].id != x.id
    ensures CountsIds(g0 + [Line(x, 1)], init + [x])
  {
    CountsStay(g0, init, x);
    CountSnoc(init, x, x.id);
    NoOccurrences(init, x.id);
    var g := g0 + [Line(x, 1)];
    assert forall j :: 0 <= j < |g0| ==> g[j] == g0[j];
  }

  lemma NewEntryOrder(g0: seq<Line>, init: seq<Item>, x: Item)
    requires FromFirsts(g0, init) && InFirstOrder(g0, init) && FirstPos(init + [x], x.id) == |init|
    ensures InFirstOrder(g0 + [Line(x, 1)], init + [x])
  {
    FirstsStay(g0, init, x);
    var g := g0 + [Line(x, 1)];
    assert forall j :: 0 <= j < |g0| ==> g[j] == g0[j];
  }

  /** The grouping keeps its promise. */
  lemma {:induction false} GroupShape(items: seq<Item>)
    ensures GroupedFrom(Group(items), items)
  {
    if items != [] {
      var init, x := items[..|items| - 1], items[|items| - 1];
      GroupShape(init);
      assert items == init + [x];
      var g0 := Group(init);
      match FindFirst(g0, HasId(x.id))
      case Some(f) => GroupStepFound(g0, init, x, f);
      case None => GroupStepNew(g0, init, x);
    }
  }

  /** The units of the grouped cart add up to the number of elements it was
      given: nothing is lost or counted twice. */
  lemma {:induction false} GroupUnits(items: seq<Item>)
    ensures Units(Group(items)) == |items|
  {
    if items != [] {
      var init, x := items[..|items| - 1], items[|items| - 1];
      GroupUnits(init);
      GroupShape(init);
      AddedKeeps(Group(init), x);
    }
  }

  /** Every occurrence of an id carries the same price. */
  predicate SamePrices(items: seq<Item>)
  {
    forall i, k :: 0 <= i < |items| && 0 <= k < |items| && items[i].id == items[k].id ==> items[i].price == items[k].price
  }

  function ItemPrice(x: Item): int { x.price }

  /** The screen's total: the subtotal and both fees. */
  function ScreenTotal(lines: seq<Line>): (t: int)
    ensures t - Total(lines) == DELIVERY_FEE + SERVICE_FEE
  {
    Total(lines) + DELIVERY_FEE + SERVICE_FEE
  }

  /** Grouping loses no money: when each id has one price, the subtotal of
      the grouped cart is the sum of the prices of what was added. */
  lemma {:induction false} GroupSubtotal(items: seq<Item>)
    requires SamePrices(items)
    ensures Total(Group(items)) == Sum(items, ItemPrice)
    ensures ScreenTotal(Group(items)) == Sum(items, ItemPrice) + DELIVERY_FEE + SERVICE_FEE
  {
    if items != [] {
      var init, x := items[..|items| - 1], items[|items| - 1];
      assert items == init + [x];
      assert forall k :: 0 <= k < |init| ==> items[k] == init[k];
      GroupSubtotal(init);
      GroupShape(init);
      var g0 := Group(init);
      AddedKeeps(g0, x);
      SumSnoc(init, x, ItemPrice);
      match FindFirst(g0, HasId(x.id))
      case Some(f) =>
        var i := FirstPos(init, g0[f].item.id);
        assert items[i] == g0[f].item && items[|init|] == x;
      case None =>
    }
  }

  /** `updateQuantity(itemId, change)`: every entry with the id moves by
      `change` and is dropped when that leaves it below one; the others stay
      as they are, in order. */
  function QuantityChanged(lines: seq<Line>, id: int, change: int): seq<Line>
  {
    if lines == [] then []
    else
      var rest := QuantityChanged(lines[1..], id, change);
      var l := lines[0];
      if l.item.id != id then [l] + rest
      else if l.quantity + change < 1 then rest
      else [l.(quantity := l.quantity + change)] + rest
  }

  /** An id that no entry carries leaves the cart unchanged. */
  lemma {:induction false} UnknownIdUnchanged(lines: seq<Line>, id: int, change: int)
    requires forall k :: 0 <= k < |lines| ==> lines[k].item.id != id
    ensures QuantityChanged(lines, id, change) == lines
  {
    if lines != [] {
      assert forall k :: 0 <= k < |lines[1..]| ==> lines[1..][k] == lines[k + 1];
      UnknownIdUnchanged(lines[1..], id, change);
      assert lines == [lines[0]] + lines[1..];
    }
  }

  /** With distinct ids, changing the quantity of the entry at `k` by id is
      the home page's change by index. */
  lemma {:induction false} ChangeById(lines: seq<Line>, k: nat, change: int)
    requires IdsDistinct(lines) && k < |lines|
    ensures QuantityChanged(lines, lines[k].item.id, change) == QuantityUpdated(lines, k, change)
  {
    var id := lines[k].item.id;
    var tail := lines[1..];
    assert forall a :: 0 <= a < |tail| ==> tail[a] == lines[a + 1];
    if k == 0 {
      UnknownIdUnchanged(tail, id, change);
      assert lines == [lines[0]] + tail;
    } else {
      assert IdsDistinct(tail);
      ChangeById(tail, k - 1, change);
      QuantityUpdatedCons(lines, k, change);
    }
  }

  /** Updating an entry past the first leaves the first where it is. */
  lemma QuantityUpdatedCons(lines: seq<Line>, k: nat, change: int)
    requires 0 < k < |lines|
    ensures QuantityUpdated(lines, k, change) == [lines[0]] + QuantityUpdated(lines[1..], k - 1, change)
  {
    var tail := lines[1..];
    var q := lines[k].quantity + change;
    assert tail[k - 1] == lines[k];
    if q <= 0 {
      assert RemoveAt(lines, k) == [lines[0]] + RemoveAt(tail, k - 1);
    } else {
      assert lines[k := lines[k].(quantity := q)] == [lines[0]] + tail[k - 1 := tail[k - 1].(quantity := q)];
    }
  }

  /** The buttons keep the grouped cart well formed: pressing "+" adds a
      unit, pressing "-" takes one away or drops the entry at one unit, and
      an id not in the cart changes nothing. */
  lemma ChangeKeeps(lines: seq<Line>, id: int, change: int)
    requires WellFormed(lines)
    ensures WellFormed(QuantityChanged(lines, id, change))
    ensures (forall k :: 0 <= k < |lines| ==> lines[k].item.id != id) ==> QuantityChanged(lines, id, change) == lines
    ensures forall k :: 0 <= k < |lines| && lines[k].item.id == id && lines[k].quantity + change >= 1 ==>
              Units(QuantityChanged(lines, id, change)) == Units(lines) + change
    ensures forall k :: 0 <= k < |lines| && lines[k].item.id == id && lines[k].quantity + change < 1 ==>
              Units(QuantityChanged(lines, id, change)) == Units(lines) - lines[k].quantity
  {
    if k :| 0 <= k < |lines| && lines[k].item.id == id {
      ChangeById(lines, k, change);
      QuantityUpdatedKeeps(lines, k, change);
      forall k' | 0 <= k' < |lines| && lines[k'].item.id == id ensures k' == k {
      }
    } else {
      UnknownIdUnchanged(lines, id, change);
    }
  }
}

=== FILE: checkout.dfy ===
/** The checkout page of the static client (js/checkout.js): the cart of
    dishes, the totals with the delivery and service fees, the pay button
    that an empty cart disables, and the payment flow from the form check
    through the Pi payment to the order submission. Money is integer cents
    (the page's 2.00 and 1.00 are 200 and 100). The Pi SDK, the order
    endpoint and the clock are parameters; rendering, alerts, the redirect
    timer and `localStorage` are left out. */
module Checkout {
  import opened Wrappers
  import opened Collections
  import Menu
  import StaticRestaurantPage

  const DELIVERY_FEE: int := 200
  const SERVICE_FEE: int := 100

  /** Σ price of the dishes in the cart. */
  function Subtotal(cart: seq<Menu.Dish>): int
  {
    StaticRestaurantPage.Total(cart)
  }

  /** What the customer pays: the subtotal and both fees. */
  function OrderTotal(cart: seq<Menu.Dish>): (t: int)
    ensures t - Subtotal(cart) == DELIVERY_FEE + SERVICE_FEE
  {
    Subtotal(cart) + DELIVERY_FEE + SERVICE_FEE
  }

  /** The payment `createPayment` asks Pi for. */
  datatype PaymentRequest = PaymentRequest(amount: int, memo: string, cart: seq<Menu.Dish>)

  /** How a click on the pay button ends. */
  datatype PayOutcome =
    | ButtonDisabled   // the browser sends no click to a disabled button
    | FormInvalid      // "Please fill in all required fields"
    | PaymentFailed    // authentication or the payment threw: "Payment failed"
    | NotCompleted     // the payment came back with another status
    | OrderFailed      // the order endpoint answered with an error
    | Confirmed        // the confirmation is shown

  /** The page's state. */
  class CheckoutPage {
    var cart: seq<Menu.Dish>
    /** What `updateTotals` last wrote into the page. */
    var subtotalShown: int
    var totalShown: int
    var payDisabled: bool

    /** The page shows the current cart. */
    predicate Shows()
      reads this
    {
      subtotalShown == Subtotal(cart) && totalShown == OrderTotal(cart) && payDisabled == (cart == [])
    }

    /** `initializeCheckout` on the cart read from storage. */
    constructor (saved: seq<Menu.Dish>)
      ensures cart == saved && Shows()
    {
      cart := saved;
      subtotalShown := Subtotal(saved);
      totalShown := OrderTotal(saved);
      payDisabled := saved == [];
    }

    /** `updateTotals`: both totals, and the pay button disabled exactly
        when the cart is empty. */
    method UpdateTotals()
      modifies this
      ensures cart == old(cart) && Shows()
    {
      var subtotal := Subtotal(cart);
      subtotalShown := subtotal;
      totalShown := subtotal + DELIVERY_FEE + SERVICE_FEE;
      payDisabled := |cart| == 0;
    }

    /** `removeItem(index)`: JavaScript's `splice` on whatever index it is
        given, then the totals again. */
    method RemoveItem(index: int)
      modifies this
      ensures cart == Splice1(old(cart), index) && Shows()
    {
      cart := Splice1(cart, index);
      UpdateTotals();
    }

    /** The pay button's click handler. `authenticated` says whether
        `Pi.authenticate` resolved; `pay` stands for `Pi.createPayment` and
        yields the payment's status, or None when it throws; `orderAccepted`
        says whether the order endpoint answered `ok`; `now` is the ISO time
        in the memo. The cart is cleared only once the order is accepted, and
        the totals are not redrawn afterwards. */
    method PayClicked(formValid: bool, authenticated: bool, pay: PaymentRequest -> Option<string>,
                      orderAccepted: bool, now: string)
      returns (request: Option<PaymentRequest>, outcome: PayOutcome)
      modifies this
      ensures outcome == ButtonDisabled <==> old(payDisabled)
      ensures outcome == FormInvalid <==> !old(payDisabled) && !formValid
      ensures request.Some? <==> !old(payDisabled) && formValid && authenticated
      ensures request.Some? ==>
                request.value == PaymentRequest(OrderTotal(old(cart)), "DishDash Order - " + now, old(cart))
      ensures request.Some? && old(Shows()) ==> request.value.amount == old(totalShown)
      ensures outcome == Confirmed <==>
                request.Some? && pay(request.value) == Some("completed") && orderAccepted
      ensures cart == if outcome == Confirmed then [] else old(cart)
      ensures subtotalShown == old(subtotalShown) && totalShown == old(totalShown)
      ensures payDisabled == old(payDisabled)
    {
      if payDisabled {
        return None, ButtonDisabled;
      }
      if !formValid {
        return None, FormInvalid;
      }
      if !authenticated {
        return None, PaymentFailed;
      }
      var total := Subtotal(cart) + DELIVERY_FEE + SERVICE_FEE;
      request := Some(PaymentRequest(total, "DishDash Order - " + now, cart));
      var payment := pay(request.value);
      if payment.None? {
        return request, PaymentFailed;
      }
      if payment.value != "completed" {
        return request, NotCompleted;
      }
      if !orderAccepted {
        return request, OrderFailed;
      }
      cart := [];
      outcome := Confirmed;
    }
  }

  /** Removing the entry at an index drops the shown total by exactly that
      dish's price, the fees staying; the empty cart still costs the fees. */
  lemma RemoveItemTotal(cart: seq<Menu.Dish>, index: int)
    requires 0 <= index < |cart|
    ensures OrderTotal(Splice1(cart, index)) == OrderTotal(cart) - cart[index].price
    ensures OrderTotal([]) == DELIVERY_FEE + SERVICE_FEE
  {
    StaticRestaurantPage.SpliceCountTotal(cart, index);
  }

  /** With prices that are not negative, the total never falls below the
      fees and grows with every dish in the cart. */
  lemma {:induction false} OrderTotalBounds(cart: seq<Menu.Dish>)
    requires forall k :: 0 <= k < |cart| ==> cart[k].price >= 0
    ensures OrderTotal(cart) >= DELIVERY_FEE + SERVICE_FEE
    ensures forall k :: 0 <= k < |cart| ==> OrderTotal(cart) >= DELIVERY_FEE + SERVICE_FEE + cart[k].price
  {
    if cart != [] {
      var init := cart[..|cart| - 1];
      OrderTotalBounds(init);
      StaticRestaurantPage.AppendCountTotal(init, cart[|cart| - 1]);
      assert cart == init + [cart[|cart| - 1]];
      forall k | 0 <= k < |cart| ensures OrderTotal(cart) >= DELIVERY_FEE + SERVICE_FEE + cart[k].price {
        if k < |init| {
          assert init[k] == cart[k];
        }
      }
    }
  }
}

=== FILE: collections.dfy ===
/** Sequence folds used by the source's `filter`, `reduce` and `forEach` loops.
    Each fold is defined from the end of the sequence, so that a loop that walks
    the sequence front to back keeps `acc == Fold(s[..i])` as its invariant. */
module Collections {
  import opened Wrappers

  /** `s.filter(p)`: the elements satisfying `p`, in their original order. */
  function Filter<T>(s: seq<T>, p: T -> bool): (r: seq<T>)
    ensures |r| <= |s|
    ensures forall i :: 0 <= i < |r| ==> r[i] in s && p(r[i])
    ensures forall i :: 0 <= i < |s| && p(s[i]) ==> s[i] in r
  {
    if s == [] then []
    else Filter(s[..|s| - 1], p) + (if p(s[|s| - 1]) then [s[|s| - 1]] else [])
  }

  /** Filtering distributes over concatenation, so the relative order of the
      kept elements is exactly their order in the input. */
  lemma {:induction false} FilterAppend<T>(a: seq<T>, b: seq<T>, p: T -> bool)
    ensures Filter(a + b, p) == Filter(a, p) + Filter(b, p)
    decreases |b|
  {
    if b == [] {
      assert a + b == a;
    } else {
      var b' := b[..|b| - 1];
      assert (a + b)[..|a + b| - 1] == a + b';
      FilterAppend(a, b', p);
    }
  }

  /** Filtering a one-element sequence. */
  lemma FilterSingle<T>(x: T, p: T -> bool)
    ensures Filter([x], p) == if p(x) then [x] else []
  {
    assert [x][..0] == [];
  }

  /** Filtering keeps everything when every element passes. */
  lemma {:induction false} FilterAll<T>(s: seq<T>, p: T -> bool)
    requires forall i :: 0 <= i < |s| ==> p(s[i])
    ensures Filter(s, p) == s
  {
    if s != [] {
      FilterAll(s[..|s| - 1], p);
      assert s[..|s| - 1] + [s[|s| - 1]] == s;
    }
  }

  /** Filtering a sequence extended by one element. */
  lemma FilterSnoc<T>(s: seq<T>, x: T, p: T -> bool)
    ensures Filter(s + [x], p) == Filter(s, p) + (if p(x) then [x] else [])
  {
    assert (s + [x])[..|s + [x]| - 1] == s;
  }

  /** A predicate and its complement split a sequence between them. */
  lemma {:induction false} CountSplit<T>(s: seq<T>, p: T -> bool, q: T -> bool)
    requires forall x :: q(x) <==> !p(x)
    ensures |Filter(s, p)| + |Filter(s, q)| == |s|
  {
    if s != [] {
      CountSplit(s[..|s| - 1], p, q);
    }
  }

  /** Filtering twice is filtering once by the conjunction. */
  lemma {:induction false} FilterFilter<T>(s: seq<T>, p: T -> bool, q: T -> bool, pq: T -> bool)
    requires forall x :: pq(x) <==> p(x) && q(x)
    ensures Filter(Filter(s, p), q) == Filter(s, pq)
  {
    if s != [] {
      var s' := s[..|s| - 1];
      var x := s[|s| - 1];
      FilterFilter(s', p, q, pq);
      assert Filter(s, pq) == Filter(s', pq) + (if pq(x) then [x] else []);
      if p(x) {
        assert Filter(s, p) == Filter(s', p) + [x];
        FilterAppend(Filter(s', p), [x], q);
        FilterSingle(x, q);
      } else {
        assert Filter(s, p) == Filter(s', p);
      }
    }
  }

  /** A stronger predicate keeps no more elements. */
  lemma {:induction false} FilterStronger<T>(s: seq<T>, p: T -> bool, q: T -> bool)
    requires forall x :: q(x) ==> p(x)
    ensures |Filter(s, q)| <= |Filter(s, p)|
  {
    if s != [] {
      FilterStronger(s[..|s| - 1], p, q);
    }
  }

  /** Two predicates that never hold together count at most the whole sequence. */
  lemma {:induction false} CountDisjoint<T>(s: seq<T>, p: T -> bool, q: T -> bool)
    requires forall x :: !(p(x) && q(x))
    ensures |Filter(s, p)| + |Filter(s, q)| <= |s|
  {
    if s != [] {
      CountDisjoint(s[..|s| - 1], p, q);
    }
  }

  /** Something is kept exactly when some element passes. */
  lemma FilterNonEmpty<T>(s: seq<T>, p: T -> bool)
    ensures |Filter(s, p)| > 0 <==> exists i :: 0 <= i < |s| && p(s[i])
  {
    if |Filter(s, p)| > 0 {
      assert Filter(s, p)[0] in s;
    }
  }

  /** The number of elements satisfying `p`. */
  function Count<T>(s: seq<T>, p: T -> bool): nat
  {
    |Filter(s, p)|
  }

  /** `s.reduce((sum, x) => sum + f(x), 0)` over integers. */
  function Sum<T>(s: seq<T>, f: T -> int): int
  {
    if s == [] then 0 else Sum(s[..|s| - 1], f) + f(s[|s| - 1])
  }

  /** `s.reduce((sum, x) => sum + f(x), 0)` over reals. */
  function SumReal<T>(s: seq<T>, f: T -> real): real
  {
    if s == [] then 0.0 else SumReal(s[..|s| - 1], f) + f(s[|s| - 1])
  }

  lemma {:induction false} SumAppend<T>(a: seq<T>, b: seq<T>, f: T -> int)
    ensures Sum(a + b, f) == Sum(a, f) + Sum(b, f)
    decreases |b|
  {
    if b == [] {
      assert a + b == a;
    } else {
      assert (a + b)[..|a + b| - 1] == a + b[..|b| - 1];
      SumAppend(a, b[..|b| - 1], f);
    }
  }

  lemma SumSnoc<T>(s: seq<T>, x: T, f: T -> int)
    ensures Sum(s + [x], f) == Sum(s, f) + f(x)
  {
    assert (s + [x])[..|s + [x]| - 1] == s;
  }

  lemma SumRealSnoc<T>(s: seq<T>, x: T, f: T -> real)
    ensures SumReal(s + [x], f) == SumReal(s, f) + f(x)
  {
    assert (s + [x])[..|s + [x]| - 1] == s;
  }

  lemma {:induction false} SumRealAppend<T>(a: seq<T>, b: seq<T>, f: T -> real)
    ensures SumReal(a + b, f) == SumReal(a, f) + SumReal(b, f)
    decreases |b|
  {
    if b == [] {
      assert a + b == a;
    } else {
      assert (a + b)[..|a + b| - 1] == a + b[..|b| - 1];
      SumRealAppend(a, b[..|b| - 1], f);
    }
  }

  /** A sum of terms that are all at least one is at least the length. */
  lemma {:induction false} SumAtLeastLength<T>(s: seq<T>, f: T -> int)
    requires forall i :: 0 <= i < |s| ==> f(s[i]) >= 1
    ensures Sum(s, f) >= |s|
  {
    if s != [] {
      SumAtLeastLength(s[..|s| - 1], f);
    }
  }

  /** Sums are unchanged by replacing one element with one of equal weight
      plus `d`. */
  lemma SumUpdate<T>(s: seq<T>, i: nat, x: T, f: T -> int)
    requires i < |s|
    ensures Sum(s[i := x], f) == Sum(s, f) - f(s[i]) + f(x)
  {
    assert s == s[..i] + [s[i]] + s[i + 1..];
    assert s[i := x] == s[..i] + [x] + s[i + 1..];
    SumAppend(s[..i] + [s[i]], s[i + 1..], f);
    SumAppend(s[..i], [s[i]], f);
    SumAppend(s[..i] + [x], s[i + 1..], f);
    SumAppend(s[..i], [x], f);
    assert [s[i]][..0] == [] && [x][..0] == [];
  }

  /** Removing the element at `i` (JavaScript `splice(i, 1)`). */
  function RemoveAt<T>(s: seq<T>, i: nat): (r: seq<T>)
    requires i < |s|
    ensures |r| == |s| - 1
    ensures forall k :: 0 <= k < i ==> r[k] == s[k]
    ensures forall k :: i <= k < |r| ==> r[k] == s[k + 1]
  {
    s[..i] + s[i + 1..]
  }

  lemma {:induction false} SumRemoveAt<T>(s: seq<T>, i: nat, f: T -> int)
    requires i < |s|
    ensures Sum(RemoveAt(s, i), f) == Sum(s, f) - f(s[i])
    decreases |s|
  {
    var init, last := s[..|s| - 1], s[|s| - 1];
    if i == |s| - 1 {
      assert RemoveAt(s, i) == init;
    } else {
      assert RemoveAt(s, i) == RemoveAt(init, i) + [last];
      SumRemoveAt(init, i, f);
      SumSnoc(RemoveAt(init, i), last, f);
    }
  }

  /** `.limit(n)` on a result list: the first `n` elements, or all of them. */
  function Take<T>(s: seq<T>, n: nat): (r: seq<T>)
    ensures |r| == if n < |s| then n else |s|
    ensures r == s[..|r|]
  {
    if n < |s| then s[..n] else s
  }

  /** The list in the opposite order. */
  function Reverse<T>(s: seq<T>): (r: seq<T>)
    ensures |r| == |s|
    ensures forall i :: 0 <= i < |s| ==> r[i] == s[|s| - 1 - i]
  {
    if s == [] then [] else [s[|s| - 1]] + Reverse(s[..|s| - 1])
  }

  /** Predicates that agree everywhere keep the same elements. */
  lemma {:induction false} FilterSamePredicate<T>(s: seq<T>, p: T -> bool, q: T -> bool)
    requires forall x :: p(x) == q(x)
    ensures Filter(s, p) == Filter(s, q)
  {
    if s != [] {
      FilterSamePredicate(s[..|s| - 1], p, q);
    }
  }

  /** Nothing is kept when no element satisfies the predicate. */
  lemma {:induction false} FilterNone<T>(s: seq<T>, p: T -> bool)
    requires forall i :: 0 <= i < |s| ==> !p(s[i])
    ensures Filter(s, p) == []
  {
    if s != [] {
      FilterNone(s[..|s| - 1], p);
    }
  }

  /** `s.findIndex(p)` as an option: the first position satisfying `p`. */
  function FindFirst<T>(s: seq<T>, p: T -> bool): (r: Option<nat>)
    ensures r.Some? ==> r.value < |s| && p(s[r.value])
    ensures r.Some? ==> forall k :: 0 <= k < r.value ==> !p(s[k])
    ensures r.None? ==> forall k :: 0 <= k < |s| ==> !p(s[k])
  {
    if s == [] then None
    else if p(s[0]) then Some(0)
    else match FindFirst(s[1..], p)
      case None => None
      case Some(i) => Some(i + 1)
  }

  /** The first position satisfying `p` is the one found. */
  lemma FindFirstAt<T>(s: seq<T>, p: T -> bool, i: nat)
    requires i < |s| && p(s[i])
    requires forall k :: 0 <= k < i ==> !p(s[k])
    ensures FindFirst(s, p) == Some(i)
  {
    if i > 0 {
      FindFirstAt(s[1..], p, i - 1);
    }
  }

  /** Where `splice(index, 1)` starts on an array of length `len`: a
      negative index counts from the end, and both ends are clamped. */
  function SpliceStart(len: nat, index: int): (k: nat)
    ensures k <= len
    ensures 0 <= index <= len ==> k == index
    ensures index < 0 && len + index >= 0 ==> k == len + index
  {
    if index < 0 then (if len + index < 0 then 0 else len + index)
    else if index > len then len
    else index
  }

  /** `s.splice(index, 1)` on any integer index: the element at the clamped
      start is removed, or nothing when the start is past the end. */
  function Splice1<T>(s: seq<T>, index: int): (r: seq<T>)
    ensures 0 <= index < |s| ==> r == RemoveAt(s, index)
    ensures index >= |s| ==> r == s
    ensures -|s| <= index < 0 ==> r == RemoveAt(s, |s| + index)
  {
    var k := SpliceStart(|s|, index);
    if k < |s| then RemoveAt(s, k) else s
  }
}

=== FILE: graphql.dfy ===
/** The GraphQL mutations on orders and accounts
    (server/src/graphql/resolvers.js). Money is in integer cents. The
    documents the resolvers read are given as values in the shape the
    resolvers expect; the caller's identity comes from the request context;
    bcrypt and jwt are function parameters. */
module GraphQLResolvers {
  import opened Wrappers
  import opened Text
  import Users

  datatype ErrorKind = AuthenticationError | UserInputError | ValidationError | TypeError

  /** A thrown error: its class and its message. */
  datatype GqlError = GqlError(kind: ErrorKind, message: string)

  const NOT_AUTHENTICATED := GqlError(AuthenticationError, "Not authenticated")
  const NOT_AUTHORIZED := GqlError(AuthenticationError, "Not authorized")
  const ORDER_NOT_FOUND := GqlError(UserInputError, "Order not found")

  /** The TypeError JavaScript raises for `undefined.id(...)`. */
  const UNDEFINED_ID := GqlError(TypeError, "Cannot read properties of undefined (reading 'id')")

  /** The authenticated caller of a request. */
  datatype Viewer = Viewer(id: nat, role: string)

  /** A priced option or variation of a dish. */
  datatype Choice = Choice(id: nat, price: int)

  datatype Dish = Dish(id: nat, price: int, options: seq<Choice>, variations: seq<Choice>)

  datatype RestaurantDoc = RestaurantDoc(id: nat, owner: nat, menu: seq<Dish>, deliveryFee: Option<int>)

  datatype SavedAddress = SavedAddress(id: nat, address: string)

  /** One requested item; absent option or variation lists are `None`. */
  datatype ItemInput = ItemInput(menuItemId: nat, quantity: int, optionIds: Option<seq<nat>>,
                                 variationIds: Option<seq<nat>>, specialInstructions: Option<string>)

  /** One stored order line: the request's ids, unpriced. */
  datatype OrderLine = OrderLine(menuItem: nat, quantity: int, options: Option<seq<nat>>,
                                 variations: Option<seq<nat>>, specialInstructions: Option<string>)

  function LineOf(it: ItemInput): OrderLine
  {
    OrderLine(it.menuItemId, it.quantity, it.optionIds, it.variationIds, it.specialInstructions)
  }

  /** `restaurant.menu.id(id)`. */
  function FindDish(menu: seq<Dish>, id: nat): (r: Option<Dish>)
    ensures r.Some? ==> r.value in menu && r.value.id == id
    ensures r.None? ==> forall k :: 0 <= k < |menu| ==> menu[k].id != id
  {
    if menu == [] then None
    else if menu[0].id == id then Some(menu[0])
    else FindDish(menu[1..], id)
  }

  /** `menuItem.options.id(id)` (and likewise for variations). */
  function FindChoice(choices: seq<Choice>, id: nat): (r: Option<Choice>)
    ensures r.Some? ==> r.value in choices && r.value.id == id
    ensures r.None? ==> forall k :: 0 <= k < |choices| ==> choices[k].id != id
  {
    if choices == [] then None
    else if choices[0].id == id then Some(choices[0])
    else FindChoice(choices[1..], id)
  }

  /** `userDoc.address.id(id)`. */
  function FindAddress(addresses: seq<SavedAddress>, id: nat): (r: Option<SavedAddress>)
    ensures r.Some? ==> r.value in addresses && r.value.id == id
    ensures r.None? ==> forall k :: 0 <= k < |addresses| ==> addresses[k].id != id
  {
    if addresses == [] then None
    else if addresses[0].id == id then Some(addresses[0])
    else FindAddress(addresses[1..], id)
  }

  /** What one selected id adds for `q` portions: its price times `q`, or
      nothing when the dish has no such choice. */
  function ChoiceCost(choices: seq<Choice>, id: nat, q: int): int
  {
    match FindChoice(choices, id)
    case Some(c) => c.price * q
    case None => 0
  }

  /** The cost of a list of selected ids, each counted as often as listed. */
  function ChoicesCost(choices: seq<Choice>, ids: seq<nat>, q: int): int
  {
    if ids == [] then 0 else ChoicesCost(choices, ids[..|ids| - 1], q) + ChoiceCost(choices, ids[|ids| - 1], q)
  }

  /** Choices are paid per portion: the cost for `q` portions is `q` times
      the cost of one. */
  lemma {:induction false} ChoicesCostScales(choices: seq<Choice>, ids: seq<nat>, q: int)
    ensures ChoicesCost(choices, ids, q) == q * ChoicesCost(choices, ids, 1)
  {
    if ids != [] {
      ChoicesCostScales(choices, ids[..|ids| - 1], q);
      var last := ids[|ids| - 1];
      assert ChoiceCost(choices, last, q) == q * ChoiceCost(choices, last, 1);
      calc {
        ChoicesCost(choices, ids, q);
        ChoicesCost(choices, ids[..|ids| - 1], q) + ChoiceCost(choices, last, q);
        q * ChoicesCost(choices, ids[..|ids| - 1], 1) + q * ChoiceCost(choices, last, 1);
        q * (ChoicesCost(choices, ids[..|ids| - 1], 1) + ChoiceCost(choices, last, 1));
      }
    }
  }

  /** An id the dish does not offer is skipped without error or cost. */
  lemma UnknownChoiceSkipped(choices: seq<Choice>, ids: seq<nat>, id: nat, q: int)
    requires forall k :: 0 <= k < |choices| ==> choices[k].id != id
    ensures ChoicesCost(choices, ids + [id], q) == ChoicesCost(choices, ids, q)
  {
    assert (ids + [id])[..|ids + [id]| - 1] == ids;
  }

  /** The total of one item: the dish price plus every found option and
      variation price, each times the quantity. */
  function ItemTotal(d: Dish, it: ItemInput): int
  {
    d.price * it.quantity
    + ChoicesCost(d.options, it.optionIds.GetOr([]), it.quantity)
    + ChoicesCost(d.variations, it.variationIds.GetOr([]), it.quantity)
  }

  /** One item's total as written: the Mongoose menu item has no `options`
      or `variations` array (its options sit under `customization`), so a
      non-empty id list throws on `.id`; an absent or empty list is never
      walked and the item costs its dish price times the quantity. */
  function ItemTotalAsWritten(d: Dish, it: ItemInput): (r: Result<int, GqlError>)
    ensures r.Success? <==> it.optionIds.GetOr([]) == [] && it.variationIds.GetOr([]) == []
    ensures r.Success? ==> r.value == ItemTotal(d, it)
    ensures r.Failure? ==> r.error == UNDEFINED_ID
  {
    if it.optionIds.GetOr([]) != [] || it.variationIds.GetOr([]) != [] then Failure(UNDEFINED_ID)
    else Success(d.price * it.quantity)
  }

  /** A dish of 10.00 offering an option of 1.50: one portion with the
      option costs 11.50 by the GraphQL schema's shape, and throws as
      written. */
  lemma ChosenOptionThrows()
    ensures ItemTotal(Dish(1, 1000, [Choice(7, 150)], []), ItemInput(1, 1, Some([7]), None, None)) == 1150
    ensures ItemTotalAsWritten(Dish(1, 1000, [Choice(7, 150)], []), ItemInput(1, 1, Some([7]), None, None))
            == Failure(UNDEFINED_ID)
  {
    var ids: seq<nat> := [7];
    assert ids[..0] == [];
  }

  /** The price of one portion of an item with its choices. */
  function UnitPrice(d: Dish, it: ItemInput): int
  {
    d.price + ChoicesCost(d.options, it.optionIds.GetOr([]), 1) + ChoicesCost(d.variations, it.variationIds.GetOr([]), 1)
  }

  /** An item costs its quantity times the price of one portion. */
  lemma ItemTotalPerPortion(d: Dish, it: ItemInput)
    ensures ItemTotal(d, it) == it.quantity * UnitPrice(d, it)
  {
    var q := it.quantity;
    var opts, vars := it.optionIds.GetOr([]), it.variationIds.GetOr([]);
    ChoicesCostScales(d.options, opts, q);
    ChoicesCostScales(d.variations, vars, q);
    var a, b := ChoicesCost(d.options, opts, 1), ChoicesCost(d.variations, vars, 1);
    Distribute(q, d.price, a, b);
  }

  lemma Distribute(q: int, p: int, a: int, b: int)
    ensures q * (p + a + b) == p * q + q * a + q * b
  {
  }

  /** Every item names a dish of the menu. */
  predicate AllOnMenu(menu: seq<Dish>, items: seq<ItemInput>)
  {
    forall it :: it in items ==> FindDish(menu, it.menuItemId).Some?
  }

  /** Σ of the item totals. */
  function ItemsTotal(menu: seq<Dish>, items: seq<ItemInput>): int
    requires AllOnMenu(menu, items)
  {
    if items == [] then 0
    else
      var last := items[|items| - 1];
      ItemsTotal(menu, items[..|items| - 1]) + ItemTotal(FindDish(menu, last.menuItemId).value, last)
  }

  /** The order total: the items plus `restaurant.deliveryFee || 0`. */
  function OrderTotal(r: RestaurantDoc, items: seq<ItemInput>): int
    requires AllOnMenu(r.menu, items)
  {
    ItemsTotal(r.menu, items) + r.deliveryFee.GetOr(0)
  }

  /** With non-negative prices and quantities the items never total below
      zero. */
  lemma {:induction false} ItemsTotalNonNegative(menu: seq<Dish>, items: seq<ItemInput>)
    requires AllOnMenu(menu, items)
    requires forall k :: 0 <= k < |items| ==> items[k].quantity >= 0
    requires forall d :: d in menu ==> d.price >= 0
                                        && (forall c :: c in d.options ==> c.price >= 0)
                                        && (forall c :: c in d.variations ==> c.price >= 0)
    ensures ItemsTotal(menu, items) >= 0
  {
    if items != [] {
      var init := items[..|items| - 1];
      assert forall it :: it in init ==> it in items;
      ItemsTotalNonNegative(menu, init);
      var last := items[|items| - 1];
      var d := FindDish(menu, last.menuItemId).value;
      ItemTotalPerPortion(d, last);
      ChoicesCostNonNegative(d.options, last.optionIds.GetOr([]));
      ChoicesCostNonNegative(d.variations, last.variationIds.GetOr([]));
      assert UnitPrice(d, last) >= 0;
    }
  }

  lemma {:induction false} ChoicesCostNonNegative(choices: seq<Choice>, ids: seq<nat>)
    requires forall c :: c in choices ==> c.price >= 0
    ensures ChoicesCost(choices, ids, 1) >= 0
  {
    if ids != [] {
      ChoicesCostNonNegative(choices, ids[..|ids| - 1]);
    }
  }

  /** The order a mutation creates or updates; only its status changes. */
  class PlacedOrder {
    const user: nat
    const restaurant: nat
    const restaurantOwner: nat
    const lines: seq<OrderLine>
    const total: int
    const deliveryAddress: SavedAddress
    const paymentMethod: string
    var status: string

    constructor (user: nat, restaurant: nat, restaurantOwner: nat, lines: seq<OrderLine>, total: int,
                 deliveryAddress: SavedAddress, paymentMethod: string)
      ensures this.user == user && this.restaurant == restaurant && this.restaurantOwner == restaurantOwner
      ensures this.lines == lines && this.total == total
      ensures this.deliveryAddress == deliveryAddress && this.paymentMethod == paymentMethod
      ensures status == "PENDING"
    {
      this.user := user;
      this.restaurant := restaurant;
      this.restaurantOwner := restaurantOwner;
      this.lines := lines;
      this.total := total;
      this.deliveryAddress := deliveryAddress;
      this.paymentMethod := paymentMethod;
      this.status := "PENDING";
    }
  }

  /** The inner `forEach` over selected ids: adds each found choice's price
      times the quantity. */
  method AddChoices(choices: seq<Choice>, ids: Option<seq<nat>>, q: int) returns (cost: int)
    ensures cost == ChoicesCost(choices, ids.GetOr([]), q)
  {
    cost := 0;
    if ids.None? {
      return;
    }
    var list := ids.value;
    var j := 0;
    while j < |list|
      invariant 0 <= j <= |list|
      invariant cost == ChoicesCost(choices, list[..j], q)
    {
      var c := FindChoice(choices, list[j]);
      if c.Some? {
        cost := cost + c.value.price * q;
      }
      assert list[..j + 1][..j] == list[..j];
      j := j + 1;
    }
    assert list[..j] == list;
  }

  /** The `forEach` over the requested items: prices each one against the
      menu, or stops at the first item whose dish is not on it. */
  method PriceItems(menu: seq<Dish>, items: seq<ItemInput>)
    returns (missing: Option<nat>, total: int, lines: seq<OrderLine>)
    ensures missing.None? <==> AllOnMenu(menu, items)
    ensures missing.Some? ==>
              && missing.value < |items|
              && (forall k :: 0 <= k < missing.value ==> FindDish(menu, items[k].menuItemId).Some?)
              && FindDish(menu, items[missing.value].menuItemId).None?
    ensures missing.None? ==> total == ItemsTotal(menu, items)
    ensures missing.None? ==> |lines| == |items| && forall k :: 0 <= k < |items| ==> lines[k] == LineOf(items[k])
  {
    total := 0;
    lines := [];
    var i := 0;
    while i < |items|
      invariant 0 <= i <= |items|
      invariant AllOnMenu(menu, items[..i])
      invariant total == ItemsTotal(menu, items[..i])
      invariant |lines| == i && forall k :: 0 <= k < i ==> lines[k] == LineOf(items[k])
    {
      var it := items[i];
      var dish := FindDish(menu, it.menuItemId);
      if dish.None? {
        assert forall k :: 0 <= k < i ==> items[k] in items[..i];
        return Some(i), total, lines;
      }
      var itemTotal := dish.value.price * it.quantity;
      var options := AddChoices(dish.value.options, it.optionIds, it.quantity);
      itemTotal := itemTotal + options;
      var variations := AddChoices(dish.value.variations, it.variationIds, it.quantity);
      itemTotal := itemTotal + variations;
      assert items[..i + 1] == items[..i] + [it];
      total := total + itemTotal;
      lines := lines + [LineOf(it)];
      i := i + 1;
    }
    assert items[..i] == items;
    missing := None;
  }

  /** `createOrder`. `found` is the restaurant looked up by id and
      `addresses` the caller's saved addresses. The item callbacks run in
      list order, so the error raised is that of the first unknown dish. */
  method CreateOrder(viewer: Option<Viewer>, found: Option<RestaurantDoc>, addresses: seq<SavedAddress>,
                     addressId: nat, items: seq<ItemInput>, paymentMethod: string)
    returns (r: Result<PlacedOrder, GqlError>)
    ensures viewer.None? ==> r == Failure(NOT_AUTHENTICATED)
    ensures viewer.Some? && found.None? ==> r == Failure(GqlError(UserInputError, "Restaurant not found"))
    ensures viewer.Some? && found.Some? && FindAddress(addresses, addressId).None? ==>
              r == Failure(GqlError(UserInputError, "Delivery address not found"))
    ensures viewer.Some? && found.Some? && FindAddress(addresses, addressId).Some? ==>
              (r.Success? <==> AllOnMenu(found.value.menu, items))
    ensures r.Failure? && viewer.Some? && found.Some? && FindAddress(addresses, addressId).Some? ==>
              exists i :: 0 <= i < |items|
                          && (forall k :: 0 <= k < i ==> FindDish(found.value.menu, items[k].menuItemId).Some?)
                          && FindDish(found.value.menu, items[i].menuItemId).None?
                          && r.error == GqlError(UserInputError, "Menu item " + DecimalString(items[i].menuItemId) + " not found")
    ensures r.Success? ==>
              && viewer.Some? && found.Some? && FindAddress(addresses, addressId).Some?
              && AllOnMenu(found.value.menu, items)
              && fresh(r.value)
              && r.value.total == OrderTotal(found.value, items)
              && r.value.status == "PENDING"
              && r.value.user == viewer.value.id
              && r.value.restaurant == found.value.id && r.value.restaurantOwner == found.value.owner
              && r.value.deliveryAddress == FindAddress(addresses, addressId).value
              && |r.value.lines| == |items|
              && (forall k :: 0 <= k < |items| ==> r.value.lines[k] == LineOf(items[k]))
  {
    if viewer.None? {
      return Failure(NOT_AUTHENTICATED);
    }
    if found.None? {
      return Failure(GqlError(UserInputError, "Restaurant not found"));
    }
    var address := FindAddress(addresses, addressId);
    if address.None? {
      return Failure(GqlError(UserInputError, "Delivery address not found"));
    }
    var missing, itemsTotal, lines := PriceItems(found.value.menu, items);
    if missing.Some? {
      var id := items[missing.value].menuItemId;
      return Failure(GqlError(UserInputError, "Menu item " + DecimalString(id) + " not found"));
    }
    var total := itemsTotal + found.value.deliveryFee.GetOr(0);
    var order := new PlacedOrder(viewer.value.id, found.value.id, found.value.owner, lines, total,
                                 address.value, paymentMethod);
    r := Success(order);
  }

  /** `createOrder` as written: the user schema keeps saved addresses under
      `addresses`, so `userDoc.address` is undefined and `.id(addressId)`
      throws for every signed-in caller whose restaurant exists; no order is
      ever created. */
  function CreateOrderAsWritten(viewer: Option<Viewer>, found: Option<RestaurantDoc>): (r: Result<PlacedOrder, GqlError>)
    ensures r.Failure?
    ensures r.error == NOT_AUTHENTICATED <==> viewer.None?
    ensures r.error == UNDEFINED_ID <==> viewer.Some? && found.Some?
    ensures viewer.Some? && found.None? ==> r.error == GqlError(UserInputError, "Restaurant not found")
  {
    if viewer.None? then Failure(NOT_AUTHENTICATED)
    else if found.None? then Failure(GqlError(UserInputError, "Restaurant not found"))
    else Failure(UNDEFINED_ID)
  }

  /** The role the account schema gives administrators. */
  const ADMIN_ROLE := "admin"

  /** Who may set an order's status, as written: the role "ADMIN" or the
      restaurant's owner. */
  function StatusChangeCheckAsWritten(viewer: Viewer, owner: nat): Outcome<GqlError>
  {
    if viewer.role != "ADMIN" && owner != viewer.id then Fail(NOT_AUTHORIZED) else Pass
  }

  /** Who may set an order's status, corrected: an administrator or the
      restaurant's owner. */
  function StatusChangeCheck(viewer: Viewer, owner: nat): (r: Outcome<GqlError>)
    ensures r == Pass <==> viewer.role == ADMIN_ROLE || owner == viewer.id
    ensures r.Fail? ==> r == Fail(NOT_AUTHORIZED)
  {
    if viewer.role != ADMIN_ROLE && owner != viewer.id then Fail(NOT_AUTHORIZED) else Pass
  }

  /** `updateOrderStatus`, with the administrator role corrected: any status
      may replace any other; there is no transition table on this path. */
  method UpdateOrderStatus(viewer: Option<Viewer>, order: PlacedOrder?, status: string) returns (r: Outcome<GqlError>)
    modifies order
    ensures viewer.None? ==> r == Fail(NOT_AUTHENTICATED)
    ensures viewer.Some? && order == null ==> r == Fail(ORDER_NOT_FOUND)
    ensures viewer.Some? && order != null ==> r == StatusChangeCheck(viewer.value, order.restaurantOwner)
    ensures order != null ==> order.status == if r.Pass? then status else old(order.status)
  {
    if viewer.None? {
      return Fail(NOT_AUTHENTICATED);
    }
    if order == null {
      return Fail(ORDER_NOT_FOUND);
    }
    r := StatusChangeCheck(viewer.value, order.restaurantOwner);
    if r.Pass? {
      order.status := status;
    }
  }

  /** The checks of `cancelOrder` as written, in order: authentication, the
      status (only PENDING orders), then ownership or the role "ADMIN". */
  function CancelCheckAsWritten(viewer: Option<Viewer>, status: string, orderUser: nat): Outcome<GqlError>
  {
    if viewer.None? then Fail(NOT_AUTHENTICATED)
    else if status != "PENDING" then Fail(GqlError(UserInputError, "Order cannot be cancelled"))
    else if orderUser != viewer.value.id && viewer.value.role != "ADMIN" then Fail(NOT_AUTHORIZED)
    else Pass
  }

  /** The same checks with the administrator role corrected. */
  function CancelCheck(viewer: Option<Viewer>, status: string, orderUser: nat): Outcome<GqlError>
  {
    if viewer.None? then Fail(NOT_AUTHENTICATED)
    else if status != "PENDING" then Fail(GqlError(UserInputError, "Order cannot be cancelled"))
    else if orderUser != viewer.value.id && viewer.value.role != ADMIN_ROLE then Fail(NOT_AUTHORIZED)
    else Pass
  }

  /** No role the account schema allows is "ADMIN", so as written the
      administrator override never fires: only the restaurant's owner may
      set a status and only the customer may cancel, while the corrected
      checks admit an administrator to both. */
  lemma AdminOverrideNeverFires(viewer: Viewer, owner: nat, status: string, orderUser: nat)
    requires viewer.role in Users.ROLES
    ensures StatusChangeCheckAsWritten(viewer, owner) == Pass <==> owner == viewer.id
    ensures CancelCheckAsWritten(Some(viewer), status, orderUser) == Pass <==>
              status == "PENDING" && orderUser == viewer.id
    ensures viewer.role == ADMIN_ROLE ==>
              StatusChangeCheck(viewer, owner) == Pass
              && (status == "PENDING" ==> CancelCheck(Some(viewer), status, orderUser) == Pass)
  {
    assert "ADMIN" !in Users.ROLES;
  }

  /** Cancelling succeeds exactly for a pending order and its customer or an
      administrator; a non-pending order is refused as such even to a caller
      who could not have cancelled it anyway. */
  lemma CancelRules(viewer: Option<Viewer>, status: string, orderUser: nat)
    ensures CancelCheck(viewer, status, orderUser) == Pass <==>
              viewer.Some? && status == "PENDING" && (orderUser == viewer.value.id || viewer.value.role == ADMIN_ROLE)
    ensures viewer.Some? && status != "PENDING" ==>
              CancelCheck(viewer, status, orderUser) == Fail(GqlError(UserInputError, "Order cannot be cancelled"))
  {
  }

  /** `cancelOrder`, with the administrator role corrected. */
  method CancelOrder(viewer: Option<Viewer>, order: PlacedOrder?) returns (r: Outcome<GqlError>)
    modifies order
    ensures viewer.None? ==> r == Fail(NOT_AUTHENTICATED)
    ensures viewer.Some? && order == null ==> r == Fail(ORDER_NOT_FOUND)
    ensures order != null ==> r == CancelCheck(viewer, old(order.status), order.user)
    ensures order != null ==> order.status == if r.Pass? then "CANCELLED" else old(order.status)
  {
    if viewer.None? {
      return Fail(NOT_AUTHENTICATED);
    }
    if order == null {
      return Fail(ORDER_NOT_FOUND);
    }
    r := CancelCheck(viewer, order.status, order.user);
    if r.Pass? {
      order.status := "CANCELLED";
    }
  }

  /** The stored account fields the account mutations read and write. */
  datatype Account = Account(id: nat, email: string, passwordHash: string, name: string, phone: string, role: string)

  datatype ProfileArgs = ProfileArgs(name: Option<string>, phone: Option<string>,
                                     currentPassword: Option<string>, newPassword: Option<string>)

  /** `updateProfile`: the account after `findByIdAndUpdate` with the
      updates built from the arguments. The update is cast through the
      schema, so its `trim` setters apply to the name and phone (validators
      do not run, so a blank but truthy name is stored empty).
      `compare(p, h)` is bcrypt's check of `p` against hash `h`; `hash` is
      bcrypt's hashing. */
  function UpdateProfile(viewer: Option<Viewer>, current: Account, args: ProfileArgs,
                         compare: (string, string) -> bool, hash: string -> string): (r: Result<Account, GqlError>)
    ensures viewer.None? ==> r == Failure(NOT_AUTHENTICATED)
    ensures r.Success? ==>
              && r.value.id == current.id && r.value.email == current.email && r.value.role == current.role
              && r.value.name == (if TruthyText(args.name) then Trim(args.name.value) else current.name)
              && r.value.phone == (if TruthyText(args.phone) then Trim(args.phone.value) else current.phone)
    ensures r.Success? && r.value.passwordHash != current.passwordHash ==>
              TruthyText(args.currentPassword) && TruthyText(args.newPassword)
              && compare(args.currentPassword.value, current.passwordHash)
              && r.value.passwordHash == hash(args.newPassword.value)
    ensures viewer.Some? && TruthyText(args.currentPassword) && TruthyText(args.newPassword)
            && !compare(args.currentPassword.value, current.passwordHash) ==>
              r == Failure(GqlError(UserInputError, "Current password is incorrect"))
    ensures viewer.Some? && !(TruthyText(args.currentPassword) && TruthyText(args.newPassword)) ==>
              r.Success? && r.value.passwordHash == current.passwordHash
    ensures viewer.Some? && TruthyText(args.currentPassword) && TruthyText(args.newPassword)
            && compare(args.currentPassword.value, current.passwordHash) ==>
              r.Success? && r.value.passwordHash == hash(args.newPassword.value)
  {
    if viewer.None? then Failure(NOT_AUTHENTICATED)
    else
      var named := if TruthyText(args.name) then current.(name := Trim(args.name.value)) else current;
      var phoned := if TruthyText(args.phone) then named.(phone := Trim(args.phone.value)) else named;
      if TruthyText(args.currentPassword) && TruthyText(args.newPassword) then
        if !compare(args.currentPassword.value, current.passwordHash) then
          Failure(GqlError(UserInputError, "Current password is incorrect"))
        else Success(phoned.(passwordHash := hash(args.newPassword.value)))
      else Success(phoned)
  }

  /** What `signup` and `login` return. */
  datatype AuthPayload = AuthPayload(token: string, account: Account)

  const INVALID_LOGIN := GqlError(UserInputError, "Invalid email or password")

  /** `login`: the account found by email, if any, and the password check.
      `sign` issues the token for an account. */
  function Login(found: Option<Account>, password: string, compare: (string, string) -> bool,
                 sign: Account -> string): (r: Result<AuthPayload, GqlError>)
    ensures r.Success? <==> found.Some? && compare(password, found.value.passwordHash)
    ensures r.Success? ==> r.value == AuthPayload(sign(found.value), found.value)
    ensures r.Failure? ==> r.error == INVALID_LOGIN
  {
    if found.None? then Failure(INVALID_LOGIN)
    else if !compare(password, found.value.passwordHash) then Failure(INVALID_LOGIN)
    else Success(AuthPayload(sign(found.value), found.value))
  }

  /** An unknown email and a wrong password cannot be told apart. */
  lemma LoginHidesWhichCheckFailed(account: Account, password: string, compare: (string, string) -> bool,
                                   sign: Account -> string)
    requires !compare(password, account.passwordHash)
    ensures Login(None, password, compare, sign) == Login(Some(account), password, compare, sign)
  {
  }

  /** `signup` as written: it hashes the password itself and creates the
      user with role "USER", which is not a value of the user schema's role
      enum, so the document's validation rejects every new user. */
  method SignupAsWritten(emailTaken: bool, id: nat, email: string, password: string, name: string, phone: string,
                         hash: string -> string, sign: Account -> string)
    returns (r: Result<AuthPayload, GqlError>)
    ensures emailTaken ==> r == Failure(GqlError(UserInputError, "Email already exists"))
    ensures !emailTaken ==> r == Failure(GqlError(ValidationError, "User validation failed"))
  {
    if emailTaken {
      return Failure(GqlError(UserInputError, "Email already exists"));
    }
    var hashed := hash(password);
    var doc := new Users.UserDocument(email, hashed, name, phone, Some("USER"));
    assert "USER" !in Users.ROLES;
    var ok := doc.Save(hash);
    // the role validator rejects "USER", so the token is never issued
    assert !ok;
    r := Failure(GqlError(ValidationError, "User validation failed"));
  }

  /** `signup` with only its role corrected: the resolver still hashes the
      password before `User.create`, and the pre-save hook hashes the
      already hashed value a second time. */
  method SignupHashingTwice(emailTaken: bool, id: nat, email: string, password: string, name: string, phone: string,
                            hash: string -> string, sign: Account -> string)
    returns (r: Result<AuthPayload, GqlError>)
    ensures emailTaken ==> r == Failure(GqlError(UserInputError, "Email already exists"))
    ensures !emailTaken ==> (r.Success? <==> SignupInputValid(email, hash(password), name, phone))
    ensures r.Success? ==>
              && r.value.account == Account(id, Lower(Trim(email)), hash(hash(password)), Trim(name), Trim(phone), "user")
              && r.value.token == sign(r.value.account)
  {
    if emailTaken {
      return Failure(GqlError(UserInputError, "Email already exists"));
    }
    var doc := new Users.UserDocument(email, hash(password), name, phone, None);
    var ok := doc.Save(hash);
    if !ok {
      return Failure(GqlError(ValidationError, "User validation failed"));
    }
    var account := Account(id, doc.email, doc.password, doc.name, doc.phone, doc.role);
    r := Success(AuthPayload(sign(account), account));
  }

  /** A stand-in hash that prefixes "$", with the comparison that accepts a
      password against its own hash. */
  function Prefixed(s: string): string
  {
    "$" + s
  }

  predicate PrefixedMatches(password: string, stored: string)
  {
    stored == Prefixed(password)
  }

  /** With a hash applied twice, the user cannot log in with the password
      chosen at signup, while a single hash lets them in. */
  lemma DoubleHashLocksOut(account: Account, password: string, sign: Account -> string)
    ensures account.passwordHash == Prefixed(Prefixed(password)) ==>
              Login(Some(account), password, PrefixedMatches, sign) == Failure(INVALID_LOGIN)
    ensures account.passwordHash == Prefixed(password) ==>
              Login(Some(account), password, PrefixedMatches, sign).Success?
  {
    if account.passwordHash == Prefixed(Prefixed(password)) {
      assert |account.passwordHash| == |password| + 2;
    }
  }

  /** The inputs the user schema accepts for a new user. */
  predicate SignupInputValid(email: string, password: string, name: string, phone: string)
  {
    Lower(Trim(email)) != [] && Trim(name) != [] && Trim(phone) != [] && |password| >= Users.PASSWORD_MIN_LENGTH
  }

  /** `signup` with the role the schema defines: the plain password is
      handed to the document, whose pre-save hook hashes it once. */
  method Signup(emailTaken: bool, id: nat, email: string, password: string, name: string, phone: string,
                hash: string -> string, sign: Account -> string)
    returns (r: Result<AuthPayload, GqlError>)
    ensures emailTaken ==> r == Failure(GqlError(UserInputError, "Email already exists"))
    ensures !emailTaken ==> (r.Success? <==> SignupInputValid(email, password, name, phone))
    ensures r.Failure? && !emailTaken ==> r.error == GqlError(ValidationError, "User validation failed")
    ensures r.Success? ==>
              && r.value.account == Account(id, Lower(Trim(email)), hash(password), Trim(name), Trim(phone), "user")
              && r.value.token == sign(r.value.account)
  {
    if emailTaken {
      return Failure(GqlError(UserInputError, "Email already exists"));
    }
    var doc := new Users.UserDocument(email, password, name, phone, None);
    var ok := doc.Save(hash);
    if !ok {
      return Failure(GqlError(ValidationError, "User validation failed"));
    }
    var account := Account(id, doc.email, doc.password, doc.name, doc.phone, doc.role);
    r := Success(AuthPayload(sign(account), account));
  }

  /** A user created by `Signup` can log in with the same password, given
      that bcrypt accepts a password against its own hash. */
  lemma SignupThenLogin(account: Account, password: string, hash: string -> string,
                        compare: (string, string) -> bool, sign: Account -> string)
    requires account.passwordHash == hash(password)
    requires compare(password, hash(password))
    ensures Login(Some(account), password, compare, sign) == Success(AuthPayload(sign(account), account))
  {
  }
}

=== FILE: ledger.dfy ===
/** The ledger as the wallet, PCM and withdrawal services see it: assets,
    operations, signed transactions and account balance lists. The network
    itself (account loading, the base fee, submission, history) is an input
    value, so every service below is a function of what the network answers. */
module Ledger {
  import opened Wrappers

  /** The native coin (Pi) or an issued asset named by code and issuer. */
  datatype Asset = Native | Issued(code: string, issuer: string)

  datatype Operation =
    | Payment(destination: string, asset: Asset, amount: real)
    | ChangeTrust(asset: Asset, limit: string)

  /** A built and signed transaction: source account, fee, operations, memo
      and the secret it was signed with. */
  datatype LedgerTx = LedgerTx(source: string, fee: nat, operations: seq<Operation>, memo: Option<string>, signer: string)

  /** The answer of `submitTransaction`: the accepted transaction's hash, or
      a rejection (which the SDK throws). */
  datatype SubmitOutcome = Accepted(hash: string) | Rejected

  datatype AssetFlags = AssetFlags(authRequired: bool, authRevocable: bool, authImmutable: bool)

  /** One entry of an account's `balances` list. `flags` is absent on
      entries that do not carry it. */
  datatype BalanceEntry =
    | NativeBalance(balance: string)
    | IssuedBalance(code: string, issuer: string, balance: string, isFrozen: bool, flags: Option<AssetFlags>)
    | PoolShares(balance: string)

  datatype Account = Account(balances: seq<BalanceEntry>, homeDomain: Option<string>)

  /** One operation as the history endpoint reports it. */
  datatype HistoryOp = HistoryOp(
    opType: string, amount: Option<string>, assetType: string,
    assetCode: Option<string>, assetIssuer: Option<string>,
    from: Option<string>, to: Option<string>)

  /** One transaction as the history endpoint reports it. */
  datatype HistoryTx = HistoryTx(id: string, createdAt: string, operations: seq<HistoryOp>)

  /** What the network answers: the loadable accounts, the base fee (absent
      when fetching it fails), the verdict on each submitted transaction, and
      each account's transactions oldest first. */
  datatype Network = Network(
    accounts: map<string, Account>,
    baseFee: Option<nat>,
    submit: LedgerTx -> SubmitOutcome,
    history: map<string, seq<HistoryTx>>)

  /** Addresses and secrets read from the environment. */
  datatype LedgerConfig = LedgerConfig(
    pcmIssuer: string,
    piWalletAddress: string, piWalletSecret: string,
    pcmDistributorAddress: string, pcmDistributorSecret: string)

  function PcmAsset(cfg: LedgerConfig): Asset { Issued("PCM", cfg.pcmIssuer) }

  /** The trust limit both services request. */
  const TRUST_LIMIT: string := "1000000"

  /** A ledger interaction: the transactions submitted, in order, and the result. */
  datatype Call<R> = Call(submitted: seq<LedgerTx>, result: Result<R, string>)

  predicate IsNative(e: BalanceEntry) { e.NativeBalance? }

  /** `asset_code === 'PCM' && asset_issuer === issuer`. */
  predicate IsPcmLine(e: BalanceEntry, issuer: string)
  {
    e.IssuedBalance? && e.code == "PCM" && e.issuer == issuer
  }

  function PcmLine(issuer: string): BalanceEntry -> bool { e => IsPcmLine(e, issuer) }

  /** `balances.some(...)` for the PCM trustline. */
  predicate HasPcmTrustline(balances: seq<BalanceEntry>, issuer: string)
  {
    exists i :: 0 <= i < |balances| && IsPcmLine(balances[i], issuer)
  }

  /** The transaction that opens a PCM trustline on `account`. */
  function TrustlineTx(account: string, issuer: string, fee: nat, signer: string): LedgerTx
  {
    LedgerTx(account, fee, [ChangeTrust(Issued("PCM", issuer), TRUST_LIMIT)], None, signer)
  }

  /** The balance of the last entry satisfying `p`: what a `forEach` that
      overwrites one slot on every match leaves behind. */
  function LastMatch(entries: seq<BalanceEntry>, p: BalanceEntry -> bool): Option<string>
  {
    if entries == [] then None
    else if p(entries[|entries| - 1]) then Some(entries[|entries| - 1].balance)
    else LastMatch(entries[..|entries| - 1], p)
  }

  /** The last match wins: a slot holds the balance of the latest matching
      entry, and stays at its default when nothing matches. */
  lemma {:induction false} LastMatchWins(entries: seq<BalanceEntry>, p: BalanceEntry -> bool)
    ensures LastMatch(entries, p).None? <==> forall i :: 0 <= i < |entries| ==> !p(entries[i])
    ensures LastMatch(entries, p).Some? ==>
              exists i :: 0 <= i < |entries| && p(entries[i])
                && LastMatch(entries, p).value == entries[i].balance
                && forall j :: i < j < |entries| ==> !p(entries[j])
  {
    if entries != [] {
      var prefix := entries[..|entries| - 1];
      LastMatchWins(prefix, p);
      if !p(entries[|entries| - 1]) && LastMatch(prefix, p).Some? {
        var i :| 0 <= i < |prefix| && p(prefix[i])
                 && LastMatch(prefix, p).value == prefix[i].balance
                 && forall j :: i < j < |prefix| ==> !p(prefix[j]);
        assert entries[i] == prefix[i];
      }
    }
  }

  /** The position of the first entry satisfying `p`: `balances.find(...)`. */
  function FirstMatch(entries: seq<BalanceEntry>, p: BalanceEntry -> bool): (r: Option<nat>)
    ensures r.Some? ==> r.value < |entries| && p(entries[r.value])
    ensures r.Some? ==> forall j :: 0 <= j < r.value ==> !p(entries[j])
    ensures r.None? ==> forall j :: 0 <= j < |entries| ==> !p(entries[j])
  {
    if entries == [] then None
    else if p(entries[0]) then Some(0)
    else match FirstMatch(entries[1..], p)
      case None => None
      case Some(k) => Some(k + 1)
  }
}

=== FILE: menu.dfy ===
/** Menu operations the two restaurant pages share (public/js/restaurant.js
    and js/restaurant.js): the case-insensitive text search and the grouping
    of dishes by category. Prices are integer cents. */
module Menu {
  import opened Collections
  import opened Text

  /** A dish as the client pages receive it. */
  datatype Dish = Dish(id: int, name: string, description: string, price: int, category: string, isVeg: bool)

  /** The search test: the lower-cased name or description contains the
      lower-cased query. */
  predicate TextMatches(name: string, description: string, query: string)
  {
    Contains(Lower(name), Lower(query)) || Contains(Lower(description), Lower(query))
  }

  function Matches(query: string): Dish -> bool
  {
    (d: Dish) => TextMatches(d.name, d.description, query)
  }

  /** `handleSearch`: the dishes that match, in menu order. */
  function Search(items: seq<Dish>, query: string): (r: seq<Dish>)
    ensures forall i :: 0 <= i < |r| ==> r[i] in items && TextMatches(r[i].name, r[i].description, query)
    ensures forall i :: 0 <= i < |items| && TextMatches(items[i].name, items[i].description, query) ==> items[i] in r
  {
    Filter(items, Matches(query))
  }

  /** Searching a menu in two parts gives the matches of the first part
      followed by those of the second, and a single dish is kept iff it
      matches: together these fix the result's order and multiplicity as the
      menu's. */
  lemma SearchAppend(a: seq<Dish>, b: seq<Dish>, query: string)
    ensures Search(a + b, query) == Search(a, query) + Search(b, query)
    ensures forall d :: Search([d], query) == if TextMatches(d.name, d.description, query) then [d] else []
  {
    FilterAppend(a, b, Matches(query));
    forall d ensures Search([d], query) == if TextMatches(d.name, d.description, query) then [d] else [] {
      FilterSingle(d, Matches(query));
    }
  }

  lemma LowerCharIdempotent(c: char)
    ensures LowerChar(LowerChar(c)) == LowerChar(c)
  {
  }

  /** Lower-casing twice is lower-casing once. */
  lemma LowerIdempotent(s: string)
    ensures Lower(Lower(s)) == Lower(s)
  {
    forall i | 0 <= i < |s| ensures Lower(Lower(s))[i] == Lower(s)[i] {
      LowerCharIdempotent(s[i]);
    }
  }

  /** The search ignores the case of the query. */
  lemma SearchIgnoresQueryCase(items: seq<Dish>, query: string)
    ensures Search(items, Lower(query)) == Search(items, query)
  {
    LowerIdempotent(query);
    FilterSamePredicate(items, Matches(Lower(query)), Matches(query));
  }

  /** The empty query keeps every dish. */
  lemma EmptyQueryKeepsAll(items: seq<Dish>)
    ensures Search(items, "") == items
  {
    forall d: Dish ensures Matches("")(d) {
      assert OccursAt(Lower(d.name), Lower(""), 0);
    }
    FilterAll(items, Matches(""));
  }

  function InCategory(c: string): Dish -> bool
  {
    (d: Dish) => d.category == c
  }

  /** `groupByCategory`: the `reduce` into an object keyed by category. */
  function GroupByCategory(items: seq<Dish>): map<string, seq<Dish>>
  {
    if items == [] then map[]
    else
      var m := GroupByCategory(items[..|items| - 1]);
      var x := items[|items| - 1];
      m[x.category := (if x.category in m then m[x.category] else []) + [x]]
  }

  /** There is a bucket exactly for each category that occurs, and each
      bucket holds exactly the dishes of its category in menu order. */
  lemma {:induction false} GroupByCategoryBuckets(items: seq<Dish>)
    ensures forall c :: c in GroupByCategory(items) <==> exists i :: 0 <= i < |items| && items[i].category == c
    ensures forall c :: c in GroupByCategory(items) ==> GroupByCategory(items)[c] == Filter(items, InCategory(c))
  {
    if items != [] {
      var init, x := items[..|items| - 1], items[|items| - 1];
      GroupByCategoryBuckets(init);
      assert items == init + [x];
      var g := GroupByCategory(init);
      var m := GroupByCategory(items);
      assert m == g[x.category := (if x.category in g then g[x.category] else []) + [x]];
      forall c ensures c in m <==> exists i :: 0 <= i < |items| && items[i].category == c {
        if c in m && c != x.category {
          var i :| 0 <= i < |init| && init[i].category == c;
          assert items[i] == init[i];
        }
        if c !in m {
          forall i | 0 <= i < |items| ensures items[i].category != c {
            if i < |init| {
              assert items[i] == init[i];
            }
          }
        }
      }
      forall c | c in m ensures m[c] == Filter(items, InCategory(c)) {
        FilterSnoc(init, x, InCategory(c));
        if c == x.category && c !in GroupByCategory(init) {
          assert forall i :: 0 <= i < |init| ==> !InCategory(c)(init[i]);
          FilterNone(init, InCategory(c));
        }
      }
    }
  }

  /** Every dish lands in the bucket of its own category. */
  lemma BucketOfDish(items: seq<Dish>, i: nat)
    requires i < |items|
    ensures items[i].category in GroupByCategory(items)
    ensures items[i] in GroupByCategory(items)[items[i].category]
  {
    GroupByCategoryBuckets(items);
  }
}

=== FILE: orders.dfy ===
/** Orders placed through the REST routes (routes/orders.js) and the order
    document they create and update (models/Order.js). Money is counted in
    integer cents; the 10% tax is a `real` number of cents. */
module Orders {
  import opened Wrappers
  import opened Collections
  import Text

  /** The seven values of the order's `status` enum. */
  datatype OrderStatus = Pending | Confirmed | Preparing | Ready | PickedUp | Delivered | Cancelled

  /** The string a status is stored and requested as. */
  function StatusName(s: OrderStatus): string
  {
    match s
    case Pending => "pending"
    case Confirmed => "confirmed"
    case Preparing => "preparing"
    case Ready => "ready"
    case PickedUp => "picked_up"
    case Delivered => "delivered"
    case Cancelled => "cancelled"
  }

  /** The status a requested string names, if it names one. */
  function ParseStatus(name: string): (r: Option<OrderStatus>)
    ensures r.Some? ==> StatusName(r.value) == name
  {
    if name == "pending" then Some(Pending)
    else if name == "confirmed" then Some(Confirmed)
    else if name == "preparing" then Some(Preparing)
    else if name == "ready" then Some(Ready)
    else if name == "picked_up" then Some(PickedUp)
    else if name == "delivered" then Some(Delivered)
    else if name == "cancelled" then Some(Cancelled)
    else None
  }

  /** Every status name is read back as that status. */
  lemma ParseStatusName(s: OrderStatus)
    ensures ParseStatus(StatusName(s)) == Some(s)
  {
  }

  /** The `validTransitions` table of the status route: the statuses a
      status may move to. Delivered and cancelled orders have no entry. */
  function Successors(s: OrderStatus): seq<OrderStatus>
  {
    match s
    case Pending => [Confirmed, Cancelled]
    case Confirmed => [Preparing]
    case Preparing => [Ready]
    case Ready => [PickedUp]
    case PickedUp => [Delivered, Cancelled]
    case Delivered => []
    case Cancelled => []
  }

  /** `validTransitions[order.status]?.includes(requested)`. */
  predicate CanTransition(from: OrderStatus, requested: string)
  {
    exists k :: 0 <= k < |Successors(from)| && StatusName(Successors(from)[k]) == requested
  }

  /** The transition table, edge by edge: exactly five statuses have moves,
      and cancelling is possible only before confirmation or after pickup. */
  lemma TransitionTable(from: OrderStatus, to: OrderStatus)
    ensures CanTransition(from, StatusName(to)) <==>
              || (from == Pending && (to == Confirmed || to == Cancelled))
              || (from == Confirmed && to == Preparing)
              || (from == Preparing && to == Ready)
              || (from == Ready && to == PickedUp)
              || (from == PickedUp && (to == Delivered || to == Cancelled))
  {
    if CanTransition(from, StatusName(to)) {
      var k :| 0 <= k < |Successors(from)| && StatusName(Successors(from)[k]) == StatusName(to);
      ParseStatusName(to);
      ParseStatusName(Successors(from)[k]);
    }
    if from == Pending && to == Cancelled {
      assert StatusName(Successors(from)[1]) == StatusName(to);
    }
    if from == PickedUp && to == Cancelled {
      assert StatusName(Successors(from)[1]) == StatusName(to);
    }
    if || (from == Pending && to == Confirmed) || (from == Confirmed && to == Preparing)
       || (from == Preparing && to == Ready) || (from == Ready && to == PickedUp)
       || (from == PickedUp && to == Delivered) {
      assert StatusName(Successors(from)[0]) == StatusName(to);
    }
  }

  /** A requested string that passes the table names a status. */
  lemma TransitionNamesStatus(from: OrderStatus, requested: string)
    requires CanTransition(from, requested)
    ensures ParseStatus(requested).Some?
    ensures CanTransition(from, StatusName(ParseStatus(requested).value))
  {
    var k :| 0 <= k < |Successors(from)| && StatusName(Successors(from)[k]) == requested;
    ParseStatusName(Successors(from)[k]);
  }

  /** A delivered or cancelled order accepts no further status. */
  lemma FinalStatuses(requested: string)
    ensures !CanTransition(Delivered, requested)
    ensures !CanTransition(Cancelled, requested)
  {
  }

  /** Position of a status along the delivery path; cancelled comes last. */
  function Rank(s: OrderStatus): nat
  {
    match s
    case Pending => 0
    case Confirmed => 1
    case Preparing => 2
    case Ready => 3
    case PickedUp => 4
    case Delivered => 5
    case Cancelled => 6
  }

  /** Every allowed move goes strictly forward. */
  lemma TransitionAdvances(from: OrderStatus, to: OrderStatus)
    requires CanTransition(from, StatusName(to))
    ensures Rank(from) < Rank(to)
  {
    TransitionTable(from, to);
  }

  /** A history of statuses, each reached from the previous by an allowed move. */
  predicate IsHistory(h: seq<OrderStatus>)
  {
    forall i :: 0 < i < |h| ==> CanTransition(h[i - 1], StatusName(h[i]))
  }

  /** Along a history the rank grows by at least one per move. */
  lemma {:induction false} HistoryRanks(h: seq<OrderStatus>)
    requires IsHistory(h) && h != []
    ensures Rank(h[|h| - 1]) >= Rank(h[0]) + |h| - 1
  {
    if |h| > 1 {
      var h' := h[..|h| - 1];
      assert IsHistory(h') by {
        forall i | 0 < i < |h'| ensures CanTransition(h'[i - 1], StatusName(h'[i])) {
          assert h'[i - 1] == h[i - 1] && h'[i] == h[i];
        }
      }
      HistoryRanks(h');
      TransitionAdvances(h[|h| - 2], h[|h| - 1]);
    }
  }

  /** No order ever returns to a status: a history holds at most seven. */
  lemma HistoryBounded(h: seq<OrderStatus>)
    requires IsHistory(h)
    ensures |h| <= 7
  {
    if h != [] {
      HistoryRanks(h);
    }
  }

  /** `paymentStatus` enum; the default is pending. */
  datatype PaymentStatus = PaymentPending | PaymentCompleted | PaymentFailed | Refunded

  /** `paymentMethod` enum. */
  datatype PaymentMethod = PiNetwork | CreditCard | WalletPayment

  /** The `isIn` check on the requested payment method. */
  function ParsePaymentMethod(name: string): (r: Option<PaymentMethod>)
    ensures r.Some? <==> name in {"pi_network", "credit_card", "wallet"}
  {
    if name == "pi_network" then Some(PiNetwork)
    else if name == "credit_card" then Some(CreditCard)
    else if name == "wallet" then Some(WalletPayment)
    else None
  }

  /** The delivery address as the request sends it; a field the request
      leaves out reads as the empty string. */
  datatype Address = Address(street: string, city: string, state: string, zipCode: string)

  /** The schema's `required` on all four address fields: Mongoose rejects
      a missing field and an empty string alike. */
  predicate Complete(a: Address)
  {
    a.street != [] && a.city != [] && a.state != [] && a.zipCode != []
  }

  /** A dish of the restaurant's menu, as the route reads it. */
  datatype MenuEntry = MenuEntry(id: nat, name: string, price: nat, isAvailable: bool)

  /** The restaurant document the route looks up; its schema does not
      require an owner. */
  datatype Restaurant = Restaurant(id: nat, owner: Option<nat>, menu: seq<MenuEntry>)

  /** One requested line; an absent or non-integer quantity is `None`. */
  datatype ItemRequest = ItemRequest(menuItem: Option<nat>, quantity: Option<int>, specialInstructions: Option<string>)

  /** The body of `POST /orders`. */
  datatype OrderRequest = OrderRequest(
    restaurant: Option<nat>,
    items: seq<ItemRequest>,
    deliveryAddress: Option<Address>,
    paymentMethod: string,
    orderNotes: Option<string>)

  /** One line of an order, with the menu name and price copied in. */
  datatype OrderItem = OrderItem(menuItem: nat, name: string, price: nat, quantity: int, specialInstructions: Option<string>)

  /** An error response: an HTTP status with a message, or the validator's
      list of rejected fields (status 400). */
  datatype ApiError = ApiError(status: nat, message: string) | ValidationErrors(fields: seq<string>)

  predicate ItemOk(it: ItemRequest)
  {
    it.menuItem.Some? && it.quantity.Some? && it.quantity.value >= 1
  }

  predicate MissingMenuItem(it: ItemRequest) { it.menuItem.None? }

  predicate BadQuantity(it: ItemRequest) { !(it.quantity.Some? && it.quantity.value >= 1) }

  /** The indexes of the items that fail a rule: exactly the failing ones,
      each once, in increasing order. */
  function FailingIndexes(items: seq<ItemRequest>, bad: ItemRequest -> bool): (idx: seq<nat>)
    ensures |idx| <= |items|
    ensures forall j :: 0 <= j < |idx| ==> idx[j] < |items| && bad(items[idx[j]])
    ensures forall k :: 0 <= k < |items| && bad(items[k]) ==> k in idx
    ensures forall j, j' :: 0 <= j < j' < |idx| ==> idx[j] < idx[j']
  {
    if items == [] then []
    else
      var init := items[..|items| - 1];
      assert forall k :: 0 <= k < |init| ==> init[k] == items[k];
      FailingIndexes(init, bad) + (if bad(items[|items| - 1]) then [|items| - 1] else [])
  }

  /** The path the validator reports for item `k`'s field. */
  function ItemPath(k: nat, field: string): string
  {
    "items[" + Text.DecimalString(k) + "]." + field
  }

  /** The errors of one wildcard rule `items.*.<field>`: one path
      `items[k].<field>` per failing index, in index order. */
  function IndexedErrors(items: seq<ItemRequest>, field: string, bad: ItemRequest -> bool): (errs: seq<string>)
    ensures |errs| == |FailingIndexes(items, bad)| <= |items|
    ensures forall j :: 0 <= j < |errs| ==> errs[j] == ItemPath(FailingIndexes(items, bad)[j], field)
    ensures errs == [] <==> forall k :: 0 <= k < |items| ==> !bad(items[k])
    ensures |items| > 0 && bad(items[|items| - 1]) ==> errs[|errs| - 1] == ItemPath(|items| - 1, field)
  {
    if items == [] then []
    else
      var init := items[..|items| - 1];
      var last := if bad(items[|items| - 1]) then [ItemPath(|items| - 1, field)] else [];
      var errs := IndexedErrors(init, field, bad) + last;
      assert forall k :: 0 <= k < |init| ==> init[k] == items[k];
      errs
  }

  /** The fields the request validator rejects, in the order the validators
      are declared; a wildcard item rule reports each failing index. */
  function RequestErrors(req: OrderRequest): seq<string>
  {
    (if req.restaurant.None? then ["restaurant"] else [])
    + (if |req.items| == 0 then ["items"] else [])
    + IndexedErrors(req.items, "menuItem", MissingMenuItem)
    + IndexedErrors(req.items, "quantity", BadQuantity)
    + (if req.deliveryAddress.None? then ["deliveryAddress"] else [])
    + (if ParsePaymentMethod(req.paymentMethod).None? then ["paymentMethod"] else [])
  }

  /** A request the validators let through. */
  predicate WellFormed(req: OrderRequest)
  {
    && req.restaurant.Some?
    && |req.items| >= 1
    && (forall k :: 0 <= k < |req.items| ==> ItemOk(req.items[k]))
    && req.deliveryAddress.Some?
    && ParsePaymentMethod(req.paymentMethod).Some?
  }

  /** The validator reports nothing exactly for well-formed requests. */
  lemma RequestErrorsEmpty(req: OrderRequest)
    ensures RequestErrors(req) == [] <==> WellFormed(req)
  {
    var a := IndexedErrors(req.items, "menuItem", MissingMenuItem);
    var b := IndexedErrors(req.items, "quantity", BadQuantity);
    if RequestErrors(req) == [] {
      assert a == [] && b == [];
      forall k | 0 <= k < |req.items| ensures ItemOk(req.items[k]) {
        assert !MissingMenuItem(req.items[k]) && !BadQuantity(req.items[k]);
      }
    }
  }

  /** `restaurant.menu.id(id)`: the menu entry with that id. */
  function FindMenuEntry(menu: seq<MenuEntry>, id: nat): (r: Option<MenuEntry>)
    ensures r.Some? ==> r.value in menu && r.value.id == id
    ensures r.None? ==> forall k :: 0 <= k < |menu| ==> menu[k].id != id
  {
    if menu == [] then None
    else if menu[0].id == id then Some(menu[0])
    else FindMenuEntry(menu[1..], id)
  }

  /** The per-item checks of the pricing loop: an unknown dish and an
      unavailable one are rejected with 400; otherwise the line copies the
      dish's name and price. */
  function LineFor(menu: seq<MenuEntry>, it: ItemRequest): (r: Result<OrderItem, ApiError>)
    requires ItemOk(it)
    ensures r.Success? <==> FindMenuEntry(menu, it.menuItem.value).Some? && FindMenuEntry(menu, it.menuItem.value).value.isAvailable
    ensures r.Success? ==> r.value.menuItem == it.menuItem.value && r.value.quantity == it.quantity.value
    ensures r.Success? ==> exists e :: e in menu && e.id == it.menuItem.value && e.isAvailable
                                       && r.value.name == e.name && r.value.price == e.price
    ensures FindMenuEntry(menu, it.menuItem.value).None? ==> r == Failure(ApiError(400, "Invalid menu item"))
  {
    match FindMenuEntry(menu, it.menuItem.value)
    case None => Failure(ApiError(400, "Invalid menu item"))
    case Some(e) =>
      if !e.isAvailable then Failure(ApiError(400, e.name + " is not available"))
      else Success(OrderItem(it.menuItem.value, e.name, e.price, it.quantity.value, it.specialInstructions))
  }

  function LineAmount(l: OrderItem): int
  {
    l.price * l.quantity
  }

  /** Σ price × quantity over the order's lines. */
  function Subtotal(items: seq<OrderItem>): int
  {
    Sum(items, LineAmount)
  }

  /** A subtotal of lines with non-negative quantities is non-negative and
      no smaller than any of its lines. */
  lemma {:induction false} SubtotalBounds(items: seq<OrderItem>)
    requires forall k :: 0 <= k < |items| ==> items[k].quantity >= 0
    ensures Subtotal(items) >= 0
    ensures forall k :: 0 <= k < |items| ==> LineAmount(items[k]) <= Subtotal(items)
  {
    if items != [] {
      var init := items[..|items| - 1];
      SubtotalBounds(init);
      forall k | 0 <= k < |items| ensures LineAmount(items[k]) <= Subtotal(items) {
        if k < |init| {
          assert items[k] == init[k];
        }
      }
    }
  }

  const DELIVERY_FEE_CENTS: nat := 500

  /** The order document. */
  class Order {
    var user: nat
    var restaurant: nat
    var items: seq<OrderItem>
    var status: OrderStatus
    var subtotal: int
    var deliveryFee: int
    var tax: real
    var total: real
    var paymentStatus: PaymentStatus
    var paymentMethod: PaymentMethod
    var transactionId: Option<string>
    var deliveryAddress: Address
    var driver: Option<nat>
    var estimatedDeliveryTime: Option<int>
    var actualDeliveryTime: Option<int>
    var orderNotes: Option<string>
    var createdAt: int
    var updatedAt: int

    /** The schema's `min: 1` on each line's quantity and its required
        address fields. */
    predicate Valid()
      reads this
    {
      && (forall k :: 0 <= k < |items| ==> items[k].quantity >= 1)
      && Complete(deliveryAddress)
    }

    /** Every field of the document, as one value. */
    function Doc(): OrderDoc
      reads this
    {
      OrderDoc(user, restaurant, items, status, subtotal, deliveryFee, tax, total, paymentStatus,
               paymentMethod, transactionId, deliveryAddress, driver, estimatedDeliveryTime,
               actualDeliveryTime, orderNotes, createdAt, updatedAt)
    }

    /** `new Order({...})`: status and payment status default to pending,
        both timestamps to now, and no driver or delivery time is set. */
    constructor (user: nat, restaurant: nat, items: seq<OrderItem>, subtotal: int, tax: real,
                 deliveryFee: int, total: real, paymentMethod: PaymentMethod, deliveryAddress: Address,
                 orderNotes: Option<string>, now: int)
      ensures Doc() == OrderDoc(user, restaurant, items, Pending, subtotal, deliveryFee, tax, total,
                                PaymentPending, paymentMethod, None, deliveryAddress, None, None, None,
                                orderNotes, now, now)
    {
      this.user := user;
      this.restaurant := restaurant;
      this.items := items;
      this.status := Pending;
      this.subtotal := subtotal;
      this.deliveryFee := deliveryFee;
      this.tax := tax;
      this.total := total;
      this.paymentStatus := PaymentPending;
      this.paymentMethod := paymentMethod;
      this.transactionId := None;
      this.deliveryAddress := deliveryAddress;
      this.driver := None;
      this.estimatedDeliveryTime := None;
      this.actualDeliveryTime := None;
      this.orderNotes := orderNotes;
      this.createdAt := now;
      this.updatedAt := now;
    }

    /** The `duration` virtual: delivery time minus creation time once the
        order is delivered, otherwise null. */
    function Duration(): (d: Option<int>)
      reads this
      ensures d.Some? <==> actualDeliveryTime.Some?
      ensures d.Some? ==> createdAt + d.value == actualDeliveryTime.value
    {
      if actualDeliveryTime.Some? then Some(actualDeliveryTime.value - createdAt) else None
    }

    /** `order.save()`: validation runs before the pre-save hook, so a
        document it rejects is neither stamped nor stored; a valid one has
        `updatedAt` stamped and nothing else changes. */
    method Save(now: int) returns (ok: bool)
      modifies this
      ensures ok == old(Valid())
      ensures Doc() == if ok then old(Doc()).(updatedAt := now) else old(Doc())
    {
      ok := Valid();
      if ok {
        updatedAt := now;
      }
    }
  }

  datatype OrderDoc = OrderDoc(
    user: nat, restaurant: nat, items: seq<OrderItem>, status: OrderStatus, subtotal: int,
    deliveryFee: int, tax: real, total: real, paymentStatus: PaymentStatus, paymentMethod: PaymentMethod,
    transactionId: Option<string>, deliveryAddress: Address, driver: Option<nat>,
    estimatedDeliveryTime: Option<int>, actualDeliveryTime: Option<int>, orderNotes: Option<string>,
    createdAt: int, updatedAt: int)

  /** The route's pricing: a 10% tax on the subtotal and a fixed 5.00 fee. */
  function TaxOf(subtotal: int): real
  {
    subtotal as real / 10.0
  }

  /** `POST /orders`: validation, restaurant lookup, the pricing loop, then
      the save, whose rejection of an incomplete address the route's catch
      turns into 500. `found` is the result of looking up `req.restaurant`. */
  method CreateOrder(req: OrderRequest, found: Option<Restaurant>, caller: nat, now: int)
    returns (r: Result<Order, ApiError>)
    ensures !WellFormed(req) ==> r == Failure(ValidationErrors(RequestErrors(req)))
    ensures WellFormed(req) && found.None? ==> r == Failure(ApiError(404, "Restaurant not found"))
    ensures WellFormed(req) && found.Some? ==>
              (r.Success? <==> (forall k :: 0 <= k < |req.items| ==> LineFor(found.value.menu, req.items[k]).Success?)
                               && Complete(req.deliveryAddress.value))
    ensures WellFormed(req) && found.Some? && !(forall k :: 0 <= k < |req.items| ==> LineFor(found.value.menu, req.items[k]).Success?) ==>
              exists i :: 0 <= i < |req.items|
                          && (forall k :: 0 <= k < i ==> LineFor(found.value.menu, req.items[k]).Success?)
                          && r.Failure? && LineFor(found.value.menu, req.items[i]) == Failure(r.error)
    ensures WellFormed(req) && found.Some? && (forall k :: 0 <= k < |req.items| ==> LineFor(found.value.menu, req.items[k]).Success?)
            && !Complete(req.deliveryAddress.value) ==>
              r == Failure(ApiError(500, "Server error"))
    ensures r.Success? ==> WellFormed(req) && found.Some? && fresh(r.value) && r.value.Valid()
    ensures r.Success? ==>
              && |r.value.items| == |req.items|
              && (forall k :: 0 <= k < |req.items| ==> LineFor(found.value.menu, req.items[k]) == Success(r.value.items[k]))
              && r.value.subtotal == Subtotal(r.value.items)
              && r.value.tax == TaxOf(r.value.subtotal)
              && r.value.deliveryFee == DELIVERY_FEE_CENTS
              && r.value.total == r.value.subtotal as real + r.value.tax + DELIVERY_FEE_CENTS as real
    ensures r.Success? ==>
              && r.value.user == caller && r.value.restaurant == found.value.id
              && r.value.status == Pending && r.value.paymentStatus == PaymentPending
              && Some(r.value.paymentMethod) == ParsePaymentMethod(req.paymentMethod)
              && r.value.deliveryAddress == req.deliveryAddress.value && r.value.orderNotes == req.orderNotes
              && r.value.driver.None? && r.value.actualDeliveryTime.None?
              && r.value.createdAt == now && r.value.updatedAt == now
  {
    if !WellFormed(req) {
      // the validator's report is non-empty exactly then
      RequestErrorsEmpty(req);
      return Failure(ValidationErrors(RequestErrors(req)));
    }
    if found.None? {
      return Failure(ApiError(404, "Restaurant not found"));
    }
    var menu := found.value.menu;
    var subtotal := 0;
    var items: seq<OrderItem> := [];
    var i := 0;
    while i < |req.items|
      invariant 0 <= i <= |req.items|
      invariant |items| == i
      invariant forall k :: 0 <= k < i ==> LineFor(menu, req.items[k]) == Success(items[k])
      invariant forall k :: 0 <= k < i ==> items[k].quantity >= 1
      invariant subtotal == Subtotal(items)
    {
      var it := req.items[i];
      var entry := FindMenuEntry(menu, it.menuItem.value);
      if entry.None? {
        return Failure(ApiError(400, "Invalid menu item"));
      }
      if !entry.value.isAvailable {
        return Failure(ApiError(400, entry.value.name + " is not available"));
      }
      var line := OrderItem(it.menuItem.value, entry.value.name, entry.value.price, it.quantity.value, it.specialInstructions);
      subtotal := subtotal + entry.value.price * it.quantity.value;
      SumSnoc(items, line, LineAmount);
      items := items + [line];
      i := i + 1;
    }
    var tax := TaxOf(subtotal);
    var total := subtotal as real + tax + DELIVERY_FEE_CENTS as real;
    var order := new Order(caller, found.value.id, items, subtotal, tax, DELIVERY_FEE_CENTS, total,
                           ParsePaymentMethod(req.paymentMethod).value, req.deliveryAddress.value, req.orderNotes, now);
    var saved := order.Save(now);
    if !saved {
      return Failure(ApiError(500, "Server error"));
    }
    r := Success(order);
  }

  /** The status route's checks, in order: restaurant lookup (404), a
      restaurant without an owner makes `owner.toString()` throw (500), the
      caller must own the restaurant or be the assigned driver, where an
      order without a driver admits any caller (403), and the transition
      table (400). */
  function StatusUpdateCheck(status: OrderStatus, driver: Option<nat>, found: Option<Restaurant>,
                             caller: nat, requested: string): Outcome<ApiError>
  {
    if found.None? then Fail(ApiError(404, "Restaurant not found"))
    else if found.value.owner.None? then Fail(ApiError(500, "Server error"))
    else if found.value.owner.value != caller && driver.Some? && driver.value != caller then Fail(ApiError(403, "Not authorized"))
    else if !CanTransition(status, requested) then Fail(ApiError(400, "Invalid status transition"))
    else Pass
  }

  /** Who may move an order on: the restaurant owner, the assigned driver,
      and anybody while no driver is assigned; and only along the table. A
      restaurant without an owner admits nobody. */
  lemma StatusUpdateAllowed(status: OrderStatus, driver: Option<nat>, found: Option<Restaurant>,
                            caller: nat, requested: string)
    ensures StatusUpdateCheck(status, driver, found, caller, requested) == Pass <==>
              && found.Some? && found.value.owner.Some?
              && (found.value.owner == Some(caller) || driver.None? || driver == Some(caller))
              && CanTransition(status, requested)
    ensures found.Some? && found.value.owner.None? ==>
              StatusUpdateCheck(status, driver, found, caller, requested) == Fail(ApiError(500, "Server error"))
    ensures found.Some? && found.value.owner.Some? && driver.None? && CanTransition(status, requested) ==>
              StatusUpdateCheck(status, driver, found, caller, requested) == Pass
    ensures found.Some? && found.value.owner.Some? && !CanTransition(status, requested) ==>
              StatusUpdateCheck(status, driver, found, caller, requested).Fail?
  {
  }

  /** `PUT /orders/:id/status`. `order` is null when no order has the id.
      When the checks pass the status is set, a move to delivered stamps the
      delivery time, and the order is saved; a document the save rejects
      answers 500 and keeps its old `updatedAt`. A failed check changes
      nothing. */
  method UpdateOrderStatus(order: Order?, found: Option<Restaurant>, caller: nat, requested: string, now: int)
    returns (r: Outcome<ApiError>)
    modifies order
    ensures order == null ==> r == Fail(ApiError(404, "Order not found"))
    ensures order != null && StatusUpdateCheck(old(order.status), old(order.driver), found, caller, requested).Fail? ==>
              && r == StatusUpdateCheck(old(order.status), old(order.driver), found, caller, requested)
              && order.Doc() == old(order.Doc())
    ensures order != null && StatusUpdateCheck(old(order.status), old(order.driver), found, caller, requested) == Pass ==>
              && ParseStatus(requested).Some?
              && r == (if old(order.Valid()) then Pass else Fail(ApiError(500, "Server error")))
              && order.Doc() == old(order.Doc()).(
                   status := ParseStatus(requested).value,
                   actualDeliveryTime := if requested == "delivered" then Some(now) else old(order.actualDeliveryTime),
                   updatedAt := if r.Pass? then now else old(order.updatedAt))
  {
    if order == null {
      return Fail(ApiError(404, "Order not found"));
    }
    r := StatusUpdateCheck(order.status, order.driver, found, caller, requested);
    if r.Fail? {
      return;
    }
    TransitionNamesStatus(order.status, requested);
    order.status := ParseStatus(requested).value;
    if requested == "delivered" {
      order.actualDeliveryTime := Some(now);
    }
    var saved := order.Save(now);
    if !saved {
      r := Fail(ApiError(500, "Server error"));
    }
  }

  /** The driver-assignment checks: only a ready order without a driver. */
  function AssignCheck(status: OrderStatus, driver: Option<nat>): (r: Outcome<ApiError>)
    ensures r == Pass <==> status == Ready && driver.None?
  {
    if status != Ready then Fail(ApiError(400, "Order is not ready for pickup"))
    else if driver.Some? then Fail(ApiError(400, "Order already has a driver assigned"))
    else Pass
  }

  /** A driver, once assigned, is never replaced: assignment fails for any
      order that already has one, whatever its status. */
  lemma DriverNeverReplaced(status: OrderStatus, driver: nat)
    ensures AssignCheck(status, Some(driver)).Fail?
    ensures status == Ready ==> AssignCheck(status, Some(driver)) == Fail(ApiError(400, "Order already has a driver assigned"))
  {
  }

  /** `PUT /orders/:id/assign-driver`: the caller becomes the driver, and
      the order is saved; a document the save rejects answers 500. */
  method AssignDriver(order: Order?, caller: nat, now: int) returns (r: Outcome<ApiError>)
    modifies order
    ensures order == null ==> r == Fail(ApiError(404, "Order not found"))
    ensures order != null && AssignCheck(old(order.status), old(order.driver)).Fail? ==>
              r == AssignCheck(old(order.status), old(order.driver)) && order.Doc() == old(order.Doc())
    ensures order != null && AssignCheck(old(order.status), old(order.driver)) == Pass ==>
              && r == (if old(order.Valid()) then Pass else Fail(ApiError(500, "Server error")))
              && order.Doc() == old(order.Doc()).(driver := Some(caller),
                                                   updatedAt := if r.Pass? then now else old(order.updatedAt))
  {
    if order == null {
      return Fail(ApiError(404, "Order not found"));
    }
    r := AssignCheck(order.status, order.driver);
    if r.Fail? {
      return;
    }
    order.driver := Some(caller);
    var saved := order.Save(now);
    if !saved {
      r := Fail(ApiError(500, "Server error"));
    }
  }
}

=== FILE: pcm_service.dfy ===
/** services/pcmService.js: trustlines, transfers, balance and status of the
    PCM token issued on the Pi ledger. */
module PcmService {
  import opened Wrappers
  import opened Collections
  import opened Ledger

  /** `createTrustline`: an account that already trusts PCM from the
      configured issuer submits nothing and yields None; otherwise one
      changeTrust transaction is signed with the distributor key and
      submitted, and its hash returned. */
  function CreateTrustline(net: Network, cfg: LedgerConfig, destination: string): (c: Call<Option<string>>)
    ensures |c.submitted| <= 1
    ensures (destination in net.accounts && HasPcmTrustline(net.accounts[destination].balances, cfg.pcmIssuer))
              ==> c == Call([], Success(None))
    ensures c.submitted != [] <==>
              destination in net.accounts && net.baseFee.Some?
              && !HasPcmTrustline(net.accounts[destination].balances, cfg.pcmIssuer)
    ensures c.submitted != [] ==>
              c.submitted == [TrustlineTx(destination, cfg.pcmIssuer, net.baseFee.value, cfg.pcmDistributorSecret)]
              && (c.result.Success? <==> net.submit(c.submitted[0]).Accepted?)
    ensures c.result.Success? && c.result.value.Some? ==>
              c.submitted != [] && c.result.value.value == net.submit(c.submitted[0]).hash
    ensures c.result.Failure? ==> c.result.error == "Failed to create PCM trustline"
  {
    if destination !in net.accounts then Call([], Failure("Failed to create PCM trustline"))
    else if HasPcmTrustline(net.accounts[destination].balances, cfg.pcmIssuer) then Call([], Success(None))
    else if net.baseFee.None? then Call([], Failure("Failed to create PCM trustline"))
    else
      var tx := TrustlineTx(destination, cfg.pcmIssuer, net.baseFee.value, cfg.pcmDistributorSecret);
      match net.submit(tx)
      case Accepted(h) => Call([tx], Success(Some(h)))
      case Rejected => Call([tx], Failure("Failed to create PCM trustline"))
  }

  /** The payment transaction of `sendPCM`. */
  function PcmPaymentTx(cfg: LedgerConfig, destination: string, amount: real, fee: nat): LedgerTx
  {
    LedgerTx(cfg.pcmDistributorAddress, fee, [Payment(destination, PcmAsset(cfg), amount)], None, cfg.pcmDistributorSecret)
  }

  /** `sendPCM`: ensures the trustline first, then pays `amount` PCM from the
      distributor. The payment is the last transaction submitted, and it is
      submitted only once the trustline step has succeeded; it succeeds
      exactly when the trustline step succeeds, the distributor account
      loads, the base fee is known and the payment is accepted. */
  function SendPcm(net: Network, cfg: LedgerConfig, destination: string, amount: real): (c: Call<string>)
    ensures var t := CreateTrustline(net, cfg, destination);
            && |t.submitted| <= |c.submitted| <= |t.submitted| + 1
            && c.submitted[..|t.submitted|] == t.submitted
            && (t.result.Failure? ==> c.submitted == t.submitted)
    ensures var t := CreateTrustline(net, cfg, destination);
            t.result.Success? && cfg.pcmDistributorAddress in net.accounts && net.baseFee.Some? ==>
              c.submitted == t.submitted + [PcmPaymentTx(cfg, destination, amount, net.baseFee.value)]
    ensures c.result.Success? <==>
              && CreateTrustline(net, cfg, destination).result.Success?
              && cfg.pcmDistributorAddress in net.accounts && net.baseFee.Some?
              && net.submit(PcmPaymentTx(cfg, destination, amount, net.baseFee.value)).Accepted?
    ensures c.result.Success? ==>
              c.result.value == net.submit(PcmPaymentTx(cfg, destination, amount, net.baseFee.value)).hash
    ensures c.result.Failure? ==> c.result.error == "Failed to send PCM"
  {
    var t := CreateTrustline(net, cfg, destination);
    if t.result.Failure? then Call(t.submitted, Failure("Failed to send PCM"))
    else if cfg.pcmDistributorAddress !in net.accounts || net.baseFee.None? then Call(t.submitted, Failure("Failed to send PCM"))
    else
      var tx := PcmPaymentTx(cfg, destination, amount, net.baseFee.value);
      match net.submit(tx)
      case Accepted(h) => Call(t.submitted + [tx], Success(h))
      case Rejected => Call(t.submitted + [tx], Failure("Failed to send PCM"))
  }

  /** `getPCMBalance`: the loop overwrites the balance on every PCM entry
      from the configured issuer, starting from '0'. */
  method GetPcmBalance(net: Network, cfg: LedgerConfig, publicKey: string) returns (r: Result<string, string>)
    ensures publicKey !in net.accounts ==> r == Failure("Failed to get PCM balance")
    ensures publicKey in net.accounts ==>
              r == Success(LastMatch(net.accounts[publicKey].balances, PcmLine(cfg.pcmIssuer)).GetOr("0"))
  {
    if publicKey !in net.accounts {
      return Failure("Failed to get PCM balance");
    }
    var balances := net.accounts[publicKey].balances;
    var pcmBalance := "0";
    var i := 0;
    while i < |balances|
      invariant 0 <= i <= |balances|
      invariant pcmBalance == LastMatch(balances[..i], PcmLine(cfg.pcmIssuer)).GetOr("0")
    {
      assert balances[..i + 1][..i] == balances[..i];
      if IsPcmLine(balances[i], cfg.pcmIssuer) {
        pcmBalance := balances[i].balance;
      }
      i := i + 1;
    }
    assert balances[..i] == balances;
    r := Success(pcmBalance);
  }

  /** `isAccountFrozen`: false without a PCM trustline, otherwise the frozen
      flag of the first matching entry. */
  function IsAccountFrozen(net: Network, cfg: LedgerConfig, publicKey: string): (r: Result<bool, string>)
    ensures publicKey !in net.accounts ==> r == Failure("Failed to check account status")
    ensures publicKey in net.accounts ==> r.Success?
    ensures (publicKey in net.accounts && !HasPcmTrustline(net.accounts[publicKey].balances, cfg.pcmIssuer))
              ==> r == Success(false)
    ensures publicKey in net.accounts ==>
              var b := net.accounts[publicKey].balances;
              forall i :: (0 <= i < |b| && IsPcmLine(b[i], cfg.pcmIssuer)
                           && forall j :: 0 <= j < i ==> !IsPcmLine(b[j], cfg.pcmIssuer))
                ==> r == Success(b[i].isFrozen)
  {
    if publicKey !in net.accounts then Failure("Failed to check account status")
    else
      var b := net.accounts[publicKey].balances;
      match FirstMatch(b, PcmLine(cfg.pcmIssuer))
      case None => Success(false)
      case Some(i) => Success(b[i].isFrozen)
  }

  /** One entry of `getPCMTransactions`' result. */
  datatype PcmTransfer = PcmTransfer(
    id: string, createdAt: string, opType: string,
    amount: Option<string>, from: Option<string>, to: Option<string>)

  predicate IsPcmOp(op: HistoryOp, issuer: string)
  {
    op.assetCode == Some("PCM") && op.assetIssuer == Some(issuer)
  }

  function PcmOp(issuer: string): HistoryOp -> bool { op => IsPcmOp(op, issuer) }

  function TransferOf(tx: HistoryTx, op: HistoryOp): PcmTransfer
  {
    PcmTransfer(tx.id, tx.createdAt, op.opType, op.amount, op.from, op.to)
  }

  /** The transfers contributed by the operations `ops` of transaction `tx`:
      one per PCM operation from the issuer, in operation order. */
  function TransfersIn(tx: HistoryTx, ops: seq<HistoryOp>, issuer: string): (r: seq<PcmTransfer>)
    ensures |r| == Count(ops, PcmOp(issuer))
    ensures forall k :: 0 <= k < |r| ==> r[k] == TransferOf(tx, Filter(ops, PcmOp(issuer))[k])
  {
    if ops == [] then []
    else
      var init, last := ops[..|ops| - 1], ops[|ops| - 1];
      assert ops == init + [last];
      FilterSnoc(init, last, PcmOp(issuer));
      TransfersIn(tx, init, issuer) + if IsPcmOp(last, issuer) then [TransferOf(tx, last)] else []
  }

  /** The transfers of a list of transactions, transaction by transaction and
      operation by operation. */
  function PcmTransfers(txs: seq<HistoryTx>, issuer: string): (r: seq<PcmTransfer>)
    ensures forall k :: 0 <= k < |r| ==> exists i :: 0 <= i < |txs| && r[k].id == txs[i].id
  {
    if txs == [] then []
    else
      var last := txs[|txs| - 1];
      var before := PcmTransfers(txs[..|txs| - 1], issuer);
      var here := TransfersIn(last, last.operations, issuer);
      before + here
  }

  /** One transaction contributes its own PCM operations. */
  lemma PcmTransfersSingle(tx: HistoryTx, issuer: string)
    ensures PcmTransfers([tx], issuer) == TransfersIn(tx, tx.operations, issuer)
  {
    assert [tx][..0] == [];
  }

  /** The transfers of two runs of history follow one another: the result is
      in transaction order, and within a transaction in operation order. */
  lemma {:induction false} PcmTransfersAppend(a: seq<HistoryTx>, b: seq<HistoryTx>, issuer: string)
    ensures PcmTransfers(a + b, issuer) == PcmTransfers(a, issuer) + PcmTransfers(b, issuer)
    decreases |b|
  {
    if b == [] {
      assert a + b == a;
    } else {
      var b', last := b[..|b| - 1], b[|b| - 1];
      var here := TransfersIn(last, last.operations, issuer);
      assert (a + b)[..|a + b| - 1] == a + b';
      assert (a + b)[|a + b| - 1] == last;
      assert PcmTransfers(a + b, issuer) == PcmTransfers(a + b', issuer) + here;
      assert PcmTransfers(b, issuer) == PcmTransfers(b', issuer) + here;
      PcmTransfersAppend(a, b', issuer);
    }
  }

  /** `t` is the transfer of some PCM operation from the issuer in the history. */
  predicate FromHistory(t: PcmTransfer, txs: seq<HistoryTx>, issuer: string)
  {
    exists i, j :: 0 <= i < |txs| && 0 <= j < |txs[i].operations| && IsPcmOp(txs[i].operations[j], issuer)
      && t == TransferOf(txs[i], txs[i].operations[j])
  }

  /** A transfer is listed exactly for the PCM operations from the issuer in
      the history. */
  lemma PcmTransfersContents(txs: seq<HistoryTx>, issuer: string, t: PcmTransfer)
    ensures t in PcmTransfers(txs, issuer) <==> FromHistory(t, txs, issuer)
  {
    if t in PcmTransfers(txs, issuer) {
      PcmTransfersSound(txs, issuer, t);
    }
    if FromHistory(t, txs, issuer) {
      var i, j :| 0 <= i < |txs| && 0 <= j < |txs[i].operations| && IsPcmOp(txs[i].operations[j], issuer)
                  && t == TransferOf(txs[i], txs[i].operations[j]);
      PcmTransfersComplete(txs, issuer, i, j);
    }
  }

  /** Every PCM operation of one transaction gives a transfer. */
  lemma TransfersInComplete(tx: HistoryTx, issuer: string, j: nat)
    requires j < |tx.operations| && IsPcmOp(tx.operations[j], issuer)
    ensures TransferOf(tx, tx.operations[j]) in TransfersIn(tx, tx.operations, issuer)
  {
    var f := Filter(tx.operations, PcmOp(issuer));
    assert PcmOp(issuer)(tx.operations[j]);
    assert tx.operations[j] in f;
    var k :| 0 <= k < |f| && f[k] == tx.operations[j];
    assert TransfersIn(tx, tx.operations, issuer)[k] == TransferOf(tx, f[k]);
  }

  /** Every transfer of one transaction comes from one of its PCM operations. */
  lemma TransfersInSound(tx: HistoryTx, issuer: string, t: PcmTransfer)
    requires t in TransfersIn(tx, tx.operations, issuer)
    ensures exists j :: 0 <= j < |tx.operations| && IsPcmOp(tx.operations[j], issuer) && t == TransferOf(tx, tx.operations[j])
  {
    var r := TransfersIn(tx, tx.operations, issuer);
    var f := Filter(tx.operations, PcmOp(issuer));
    var k :| 0 <= k < |r| && r[k] == t;
    assert f[k] in tx.operations && PcmOp(issuer)(f[k]);
    var j :| 0 <= j < |tx.operations| && tx.operations[j] == f[k];
    assert IsPcmOp(tx.operations[j], issuer) && t == TransferOf(tx, tx.operations[j]);
  }

  lemma {:induction false} PcmTransfersComplete(txs: seq<HistoryTx>, issuer: string, i: nat, j: nat)
    requires i < |txs| && j < |txs[i].operations| && IsPcmOp(txs[i].operations[j], issuer)
    ensures TransferOf(txs[i], txs[i].operations[j]) in PcmTransfers(txs, issuer)
  {
    var init, last := txs[..|txs| - 1], txs[|txs| - 1];
    assert PcmTransfers(txs, issuer) == PcmTransfers(init, issuer) + TransfersIn(last, last.operations, issuer);
    if i < |init| {
      assert init[i] == txs[i];
      PcmTransfersComplete(init, issuer, i, j);
    } else {
      TransfersInComplete(last, issuer, j);
    }
  }

  lemma {:induction false} PcmTransfersSound(txs: seq<HistoryTx>, issuer: string, t: PcmTransfer)
    requires t in PcmTransfers(txs, issuer)
    ensures FromHistory(t, txs, issuer)
  {
    var init, last := txs[..|txs| - 1], txs[|txs| - 1];
    var before, here := PcmTransfers(init, issuer), TransfersIn(last, last.operations, issuer);
    assert PcmTransfers(txs, issuer) == before + here;
    if t in before {
      PcmTransfersSound(init, issuer, t);
      var i, j :| 0 <= i < |init| && 0 <= j < |init[i].operations| && IsPcmOp(init[i].operations[j], issuer)
                  && t == TransferOf(init[i], init[i].operations[j]);
      assert init[i] == txs[i];
    } else {
      TransfersInSound(last, issuer, t);
      var j :| 0 <= j < |last.operations| && IsPcmOp(last.operations[j], issuer) && t == TransferOf(last, last.operations[j]);
      assert txs[|txs| - 1] == last;
    }
  }

  /** The page of history `getPCMTransactions` reads: the first 50. */
  const PCM_HISTORY_LIMIT: nat := 50

  /** `getPCMTransactions`: the nested loop keeps only PCM operations from
      the configured issuer, in transaction order and then operation order. */
  method GetPcmTransactions(net: Network, cfg: LedgerConfig, publicKey: string) returns (r: Result<seq<PcmTransfer>, string>)
    ensures publicKey !in net.history ==> r == Failure("Failed to get PCM transactions")
    ensures publicKey in net.history ==>
              r == Success(PcmTransfers(Take(net.history[publicKey], PCM_HISTORY_LIMIT), cfg.pcmIssuer))
  {
    if publicKey !in net.history {
      return Failure("Failed to get PCM transactions");
    }
    var txs := Take(net.history[publicKey], PCM_HISTORY_LIMIT);
    var out: seq<PcmTransfer> := [];
    var i := 0;
    while i < |txs|
      invariant 0 <= i <= |txs|
      invariant out == PcmTransfers(txs[..i], cfg.pcmIssuer)
    {
      var found := CollectTransfers(txs[i], cfg.pcmIssuer);
      assert txs[..i + 1][..i] == txs[..i];
      assert PcmTransfers(txs[..i + 1], cfg.pcmIssuer) == out + found;
      out := out + found;
      i := i + 1;
    }
    assert txs[..i] == txs;
    r := Success(out);
  }

  /** The inner loop of `getPCMTransactions`: the PCM operations of one
      transaction, in operation order. */
  method CollectTransfers(tx: HistoryTx, issuer: string) returns (found: seq<PcmTransfer>)
    ensures found == TransfersIn(tx, tx.operations, issuer)
  {
    var ops := tx.operations;
    found := [];
    var j := 0;
    while j < |ops|
      invariant 0 <= j <= |ops|
      invariant found == TransfersIn(tx, ops[..j], issuer)
    {
      TransfersInStep(tx, ops, j, issuer);
      if IsPcmOp(ops[j], issuer) {
        found := found + [TransferOf(tx, ops[j])];
      }
      j := j + 1;
    }
    assert ops[..j] == ops;
  }

  /** One more operation adds its transfer when it is a PCM operation from
      the issuer, and nothing otherwise. */
  lemma TransfersInStep(tx: HistoryTx, ops: seq<HistoryOp>, j: nat, issuer: string)
    requires j < |ops|
    ensures TransfersIn(tx, ops[..j + 1], issuer)
            == TransfersIn(tx, ops[..j], issuer) + if IsPcmOp(ops[j], issuer) then [TransferOf(tx, ops[j])] else []
  {
    assert ops[..j + 1][..j] == ops[..j];
  }

  /** `getPCMInfo`'s result. */
  datatype PcmInfo = PcmInfo(code: string, issuer: string, totalSupply: string, domain: Option<string>, flags: Option<AssetFlags>)

  predicate IsPcmCode(e: BalanceEntry) { e.IssuedBalance? && e.code == "PCM" }

  /** `getPCMInfo`: the first PCM entry of the issuer account (whatever its
      issuer) gives the supply and flags; without one, supply '0' and no
      flags. Reading the flags of an entry that has none fails. Every
      failure reads 'Failed to get PCM info'. */
  function GetPcmInfo(net: Network, cfg: LedgerConfig): (r: Result<PcmInfo, string>)
    ensures cfg.pcmIssuer !in net.accounts ==> r == Failure("Failed to get PCM info")
    ensures r.Success? ==>
              r.value.code == "PCM" && r.value.issuer == cfg.pcmIssuer
              && r.value.domain == net.accounts[cfg.pcmIssuer].homeDomain
    ensures (cfg.pcmIssuer in net.accounts
              && (forall i :: 0 <= i < |net.accounts[cfg.pcmIssuer].balances| ==> !IsPcmCode(net.accounts[cfg.pcmIssuer].balances[i])))
              ==> r.Success? && r.value.totalSupply == "0" && r.value.flags.None?
    ensures cfg.pcmIssuer in net.accounts ==>
              var acct := net.accounts[cfg.pcmIssuer];
              forall i :: (0 <= i < |acct.balances| && IsPcmCode(acct.balances[i])
                           && forall j :: 0 <= j < i ==> !IsPcmCode(acct.balances[j]))
                ==> if acct.balances[i].flags.None? then r == Failure("Failed to get PCM info")
                  else r == Success(PcmInfo("PCM", cfg.pcmIssuer, acct.balances[i].balance, acct.homeDomain, acct.balances[i].flags))
    ensures r.Failure? ==> r.error == "Failed to get PCM info"
  {
    if cfg.pcmIssuer !in net.accounts then Failure("Failed to get PCM info")
    else
      var acct := net.accounts[cfg.pcmIssuer];
      match FirstMatch(acct.balances, IsPcmCode)
      case None => Success(PcmInfo("PCM", cfg.pcmIssuer, "0", acct.homeDomain, None))
      case Some(i) =>
        if acct.balances[i].flags.None? then Failure("Failed to get PCM info")
        else Success(PcmInfo("PCM", cfg.pcmIssuer, acct.balances[i].balance, acct.homeDomain, acct.balances[i].flags))
  }
}

=== FILE: plain_restaurant.dfy ===
/** The restaurant page of the static client (js/restaurant.js): a cart
    that is a plain list of dishes (adding the same dish twice lists it
    twice), its count and total, and the category view of the menu and of a
    search. The page's globals are the fields of one object; fetching,
    rendering, the debounce timer and `localStorage` are left out. */
module StaticRestaurantPage {
  import opened Collections
  import opened Menu

  function DishPrice(d: Dish): int { d.price }

  /** The cart total: Σ price. */
  function Total(cart: seq<Dish>): int
  {
    Sum(cart, DishPrice)
  }

  /** Adding a dish lists it once more, raising the count by one and the
      total by its price. */
  lemma AppendCountTotal(cart: seq<Dish>, item: Dish)
    ensures |cart + [item]| == |cart| + 1 && (cart + [item])[|cart|] == item
    ensures Total(cart + [item]) == Total(cart) + item.price
  {
    SumSnoc(cart, item, DishPrice);
  }

  /** `splice(index, 1)` on the cart: an index naming an entry removes
      exactly that entry's price from the total; an index past the end
      leaves the cart as it was, and one before the start removes the first
      entry. */
  lemma SpliceCountTotal(cart: seq<Dish>, index: int)
    ensures 0 <= index < |cart| ==>
              |Splice1(cart, index)| == |cart| - 1 && Total(Splice1(cart, index)) == Total(cart) - cart[index].price
    ensures index >= |cart| ==> Splice1(cart, index) == cart
    ensures index < -|cart| && cart != [] ==> Splice1(cart, index) == cart[1..]
  {
    if 0 <= index < |cart| {
      SumRemoveAt(cart, index, DishPrice);
    }
  }

  /** The remove button of the entry just added (index `cart.length - 1`,
      or -1 counting from the end) gives back the cart as it was. */
  lemma AddThenRemoveLast(cart: seq<Dish>, item: Dish)
    ensures Splice1(cart + [item], |cart|) == cart
    ensures Splice1(cart + [item], -1) == cart
  {
    assert RemoveAt(cart + [item], |cart|) == cart;
  }

  /** The page's state. */
  class RestaurantPage {
    var cart: seq<Dish>
    var menuItems: seq<Dish>
    /** The count and total `updateCartUI` last wrote into the page. */
    var countShown: int
    var totalShown: int

    /** The page shows the current cart. */
    predicate Shows()
      reads this
    {
      countShown == |cart| && totalShown == Total(cart)
    }

    /** The cart read from storage, shown once the page has loaded. */
    constructor (saved: seq<Dish>)
      ensures cart == saved && menuItems == [] && Shows()
    {
      cart := saved;
      menuItems := [];
      countShown := |saved|;
      totalShown := Total(saved);
    }

    /** `updateCartUI`: the count is the number of entries, the total the
        `reduce` over their prices. */
    method UpdateCartUI()
      modifies this
      ensures cart == old(cart) && menuItems == old(menuItems)
      ensures Shows()
    {
      countShown := |cart|;
      totalShown := Total(cart);
    }

    /** `addToCart(item)`: the dish is pushed, whether or not it is already
        in the cart. */
    method AddToCart(item: Dish)
      modifies this
      ensures cart == old(cart) + [item]
      ensures menuItems == old(menuItems) && Shows()
    {
      cart := cart + [item];
      UpdateCartUI();
    }

    /** `removeFromCart(index)`: JavaScript's `splice` on whatever index it
        is given. */
    method RemoveFromCart(index: int)
      modifies this
      ensures cart == Splice1(old(cart), index)
      ensures menuItems == old(menuItems) && Shows()
    {
      cart := Splice1(cart, index);
      UpdateCartUI();
    }

    /** `loadMenuItems`: the fetched menu replaces the page's list. */
    method LoadMenuItems(items: seq<Dish>)
      modifies this
      ensures menuItems == items && cart == old(cart)
      ensures countShown == old(countShown) && totalShown == old(totalShown)
    {
      menuItems := items;
    }

    /** The categories `loadMenuItems` renders: one bucket per category
        present, holding that category's dishes in menu order. */
    function MenuView(): (view: map<string, seq<Dish>>)
      reads this
      ensures forall c :: c in view <==> exists i :: 0 <= i < |menuItems| && menuItems[i].category == c
      ensures forall c :: c in view ==> view[c] == Filter(menuItems, InCategory(c))
    {
      GroupByCategoryBuckets(menuItems);
      GroupByCategory(menuItems)
    }

    /** The categories `handleSearch` renders: the matching dishes, grouped
        the same way. */
    function SearchView(query: string): (view: map<string, seq<Dish>>)
      reads this
      ensures forall c :: c in view <==> exists i :: 0 <= i < |Search(menuItems, query)| && Search(menuItems, query)[i].category == c
      ensures forall c :: c in view ==> view[c] == Filter(Search(menuItems, query), InCategory(c))
      ensures forall c :: c in view ==> forall d :: d in view[c] ==> d in menuItems && Matches(query)(d)
    {
      var found := Search(menuItems, query);
      GroupByCategoryBuckets(found);
      GroupByCategory(found)
    }
  }
}

=== FILE: public_app.dfy ===
/** The home page of the public client (public/js/app.js): the cart, its
    badge (the sum of quantities) and total, the Pi payment of the cart, and
    the search box over the built-in sample dishes. The page's globals are
    the fields of one object; the Pi SDK's payment call is a function
    parameter; rendering, toasts, timers and `localStorage` are left out. */
module PublicApp {
  import opened Wrappers
  import opened Collections
  import opened Text
  import opened QuantityCart
  import Menu

  /** The home page's state. */
  class HomePage {
    var cart: seq<Line>
    var isAuthenticated: bool
    /** The numbers `updateCartUI` last wrote into the page. */
    var badge: int
    var totalShown: int

    /** The page shows the current cart. */
    predicate Shows()
      reads this
    {
      badge == Units(cart) && totalShown == Total(cart)
    }

    /** The cart read from storage, shown on load; not yet connected. */
    constructor (saved: seq<Line>)
      ensures cart == saved && !isAuthenticated && Shows()
    {
      cart := saved;
      isAuthenticated := false;
      badge := Units(saved);
      var total := CartTotal(saved);
      totalShown := total;
    }

    /** `updateCartUI`: the badge from the `reduce`, the total from the
        `forEach` loop. */
    method UpdateCartUI()
      modifies this
      ensures cart == old(cart) && isAuthenticated == old(isAuthenticated)
      ensures Shows()
    {
      badge := Units(cart);
      var total := CartTotal(cart);
      totalShown := total;
    }

    /** `addToCart(item)`. */
    method AddToCart(x: Item)
      modifies this
      ensures cart == Added(old(cart), x)
      ensures isAuthenticated == old(isAuthenticated) && Shows()
    {
      var found := FindFirst(cart, HasId(x.id));
      if found.Some? {
        var i := found.value;
        cart := cart[i := cart[i].(quantity := cart[i].quantity + 1)];
      } else {
        cart := cart + [Line(x, 1)];
      }
      UpdateCartUI();
    }

    /** `updateQuantity(index, change)`; the source writes
        `cart[index].quantity` first, so the index must be that of an entry. */
    method UpdateQuantity(index: nat, change: int)
      requires index < |cart|
      modifies this
      ensures cart == QuantityUpdated(old(cart), index, change)
      ensures isAuthenticated == old(isAuthenticated) && Shows()
    {
      var q := cart[index].quantity + change;
      cart := cart[index := cart[index].(quantity := q)];
      if q <= 0 {
        RemoveFromCart(index);
      } else {
        UpdateCartUI();
      }
    }

    /** `removeFromCart(index)`: JavaScript's `splice` on whatever index it
        is given. */
    method RemoveFromCart(index: int)
      modifies this
      ensures cart == Splice1(old(cart), index)
      ensures isAuthenticated == old(isAuthenticated) && Shows()
    {
      cart := Splice1(cart, index);
      UpdateCartUI();
    }

    /** `authenticate`: a second connection attempt does nothing; a truthy
        answer from the SDK connects the page. */
    method Authenticate(answered: bool)
      modifies this
      ensures isAuthenticated == (old(isAuthenticated) || answered)
      ensures cart == old(cart) && badge == old(badge) && totalShown == old(totalShown)
    {
      if isAuthenticated {
        return;
      }
      if answered {
        isAuthenticated := true;
      }
    }

    /** `createPayment`: nothing happens unless the page is connected and
        the cart has entries; the payment asks for the cart total with a memo
        counting the entries; only a "completed" status empties the cart.
        `pay` stands for `Pi.createPayment` and yields the status (anything
        but "completed" when it throws). */
    method CreatePayment(pay: PaymentRequest -> string) returns (request: Option<PaymentRequest>)
      modifies this
      ensures request.Some? <==> old(isAuthenticated) && old(cart) != []
      ensures request.Some? ==>
                request.value == PaymentRequest(Total(old(cart)), "DishDash order - " + DecimalString(|old(cart)|) + " items")
      ensures cart == if request.Some? && pay(request.value) == "completed" then [] else old(cart)
      ensures isAuthenticated == old(isAuthenticated)
      ensures old(Shows()) ==> Shows()
    {
      if !isAuthenticated {
        return None;
      }
      if cart == [] {
        return None;
      }
      var total := CartTotal(cart);
      request := Some(PaymentRequest(total, "DishDash order - " + DecimalString(|cart|) + " items"));
      var status := pay(request.value);
      if status == "completed" {
        cart := [];
        UpdateCartUI();
      }
    }
  }

  /** A search result of the sample data. */
  datatype SampleDish = SampleDish(id: int, name: string, description: string, price: int)

  /** The sample dishes `mockSearchAPI` filters. */
  const SAMPLE_DISHES: seq<SampleDish> := [
    SampleDish(1, "Margherita Pizza", "Fresh tomatoes, mozzarella, basil", 1299),
    SampleDish(2, "Pepperoni Pizza", "Pepperoni, cheese, tomato sauce", 1499),
    SampleDish(3, "Vegetarian Pizza", "Mixed vegetables, cheese", 1399),
    SampleDish(4, "Cheeseburger", "Beef patty, cheese, lettuce, tomato", 999),
    SampleDish(5, "Chicken Wings", "Spicy buffalo wings", 899)
  ]

  /** The input must keep at least two characters once trimmed. */
  const SEARCH_MIN_LENGTH: nat := 2

  function SampleMatches(query: string): SampleDish -> bool
  {
    (d: SampleDish) => Menu.TextMatches(d.name, d.description, query)
  }

  /** The `filter` of `mockSearchAPI` over some data. */
  function SearchSamples(data: seq<SampleDish>, query: string): (r: seq<SampleDish>)
    ensures forall k :: 0 <= k < |r| ==> r[k] in data && Menu.TextMatches(r[k].name, r[k].description, query)
    ensures forall k :: 0 <= k < |data| && Menu.TextMatches(data[k].name, data[k].description, query)
              ==> data[k] in r
  {
    Filter(data, SampleMatches(query))
  }

  /** What the search box shows for an input: nothing (the results hidden)
      when the trimmed input is shorter than two characters, otherwise the
      sample dishes matching the trimmed input, in their order. */
  function SearchResults(input: string): (r: Option<seq<SampleDish>>)
    ensures r.None? <==> |Trim(input)| < SEARCH_MIN_LENGTH
    ensures r.Some? ==> forall k :: 0 <= k < |r.value| ==> r.value[k] in SAMPLE_DISHES
    ensures r.Some? ==> r.value == SearchSamples(SAMPLE_DISHES, Trim(input))
    ensures r.Some? ==> forall x :: x in r.value <==>
              x in SAMPLE_DISHES && Menu.TextMatches(x.name, x.description, Trim(input))
  {
    var query := Trim(input);
    if |query| < SEARCH_MIN_LENGTH then None
    else Some(SearchSamples(SAMPLE_DISHES, query))
  }
}

=== FILE: public_restaurant.dfy ===
/** The restaurant page of the public client (public/js/restaurant.js): a
    quantity-aware cart whose entries may lack a quantity (`quantity || 1`),
    the veg filter and price sort toggles, and the star-rating counts. The
    page's globals are the fields of one object; rendering, toasts and
    `localStorage` are left out. */
module PublicRestaurantPage {
  import opened Wrappers
  import opened Collections
  import opened Sorting
  import opened Menu

  /** A cart entry: the dish spread with a `quantity`, which entries saved
      by another page may lack. */
  datatype Line = Line(dish: Dish, quantity: Option<int>)

  /** `item.quantity || 1`: a missing or zero quantity counts as one. */
  function Qty(l: Line): int
  {
    if l.quantity.None? || l.quantity.value == 0 then 1 else l.quantity.value
  }

  /** The test of `cart.find(i => i.id === id)`. */
  function HasId(id: int): Line -> bool
  {
    (l: Line) => l.dish.id == id
  }

  /** The cart `addToCart(item)` leaves. */
  function Added(cart: seq<Line>, item: Dish): seq<Line>
  {
    match FindFirst(cart, HasId(item.id))
    case Some(i) => cart[i := cart[i].(quantity := Some(Qty(cart[i]) + 1))]
    case None => cart + [Line(item, Some(1))]
  }

  /** The cart `removeFromCart(index)` leaves. */
  function Removed(cart: seq<Line>, index: nat): seq<Line>
    requires index < |cart|
  {
    if cart[index].quantity.Some? && cart[index].quantity.value > 1
    then cart[index := cart[index].(quantity := Some(cart[index].quantity.value - 1))]
    else RemoveAt(cart, index)
  }

  /** The badge: Σ `(quantity || 1)`. */
  function Count(cart: seq<Line>): int
  {
    Sum(cart, Qty)
  }

  function LineTotal(l: Line): int
  {
    l.dish.price * Qty(l)
  }

  /** The cart total: Σ price × `(quantity || 1)`. */
  function Total(cart: seq<Line>): int
  {
    Sum(cart, LineTotal)
  }

  /** Every entry carries a quantity of at least one. */
  predicate Stocked(cart: seq<Line>)
  {
    forall k :: 0 <= k < |cart| ==> cart[k].quantity.Some? && cart[k].quantity.value >= 1
  }

  /** Every entry counts for at least one unit: it lacks a quantity, or its
      quantity is not negative (a zero counts as one through `|| 1`). */
  predicate Counted(cart: seq<Line>)
  {
    forall k :: 0 <= k < |cart| ==> cart[k].quantity.None? || cart[k].quantity.value >= 0
  }

  /** Adding raises the count by one and the total by the price of the
      entry that grew, and keeps every entry counted. */
  lemma AddedCountTotal(cart: seq<Line>, item: Dish)
    requires Counted(cart)
    ensures Counted(Added(cart, item))
    ensures Count(Added(cart, item)) == Count(cart) + 1
    ensures FindFirst(cart, HasId(item.id)).Some? ==>
              Total(Added(cart, item)) == Total(cart) + cart[FindFirst(cart, HasId(item.id)).value].dish.price
    ensures FindFirst(cart, HasId(item.id)).None? ==> Total(Added(cart, item)) == Total(cart) + item.price
  {
    match FindFirst(cart, HasId(item.id))
    case Some(i) =>
      BumpCountTotal(cart, i);
    case None =>
      NewLineCountTotal(cart, item);
  }

  /** A new entry of one unit at the end. */
  lemma NewLineCountTotal(cart: seq<Line>, item: Dish)
    requires Counted(cart)
    ensures var c := cart + [Line(item, Some(1))];
            && Counted(c)
            && Count(c) == Count(cart) + 1
            && Total(c) == Total(cart) + item.price
  {
    var l := Line(item, Some(1));
    SumSnoc(cart, l, Qty);
    SumSnoc(cart, l, LineTotal);
    assert forall k :: 0 <= k < |cart| ==> (cart + [l])[k] == cart[k];
  }

  /** One more unit of the entry at `i`. */
  lemma BumpCountTotal(cart: seq<Line>, i: nat)
    requires Counted(cart) && i < |cart|
    ensures var c := cart[i := cart[i].(quantity := Some(Qty(cart[i]) + 1))];
            && Counted(c)
            && Count(c) == Count(cart) + 1
            && Total(c) == Total(cart) + cart[i].dish.price
  {
    var l := cart[i].(quantity := Some(Qty(cart[i]) + 1));
    SumUpdate(cart, i, l, Qty);
    SumUpdate(cart, i, l, LineTotal);
    OneMorePortion(cart[i].dish.price, Qty(cart[i]));
  }

  /** One more portion costs one more price. */
  lemma OneMorePortion(price: int, q: int)
    ensures price * (q + 1) == price * q + price
  {
  }

  /** Removing lowers the count by one and the total by the entry's price,
      and keeps every entry counted. */
  lemma RemovedCountTotal(cart: seq<Line>, index: nat)
    requires Counted(cart) && index < |cart|
    ensures Counted(Removed(cart, index))
    ensures Count(Removed(cart, index)) == Count(cart) - 1
    ensures Total(Removed(cart, index)) == Total(cart) - cart[index].dish.price
  {
    var l := cart[index];
    if l.quantity.Some? && l.quantity.value > 1 {
      var l' := l.(quantity := Some(l.quantity.value - 1));
      SumUpdate(cart, index, l', Qty);
      SumUpdate(cart, index, l', LineTotal);
      OneMorePortion(l.dish.price, Qty(l'));
    } else {
      SumRemoveAt(cart, index, Qty);
      SumRemoveAt(cart, index, LineTotal);
    }
  }

  /** Adding a dish and then removing the entry it landed in gives back the
      cart, when every entry carries a quantity of at least one. */
  lemma AddThenRemove(cart: seq<Line>, item: Dish)
    requires Stocked(cart)
    ensures FindFirst(Added(cart, item), HasId(item.id)).Some?
    ensures Removed(Added(cart, item), FindFirst(Added(cart, item), HasId(item.id)).value) == cart
  {
    var a := Added(cart, item);
    match FindFirst(cart, HasId(item.id))
    case Some(i) =>
      FindFirstAt(a, HasId(item.id), i);
      assert a[i].quantity.value == cart[i].quantity.value + 1;
      assert Removed(a, i) == a[i := cart[i]];
    case None =>
      FindFirstAt(a, HasId(item.id), |cart|);
      assert RemoveAt(a, |cart|) == cart;
  }

  /** The price sort setting. */
  datatype SortOrder = Default | PriceAsc | PriceDesc

  /** The "Sort by Price" button: default → ascending → descending → default. */
  function NextSort(o: SortOrder): SortOrder
  {
    match o
    case Default => PriceAsc
    case PriceAsc => PriceDesc
    case PriceDesc => Default
  }

  /** Three presses bring the setting back, and every press changes it. */
  lemma SortCycle(o: SortOrder)
    ensures NextSort(NextSort(NextSort(o))) == o
    ensures NextSort(o) != o && NextSort(NextSort(o)) != o
  {
  }

  function IsVeg(d: Dish): bool { d.isVeg }

  function Price(d: Dish): int { d.price }

  function NegPrice(d: Dish): int { -d.price }

  /** The veg filter of `filterAndRenderMenu`. */
  function VegFiltered(items: seq<Dish>, vegOnly: bool): (b: seq<Dish>)
    ensures forall d :: d in b <==> d in items && (vegOnly ==> d.isVeg)
  {
    if vegOnly then Filter(items, IsVeg) else items
  }

  lemma SameMembers(a: seq<Dish>, b: seq<Dish>)
    requires multiset(a) == multiset(b)
    ensures forall d :: d in a <==> d in b
  {
    assert forall d :: d in a <==> d in multiset(a);
    assert forall d :: d in b <==> d in multiset(b);
  }

  /** The dishes `filterAndRenderMenu` shows: the veg filter, then a stable
      sort by price. */
  function Shown(items: seq<Dish>, vegOnly: bool, order: SortOrder): (r: seq<Dish>)
    ensures forall d :: d in r <==> d in items && (vegOnly ==> d.isVeg)
    ensures multiset(r) == multiset(VegFiltered(items, vegOnly))
    ensures order == Default ==> r == VegFiltered(items, vegOnly)
    ensures order == PriceAsc ==> forall i, j :: 0 <= i < j < |r| ==> r[i].price <= r[j].price
    ensures order == PriceDesc ==> forall i, j :: 0 <= i < j < |r| ==> r[i].price >= r[j].price
  {
    var base := VegFiltered(items, vegOnly);
    match order
    case Default => base
    case PriceAsc =>
      PriceAscending(base);
      SortBy(base, Price)
    case PriceDesc =>
      PriceDescending(base);
      SortBy(base, NegPrice)
  }

  /** Sorting by price keeps the dishes and puts the cheapest first. */
  lemma PriceAscending(base: seq<Dish>)
    ensures forall d :: d in SortBy(base, Price) <==> d in base
    ensures forall i, j :: 0 <= i < j < |SortBy(base, Price)| ==> SortBy(base, Price)[i].price <= SortBy(base, Price)[j].price
  {
    var r := SortBy(base, Price);
    SameMembers(r, base);
    assert forall i, j :: 0 <= i < j < |r| ==> Price(r[i]) <= Price(r[j]);
  }

  /** Sorting by the negated price keeps the dishes and puts the dearest first. */
  lemma PriceDescending(base: seq<Dish>)
    ensures forall d :: d in SortBy(base, NegPrice) <==> d in base
    ensures forall i, j :: 0 <= i < j < |SortBy(base, NegPrice)| ==> SortBy(base, NegPrice)[i].price >= SortBy(base, NegPrice)[j].price
  {
    var r := SortBy(base, NegPrice);
    SameMembers(r, base);
    assert forall i, j :: 0 <= i < j < |r| ==> NegPrice(r[i]) <= NegPrice(r[j]);
  }

  /** The star counts of `generateStarRating`. */
  datatype Stars = Stars(full: int, half: bool, empty: int)

  /** `x % 1` in JavaScript: the fraction with the sign of `x`. */
  function JsFrac(x: real): real
  {
    if x >= 0.0 then x - x.Floor as real else x + (-x).Floor as real
  }

  function StarCounts(rating: real): Stars
  {
    var full := rating.Floor;
    var half := JsFrac(rating) >= 0.5;
    Stars(full, half, 5 - full - (if half then 1 else 0))
  }

  /** For a rating in [0, 5] the three counts are non-negative and sum to
      five, and the stars drawn fall short of the rating by less than half a
      star. */
  lemma StarCountsFit(rating: real)
    requires 0.0 <= rating <= 5.0
    ensures var s := StarCounts(rating);
            && s.full >= 0 && s.empty >= 0
            && s.full + (if s.half then 1 else 0) + s.empty == 5
            && s.full as real + (if s.half then 0.5 else 0.0) <= rating
            && rating < s.full as real + (if s.half then 0.5 else 0.0) + 0.5
  {
  }

  /** The page's state. */
  class RestaurantPage {
    var cart: seq<Line>
    var menuItems: seq<Dish>
    var isVegOnly: bool
    var sortOrder: SortOrder

    constructor (saved: seq<Line>, menuItems: seq<Dish>)
      ensures cart == saved && this.menuItems == menuItems && !isVegOnly && sortOrder == Default
    {
      cart := saved;
      this.menuItems := menuItems;
      isVegOnly := false;
      sortOrder := Default;
    }

    /** `addToCart(item)`. */
    method AddToCart(item: Dish)
      modifies this
      ensures cart == Added(old(cart), item)
      ensures menuItems == old(menuItems) && isVegOnly == old(isVegOnly) && sortOrder == old(sortOrder)
    {
      var found := FindFirst(cart, HasId(item.id));
      if found.Some? {
        var i := found.value;
        cart := cart[i := cart[i].(quantity := Some(Qty(cart[i]) + 1))];
      } else {
        cart := cart + [Line(item, Some(1))];
      }
    }

    /** `removeFromCart(index)`; the source reads `cart[index].quantity`
        first, so the index must be that of an entry. */
    method RemoveFromCart(index: nat)
      requires index < |cart|
      modifies this
      ensures cart == Removed(old(cart), index)
      ensures menuItems == old(menuItems) && isVegOnly == old(isVegOnly) && sortOrder == old(sortOrder)
    {
      var l := cart[index];
      if l.quantity.Some? && l.quantity.value > 1 {
        cart := cart[index := l.(quantity := Some(l.quantity.value - 1))];
      } else {
        cart := cart[..index] + cart[index + 1..];
      }
    }

    /** The "Veg Only" button. */
    method ToggleVeg()
      modifies this
      ensures isVegOnly == !old(isVegOnly)
      ensures cart == old(cart) && menuItems == old(menuItems) && sortOrder == old(sortOrder)
    {
      isVegOnly := !isVegOnly;
    }

    /** The "Sort by Price" button. */
    method ToggleSort()
      modifies this
      ensures sortOrder == NextSort(old(sortOrder))
      ensures cart == old(cart) && menuItems == old(menuItems) && isVegOnly == old(isVegOnly)
    {
      sortOrder := match sortOrder
        case Default => PriceAsc
        case PriceAsc => PriceDesc
        case PriceDesc => Default;
    }

    /** The categories `filterAndRenderMenu` renders: each bucket holds the
        shown dishes of its category, in shown order. */
    function MenuView(): (view: map<string, seq<Dish>>)
      reads this
      ensures forall c :: c in view <==> exists i :: 0 <= i < |Shown(menuItems, isVegOnly, sortOrder)| && Shown(menuItems, isVegOnly, sortOrder)[i].category == c
      ensures forall c :: c in view ==> view[c] == Filter(Shown(menuItems, isVegOnly, sortOrder), InCategory(c))
    {
      var shown := Shown(menuItems, isVegOnly, sortOrder);
      GroupByCategoryBuckets(shown);
      GroupByCategory(shown)
    }

    /** The categories `handleSearch` renders: the whole menu is searched,
        ignoring the veg filter and the sort. */
    function SearchView(query: string): (view: map<string, seq<Dish>>)
      reads this
      ensures forall c :: c in view <==> exists i :: 0 <= i < |Search(menuItems, query)| && Search(menuItems, query)[i].category == c
      ensures forall c :: c in view ==> view[c] == Filter(Search(menuItems, query), InCategory(c))
    {
      GroupByCategoryBuckets(Search(menuItems, query));
      GroupByCategory(Search(menuItems, query))
    }
  }
}

=== FILE: quantity_cart.dfy ===
/** The quantity-aware cart that both home-page scripts keep
    (public/js/app.js and js/app.js run the same `addToCart`,
    `updateQuantity` and `removeFromCart` logic on their `cart` array): the
    cart each operation leaves, its unit count and total, and the invariant
    that ids are distinct and quantities positive. Prices are integer cents. */
module QuantityCart {
  import opened Wrappers
  import opened Collections

  /** What the page adds: at least an id, a name and a price. */
  datatype Item = Item(id: int, name: string, price: int)

  /** A cart entry: the item spread with its `quantity`. */
  datatype Line = Line(item: Item, quantity: int)

  /** The test of `cart.find(i => i.id === id)`. */
  function HasId(id: int): Line -> bool
  {
    (l: Line) => l.item.id == id
  }

  /** The cart `addToCart(x)` leaves: the entry with `x`'s id gets one more,
      or `x` is appended with quantity one. */
  function Added(cart: seq<Line>, x: Item): seq<Line>
  {
    match FindFirst(cart, HasId(x.id))
    case Some(i) => cart[i := cart[i].(quantity := cart[i].quantity + 1)]
    case None => cart + [Line(x, 1)]
  }

  /** The cart `updateQuantity(index, change)` leaves: the entry's quantity
      moves by `change`, and the entry goes when it drops to zero or below. */
  function QuantityUpdated(cart: seq<Line>, index: nat, change: int): seq<Line>
    requires index < |cart|
  {
    var q := cart[index].quantity + change;
    if q <= 0 then RemoveAt(cart, index) else cart[index := cart[index].(quantity := q)]
  }

  function Quantity(l: Line): int { l.quantity }

  function LineTotal(l: Line): int { l.item.price * l.quantity }

  /** Σ quantities. */
  function Units(cart: seq<Line>): int
  {
    Sum(cart, Quantity)
  }

  /** Σ price × quantity. */
  function Total(cart: seq<Line>): int
  {
    Sum(cart, LineTotal)
  }

  predicate IdsDistinct(cart: seq<Line>)
  {
    forall i, j :: 0 <= i < j < |cart| ==> cart[i].item.id != cart[j].item.id
  }

  /** Ids are distinct and every quantity is at least one. */
  predicate WellFormed(cart: seq<Line>)
  {
    IdsDistinct(cart) && forall k :: 0 <= k < |cart| ==> cart[k].quantity >= 1
  }

  /** Adding keeps the cart well formed, adds one unit and the price of the
      entry that grew, and leaves exactly one entry with the item's id. */
  lemma AddedKeeps(cart: seq<Line>, x: Item)
    requires WellFormed(cart)
    ensures WellFormed(Added(cart, x))
    ensures Units(Added(cart, x)) == Units(cart) + 1
    ensures FindFirst(cart, HasId(x.id)).Some? ==>
              Total(Added(cart, x)) == Total(cart) + cart[FindFirst(cart, HasId(x.id)).value].item.price
    ensures FindFirst(cart, HasId(x.id)).None? ==> Total(Added(cart, x)) == Total(cart) + x.price
    ensures exists k :: 0 <= k < |Added(cart, x)| && Added(cart, x)[k].item.id == x.id
  {
    match FindFirst(cart, HasId(x.id))
    case Some(i) =>
      var l := cart[i].(quantity := cart[i].quantity + 1);
      SumUpdate(cart, i, l, Quantity);
      SumUpdate(cart, i, l, LineTotal);
      assert LineTotal(l) == LineTotal(cart[i]) + cart[i].item.price;
      assert Added(cart, x)[i].item.id == x.id;
    case None =>
      SumSnoc(cart, Line(x, 1), Quantity);
      SumSnoc(cart, Line(x, 1), LineTotal);
      assert Added(cart, x)[|cart|].item.id == x.id;
  }

  /** Removing an entry keeps the cart well formed and takes away exactly
      that entry's units and cost. */
  lemma RemoveAtKeeps(cart: seq<Line>, index: nat)
    requires WellFormed(cart) && index < |cart|
    ensures WellFormed(RemoveAt(cart, index))
    ensures Units(RemoveAt(cart, index)) == Units(cart) - cart[index].quantity
    ensures Total(RemoveAt(cart, index)) == Total(cart) - LineTotal(cart[index])
  {
    var r := RemoveAt(cart, index);
    forall a, b | 0 <= a < b < |r| ensures r[a].item.id != r[b].item.id {
      var a' := if a < index then a else a + 1;
      var b' := if b < index then b else b + 1;
      assert r[a] == cart[a'] && r[b] == cart[b'];
    }
    SumRemoveAt(cart, index, Quantity);
    SumRemoveAt(cart, index, LineTotal);
  }

  /** Changing a quantity keeps the cart well formed; the units move by
      `change` while the entry stays, and lose the entry's units when it goes. */
  lemma QuantityUpdatedKeeps(cart: seq<Line>, index: nat, change: int)
    requires WellFormed(cart) && index < |cart|
    ensures WellFormed(QuantityUpdated(cart, index, change))
    ensures cart[index].quantity + change > 0 ==>
              Units(QuantityUpdated(cart, index, change)) == Units(cart) + change
    ensures cart[index].quantity + change <= 0 ==>
              Units(QuantityUpdated(cart, index, change)) == Units(cart) - cart[index].quantity
  {
    var q := cart[index].quantity + change;
    if q <= 0 {
      RemoveAtKeeps(cart, index);
    } else {
      SumUpdate(cart, index, cart[index].(quantity := q), Quantity);
    }
  }

  /** `splice(index, 1)` with any index keeps the cart well formed. */
  lemma Splice1Keeps(cart: seq<Line>, index: int)
    requires WellFormed(cart)
    ensures WellFormed(Splice1(cart, index))
  {
    var k := SpliceStart(|cart|, index);
    if k < |cart| {
      RemoveAtKeeps(cart, k);
    }
  }

  /** The `forEach` of `updateCartUI` that adds up price × quantity. */
  method CartTotal(cart: seq<Line>) returns (total: int)
    ensures total == Total(cart)
  {
    total := 0;
    var i := 0;
    while i < |cart|
      invariant 0 <= i <= |cart|
      invariant total == Total(cart[..i])
    {
      total := total + cart[i].item.price * cart[i].quantity;
      assert cart[..i + 1] == cart[..i] + [cart[i]];
      SumSnoc(cart[..i], cart[i], LineTotal);
      i := i + 1;
    }
    assert cart[..i] == cart;
  }

  /** What a page hands to `Pi.createPayment`. */
  datatype PaymentRequest = PaymentRequest(amount: int, memo: string)
}

=== FILE: restaurant_model.dfy ===
/** The server's restaurant document (server/src/models/Restaurant.js): the
    field constraints the schema validates and the `isOpen` virtual. The
    weekday and the time of day, which the virtual derives from the clock,
    are inputs. Money is in integer cents. */
module RestaurantModel {
  import opened Wrappers
  import opened Text
  import Users

  const DAYS: set<string> := {"monday", "tuesday", "wednesday", "thursday", "friday", "saturday", "sunday"}

  const CATEGORIES: set<string> := {"appetizers", "mains", "sides", "desserts", "drinks"}

  const PAYMENT_KINDS: set<string> := {"CARD", "ETH", "BTC", "PCM", "PI"}

  /** One `openingHours` entry; times are strings such as "09:00". */
  datatype Hours = Hours(day: string, open: string, close: string, isClosed: bool)

  datatype MenuItem = MenuItem(name: string, description: string, price: int, image: string,
                               category: string, isAvailable: bool, preparationTime: int)

  datatype Rating = Rating(average: real, count: int)

  /** `coordinates` is None when the path is null; `owner` is None when no
      owning user is set. */
  datatype Restaurant = Restaurant(
    name: string, description: string, cuisine: seq<string>, coordinates: Option<seq<real>>,
    phone: string, email: string,
    rating: Rating, menu: seq<MenuItem>, openingHours: seq<Hours>,
    deliveryFee: int, minimumOrder: int, preparationTime: int,
    acceptedPayments: seq<string>, walletAddresses: seq<Users.WalletAddress>, isActive: bool,
    owner: Option<nat>)

  /** `openingHours.find(h => h.day === day)`. */
  function FindHours(hours: seq<Hours>, day: string): (r: Option<Hours>)
    ensures r.Some? ==> exists i :: 0 <= i < |hours| && hours[i] == r.value && hours[i].day == day
                                    && forall k :: 0 <= k < i ==> hours[k].day != day
    ensures r.None? <==> forall k :: 0 <= k < |hours| ==> hours[k].day != day
  {
    if hours == [] then None
    else if hours[0].day == day then Some(hours[0])
    else
      var r := FindHours(hours[1..], day);
      assert r.Some? ==> exists i :: 0 <= i < |hours| && hours[i] == r.value && hours[i].day == day
                                     && forall k :: 0 <= k < i ==> hours[k].day != day by {
        if r.Some? {
          var j :| 0 <= j < |hours[1..]| && hours[1..][j] == r.value && hours[1..][j].day == day
                   && forall k :: 0 <= k < j ==> hours[1..][k].day != day;
          assert forall k :: 1 <= k < j + 1 ==> hours[k] == hours[1..][k - 1];
        }
      }
      assert r.None? ==> forall k :: 1 <= k < |hours| ==> hours[k] == hours[1..][k - 1];
      r
  }

  /** `isOpen` on weekday `day` at time `time`: the first entry for the day
      decides; a missing or closed entry is never open, and otherwise the
      time must lie in the inclusive window by string comparison. */
  function IsOpen(hours: seq<Hours>, day: string, time: string): (r: bool)
    ensures r ==> exists i :: 0 <= i < |hours| && hours[i].day == day && !hours[i].isClosed
                              && StrLe(hours[i].open, time) && StrLe(time, hours[i].close)
    ensures (forall k :: 0 <= k < |hours| ==> hours[k].day != day) ==> !r
  {
    match FindHours(hours, day)
    case None => false
    case Some(h) => !h.isClosed && StrLe(h.open, time) && StrLe(time, h.close)
  }

  /** When the day's first entry is open, exactly the times of its
      inclusive window are open, the bounds included. */
  lemma IsOpenWindow(hours: seq<Hours>, day: string, i: nat, time: string)
    requires i < |hours| && hours[i].day == day && !hours[i].isClosed
    requires forall k :: 0 <= k < i ==> hours[k].day != day
    ensures IsOpen(hours, day, time) <==> StrLe(hours[i].open, time) && StrLe(time, hours[i].close)
    ensures IsOpen(hours, day, hours[i].open) <==> StrLe(hours[i].open, hours[i].close)
    ensures IsOpen(hours, day, hours[i].close) <==> StrLe(hours[i].open, hours[i].close)
  {
    FirstHoursAt(hours, day, i);
  }

  /** A day whose first entry is marked closed is never open. */
  lemma ClosedDayNeverOpen(hours: seq<Hours>, day: string, i: nat, time: string)
    requires i < |hours| && hours[i].day == day && hours[i].isClosed
    requires forall k :: 0 <= k < i ==> hours[k].day != day
    ensures !IsOpen(hours, day, time)
  {
    FirstHoursAt(hours, day, i);
  }

  /** An entry whose closing time sorts before its opening time (a window
      across midnight) is open at no time at all. */
  lemma InvertedWindowNeverOpen(hours: seq<Hours>, day: string, i: nat, time: string)
    requires i < |hours| && hours[i].day == day
    requires forall k :: 0 <= k < i ==> hours[k].day != day
    requires StrLt(hours[i].close, hours[i].open)
    ensures !IsOpen(hours, day, time)
  {
    FirstHoursAt(hours, day, i);
    StrNoneBetween(hours[i].open, time, hours[i].close);
  }

  lemma {:induction false} FirstHoursAt(hours: seq<Hours>, day: string, i: nat)
    requires i < |hours| && hours[i].day == day
    requires forall k :: 0 <= k < i ==> hours[k].day != day
    ensures FindHours(hours, day) == Some(hours[i])
  {
    if i > 0 {
      assert forall k :: 0 <= k < i - 1 ==> hours[1..][k] == hours[k + 1];
      FirstHoursAt(hours[1..], day, i - 1);
    }
  }

  /** The menu item constraints: required strings, a non-negative price and
      a category from the enum. */
  predicate MenuItemValid(m: MenuItem)
  {
    m.name != [] && m.description != [] && m.image != [] && m.price >= 0 && m.category in CATEGORIES
  }

  /** A schema constraint that validation can report. A constraint on an
      array of subdocuments stands for all its elements: which element
      failed is not recorded. */
  datatype Path = NamePath | DescriptionPath | CuisinePath | CoordinatesPath | PhonePath | EmailPath
                | RatingPath | MenuPath | DayPath | OpenPath | ClosePath
                | DeliveryFeePath | MinimumOrderPath | PreparationTimePath | PaymentsPath
                | ChainPath | AddressPath | OwnerPath

  const ALL_PATHS: set<Path> :=
    {NamePath, DescriptionPath, CuisinePath, CoordinatesPath, PhonePath, EmailPath, RatingPath, MenuPath,
     DayPath, OpenPath, ClosePath, DeliveryFeePath, MinimumOrderPath, PreparationTimePath, PaymentsPath,
     ChainPath, AddressPath, OwnerPath}

  /** Whether the constraint on path `p` fails. */
  predicate Fails(r: Restaurant, p: Path)
  {
    match p
    case NamePath => r.name == []
    case DescriptionPath => r.description == []
    case CuisinePath => exists c :: c in r.cuisine && c == []
    case CoordinatesPath => r.coordinates.None?
    case PhonePath => r.phone == []
    case EmailPath => r.email == []
    case RatingPath => !(0.0 <= r.rating.average <= 5.0)
    case MenuPath => exists m :: m in r.menu && !MenuItemValid(m)
    case DayPath => exists h :: h in r.openingHours && h.day !in DAYS
    case OpenPath => exists h :: h in r.openingHours && h.open == []
    case ClosePath => exists h :: h in r.openingHours && h.close == []
    case DeliveryFeePath => r.deliveryFee < 0
    case MinimumOrderPath => r.minimumOrder < 0
    case PreparationTimePath => r.preparationTime < 0
    case PaymentsPath => exists k :: k in r.acceptedPayments && k !in PAYMENT_KINDS
    case ChainPath => exists w :: w in r.walletAddresses && w.chain !in Users.CHAINS
    case AddressPath => exists w :: w in r.walletAddresses && w.address == []
    case OwnerPath => r.owner.None?
  }

  /** The paths in the `errors` object of the ValidationError that
      `validate()` raises: one per failing constraint. */
  function ValidationErrors(r: Restaurant): (errs: set<Path>)
    ensures RatingPath in errs <==> !(0.0 <= r.rating.average <= 5.0)
    ensures DeliveryFeePath in errs <==> r.deliveryFee < 0
    ensures MinimumOrderPath in errs <==> r.minimumOrder < 0
    ensures MenuPath in errs <==> exists m :: m in r.menu && !MenuItemValid(m)
    ensures DayPath in errs <==> exists h :: h in r.openingHours && h.day !in DAYS
  {
    set p: Path | p in ALL_PATHS && Fails(r, p)
  }

  /** An opening-hours entry missing its opening or closing time reports
      the path of the missing field. */
  lemma HoursPathsReported(r: Restaurant)
    ensures OpenPath in ValidationErrors(r) <==> exists h :: h in r.openingHours && h.open == []
    ensures ClosePath in ValidationErrors(r) <==> exists h :: h in r.openingHours && h.close == []
  {
  }

  /** A wallet missing its address, or an empty cuisine entry, reports its
      path. */
  lemma ListPathsReported(r: Restaurant)
    ensures AddressPath in ValidationErrors(r) <==> exists w :: w in r.walletAddresses && w.address == []
    ensures CuisinePath in ValidationErrors(r) <==> exists c :: c in r.cuisine && c == []
  {
  }

  /** A missing owner, or null coordinates, report their path. */
  lemma ReferencePathsReported(r: Restaurant)
    ensures OwnerPath in ValidationErrors(r) <==> r.owner.None?
    ensures CoordinatesPath in ValidationErrors(r) <==> r.coordinates.None?
  {
  }

  /** Every constraint of the schema holds. */
  predicate Valid(r: Restaurant)
  {
    && r.name != [] && r.description != [] && r.phone != [] && r.email != []
    && (forall c :: c in r.cuisine ==> c != []) && r.coordinates.Some? && r.owner.Some?
    && 0.0 <= r.rating.average <= 5.0
    && (forall m :: m in r.menu ==> MenuItemValid(m))
    && (forall h :: h in r.openingHours ==> h.day in DAYS && h.open != [] && h.close != [])
    && r.deliveryFee >= 0 && r.minimumOrder >= 0 && r.preparationTime >= 0
    && (forall p :: p in r.acceptedPayments ==> p in PAYMENT_KINDS)
    && (forall w :: w in r.walletAddresses ==> Users.WalletValid(w))
  }

  /** A document saves exactly when no path is reported. */
  lemma ValidationErrorsEmpty(r: Restaurant)
    ensures ValidationErrors(r) == {} <==> Valid(r)
  {
    if Valid(r) {
      ValidHasNoErrors(r);
    } else {
      InvalidHasAnError(r);
    }
  }

  lemma ValidHasNoErrors(r: Restaurant)
    requires Valid(r)
    ensures ValidationErrors(r) == {}
  {
    forall p: Path ensures !Fails(r, p) {
    }
  }

  lemma InvalidHasAnError(r: Restaurant)
    requires !Valid(r)
    ensures ValidationErrors(r) != {}
  {
    if || r.name == [] || r.description == [] || r.phone == [] || r.email == []
       || r.coordinates.None? || r.owner.None? || !(0.0 <= r.rating.average <= 5.0)
       || r.deliveryFee < 0 || r.minimumOrder < 0 || r.preparationTime < 0
    {
      ScalarFailureReported(r);
    } else {
      ListFailureReported(r);
    }
  }

  lemma ScalarFailureReported(r: Restaurant)
    requires || r.name == [] || r.description == [] || r.phone == [] || r.email == []
             || r.coordinates.None? || r.owner.None? || !(0.0 <= r.rating.average <= 5.0)
             || r.deliveryFee < 0 || r.minimumOrder < 0 || r.preparationTime < 0
    ensures ValidationErrors(r) != {}
  {
    var errs := ValidationErrors(r);
    if r.name == [] || r.description == [] || r.phone == [] || r.email == [] {
      assert NamePath in errs || DescriptionPath in errs || PhonePath in errs || EmailPath in errs;
    } else if r.coordinates.None? || r.owner.None? {
      ReferencePathsReported(r);
    } else if !(0.0 <= r.rating.average <= 5.0) {
      assert RatingPath in errs;
    } else {
      assert DeliveryFeePath in errs || MinimumOrderPath in errs || PreparationTimePath in errs;
    }
  }

  lemma ListFailureReported(r: Restaurant)
    requires !Valid(r)
    requires r.name != [] && r.description != [] && r.phone != [] && r.email != []
    requires r.coordinates.Some? && r.owner.Some? && 0.0 <= r.rating.average <= 5.0
    requires r.deliveryFee >= 0 && r.minimumOrder >= 0 && r.preparationTime >= 0
    ensures ValidationErrors(r) != {}
  {
    var errs := ValidationErrors(r);
    if exists c :: c in r.cuisine && c == [] {
      ListPathsReported(r);
    } else if exists m :: m in r.menu && !MenuItemValid(m) {
      assert MenuPath in errs;
    } else if exists h :: h in r.openingHours && !(h.day in DAYS && h.open != [] && h.close != []) {
      HoursFailureReported(r);
    } else if exists k :: k in r.acceptedPayments && k !in PAYMENT_KINDS {
      assert PaymentsPath in errs;
    } else {
      WalletFailureReported(r);
    }
  }

  lemma WalletFailureReported(r: Restaurant)
    requires exists w :: w in r.walletAddresses && !Users.WalletValid(w)
    ensures ValidationErrors(r) != {}
  {
    var w :| w in r.walletAddresses && !Users.WalletValid(w);
    if w.chain !in Users.CHAINS {
      assert ChainPath in ValidationErrors(r);
    } else {
      ListPathsReported(r);
    }
  }

  lemma HoursFailureReported(r: Restaurant)
    requires exists h :: h in r.openingHours && !(h.day in DAYS && h.open != [] && h.close != [])
    ensures ValidationErrors(r) != {}
  {
    var h :| h in r.openingHours && !(h.day in DAYS && h.open != [] && h.close != []);
    if h.day !in DAYS {
      assert DayPath in ValidationErrors(r);
    } else {
      HoursPathsReported(r);
    }
  }

  /** A new document with the schema defaults: no rating yet, active,
      `name` trimmed and `email` lower-cased by their setters. */
  function NewRestaurant(name: string, description: string, cuisine: seq<string>, coordinates: seq<real>,
                         phone: string, email: string,
                         menu: seq<MenuItem>, openingHours: seq<Hours>, deliveryFee: int,
                         minimumOrder: int, preparationTime: int, owner: nat): (r: Restaurant)
    ensures r.rating == Rating(0.0, 0) && r.isActive
    ensures r.name == Trim(name) && r.email == Lower(email)
    ensures r.acceptedPayments == [] && r.walletAddresses == []
    ensures r.owner == Some(owner) && r.coordinates == Some(coordinates)
  {
    Restaurant(Trim(name), description, cuisine, Some(coordinates), phone, Lower(email), Rating(0.0, 0),
               menu, openingHours, deliveryFee, minimumOrder, preparationTime, [], [], true, Some(owner))
  }

  /** The defaults never violate a constraint: a new document is valid
      whenever the values supplied are. */
  lemma NewRestaurantValid(name: string, description: string, cuisine: seq<string>, coordinates: seq<real>,
                           phone: string, email: string,
                           menu: seq<MenuItem>, openingHours: seq<Hours>, deliveryFee: int,
                           minimumOrder: int, preparationTime: int, owner: nat)
    requires Trim(name) != [] && description != [] && phone != [] && email != []
    requires forall c :: c in cuisine ==> c != []
    requires forall m :: m in menu ==> MenuItemValid(m)
    requires forall h :: h in openingHours ==> h.day in DAYS && h.open != [] && h.close != []
    requires deliveryFee >= 0 && minimumOrder >= 0 && preparationTime >= 0
    ensures Valid(NewRestaurant(name, description, cuisine, coordinates, phone, email, menu, openingHours,
                                deliveryFee, minimumOrder, preparationTime, owner))
  {
  }

  /** For a valid document, a day name outside the week is never open. */
  lemma UnknownDayNeverOpen(r: Restaurant, day: string, time: string)
    requires Valid(r) && day !in DAYS
    ensures !IsOpen(r.openingHours, day, time)
  {
    assert forall k :: 0 <= k < |r.openingHours| ==> r.openingHours[k] in r.openingHours;
  }
}

=== FILE: routes_restaurants.dfy ===
/** The restaurant routes of the Express server (routes/restaurants.js):
    the list, the search by name or cuisine, and the lookups of a restaurant
    and of its menu by the id in the path, all over a constant catalogue.
    Each handler is a function from the request's parameters to the reply;
    money is integer cents. */
module RestaurantRoutes {
  import opened Wrappers
  import opened Collections
  import opened Text

  datatype RouteDish = RouteDish(id: int, name: string, description: string, price: int, image: string, isVeg: bool)

  /** A menu section: a heading and its dishes. */
  datatype Section = Section(category: string, items: seq<RouteDish>)

  datatype Listing = Listing(
    id: int, name: string, coverImage: string, rating: real, reviewCount: int,
    cuisineType: string, deliveryTime: string, menu: seq<Section>)

  /** The sample catalogue the routes serve. */
  const RESTAURANTS: seq<Listing> := [
    Listing(1, "Pizza Paradise", "/images/restaurants/pizza-paradise.jpg", 4.5, 234, "Italian, Pizza", "25-35", [
      Section("Popular Items", [
        RouteDish(1, "Margherita Pizza", "Fresh tomatoes, mozzarella, basil", 1299, "/images/menu/margherita.jpg", true),
        RouteDish(2, "Pepperoni Pizza", "Classic pepperoni with extra cheese", 1499, "/images/menu/pepperoni.jpg", false)
      ])
    ])
  ]

  const NOT_FOUND: string := "Restaurant not found"

  /** GET `/`: the catalogue as it is. */
  function ListAll(list: seq<Listing>): (r: Result<seq<Listing>, HttpError>)
    ensures r.Success? && |r.value| == |list|
    ensures forall k :: 0 <= k < |list| ==> r.value[k] == list[k]
  {
    Success(list)
  }

  /** The search test: the lower-cased name or cuisine contains the
      lower-cased query. */
  predicate ListingMatches(l: Listing, q: string)
  {
    Contains(Lower(l.name), Lower(q)) || Contains(Lower(l.cuisineType), Lower(q))
  }

  function MatchesQuery(q: string): Listing -> bool
  {
    (l: Listing) => ListingMatches(l, q)
  }

  /** GET `/search?q=`: the matching restaurants in catalogue order; without
      a `q` the handler throws on `q.toLowerCase()` and Express answers 500. */
  function Search(list: seq<Listing>, q: Option<string>): (r: Result<seq<Listing>, HttpError>)
    ensures q.None? <==> r.Failure?
    ensures r.Failure? ==> r.error.status == 500
    ensures r.Success? ==> forall k :: 0 <= k < |r.value| ==> r.value[k] in list && ListingMatches(r.value[k], q.value)
    ensures r.Success? ==> forall k :: 0 <= k < |list| && ListingMatches(list[k], q.value) ==> list[k] in r.value
  {
    match q
    case None => Failure(HttpError(500, "Internal Server Error"))
    case Some(text) => Success(Filter(list, MatchesQuery(text)))
  }

  /** An empty query finds every restaurant: the search then lists what
      GET `/` lists. */
  lemma EmptySearchListsAll(list: seq<Listing>)
    ensures Search(list, Some("")) == ListAll(list)
  {
    forall l: Listing ensures MatchesQuery("")(l) {
      assert OccursAt(Lower(l.name), Lower(""), 0);
    }
    FilterAll(list, MatchesQuery(""));
  }

  function HasListingId(id: int): Listing -> bool
  {
    (l: Listing) => l.id == id
  }

  /** `restaurants.find(r => r.id === parseInt(param))`: NaN equals no id. */
  function FindListing(list: seq<Listing>, param: string): (r: Option<Listing>)
    ensures r.Some? ==> ParseInt(param).Some? && r.value in list && r.value.id == ParseInt(param).value
    ensures r.None? <==> ParseInt(param).None? || forall k :: 0 <= k < |list| ==> list[k].id != ParseInt(param).value
  {
    match ParseInt(param)
    case None => None
    case Some(id) =>
      match FindFirst(list, HasListingId(id))
      case Some(i) => Some(list[i])
      case None => None
  }

  /** GET `/:id`: the restaurant, or 404 "Restaurant not found". */
  function GetById(list: seq<Listing>, param: string): (r: Result<Listing, HttpError>)
    ensures r.Failure? <==> FindListing(list, param).None?
    ensures r.Failure? ==> r.error == HttpError(404, NOT_FOUND)
    ensures r.Success? ==> r.value == FindListing(list, param).value
  {
    match FindListing(list, param)
    case None => Failure(HttpError(404, NOT_FOUND))
    case Some(l) => Success(l)
  }

  /** GET `/:id/menu`: the sections of the restaurant GET `/:id` would
      return, or the same 404. */
  function GetMenu(list: seq<Listing>, param: string): (r: Result<seq<Section>, HttpError>)
    ensures r.Failure? <==> GetById(list, param).Failure?
    ensures r.Failure? ==> r.error == HttpError(404, NOT_FOUND)
    ensures r.Success? ==> r.value == GetById(list, param).value.menu
  {
    match FindListing(list, param)
    case None => Failure(HttpError(404, NOT_FOUND))
    case Some(l) => Success(l.menu)
  }

  /** The id a client puts in the path finds the first restaurant with that
      id: `parseInt(String(id))` reads the id back. */
  lemma GetByRenderedId(list: seq<Listing>, i: nat)
    requires i < |list| && list[i].id >= 0
    requires forall k :: 0 <= k < i ==> list[k].id != list[i].id
    ensures GetById(list, DecimalString(list[i].id as nat)) == Success(list[i])
    ensures GetMenu(list, DecimalString(list[i].id as nat)) == Success(list[i].menu)
  {
    ParseDecimalString(list[i].id as nat);
    FindFirstAt(list, HasListingId(list[i].id), i);
  }

  /** A path that does not start with a number (after white space and a
      sign) finds nothing. */
  lemma NonNumericNotFound(list: seq<Listing>, param: string)
    requires ParseInt(param).None?
    ensures GetById(list, param) == Failure(HttpError(404, NOT_FOUND))
    ensures GetMenu(list, param) == Failure(HttpError(404, NOT_FOUND))
  {
  }

  /** `parseInt` stops at the first non-digit, so "1abc" finds restaurant 1
      just as "1" does. */
  lemma TrailingTextIgnored(list: seq<Listing>)
    ensures GetById(list, "1abc") == GetById(list, "1")
  {
    assert LeadingDigits("1abc") == "1" by {
      assert LeadingDigits("abc") == [];
    }
    assert LeadingDigits("1") == "1";
    assert TrimStart("1abc") == "1abc";
    assert TrimStart("1") == "1";
  }
}

=== FILE: sorting.dfy ===
/** A stable insertion sort by an integer key: the model of JavaScript's
    `Array.prototype.sort` with a numeric comparator and of a database sort on
    one numeric field. */
module Sorting {

  /** Keys are non-decreasing from left to right. */
  predicate SortedBy<T>(s: seq<T>, key: T -> int)
  {
    forall i, j :: 0 <= i < j < |s| ==> key(s[i]) <= key(s[j])
  }

  /** Every key is at least `b`. */
  predicate KeysAtLeast<T>(s: seq<T>, key: T -> int, b: int)
  {
    forall i :: 0 <= i < |s| ==> b <= key(s[i])
  }

  /** Inserts `x` after every leading element whose key is at most `key(x)`. */
  function Insert<T>(x: T, s: seq<T>, key: T -> int): (r: seq<T>)
    ensures |r| == |s| + 1
  {
    if s == [] then [x]
    else if key(s[0]) > key(x) then [x] + s
    else [s[0]] + Insert(x, s[1..], key)
  }

  lemma {:induction false} InsertPermutes<T>(x: T, s: seq<T>, key: T -> int)
    ensures multiset(Insert(x, s, key)) == multiset(s) + multiset{x}
  {
    if s != [] && key(s[0]) <= key(x) {
      InsertPermutes(x, s[1..], key);
      assert s == [s[0]] + s[1..];
    }
  }

  lemma {:induction false} InsertKeysAtLeast<T>(x: T, s: seq<T>, key: T -> int, b: int)
    requires KeysAtLeast(s, key, b) && b <= key(x)
    ensures KeysAtLeast(Insert(x, s, key), key, b)
  {
    if s != [] && key(s[0]) <= key(x) {
      InsertKeysAtLeast(x, s[1..], key, b);
    }
  }

  lemma {:induction false} InsertSorted<T>(x: T, s: seq<T>, key: T -> int)
    requires SortedBy(s, key)
    ensures SortedBy(Insert(x, s, key), key)
  {
    if s != [] && key(s[0]) <= key(x) {
      InsertSorted(x, s[1..], key);
      InsertKeysAtLeast(x, s[1..], key, key(s[0]));
    }
  }

  /** The elements of `s` ordered by `key`, ties kept in their input order. */
  function SortBy<T(==)>(s: seq<T>, key: T -> int): (r: seq<T>)
    ensures multiset(r) == multiset(s)
    ensures |r| == |s|
    ensures SortedBy(r, key)
  {
    if s == [] then []
    else
      var prefix := SortBy(s[..|s| - 1], key);
      InsertPermutes(s[|s| - 1], prefix, key);
      InsertSorted(s[|s| - 1], prefix, key);
      assert s == s[..|s| - 1] + [s[|s| - 1]];
      Insert(s[|s| - 1], prefix, key)
  }

  /** Sequences with the same multiset have the same elements. */
  lemma SameElements<T>(a: seq<T>, b: seq<T>)
    requires multiset(a) == multiset(b)
    ensures forall i :: 0 <= i < |a| ==> a[i] in b
    ensures |a| == |b|
  {
    forall i | 0 <= i < |a| ensures a[i] in b {
      assert a[i] in multiset(a);
    }
    assert |multiset(a)| == |multiset(b)|;
  }
}

=== FILE: text.dfy ===
/** The JavaScript string operations the source relies on: `toLowerCase`,
    `includes`, `trim`, `replace` of the first occurrence, the relational
    operators on strings and `parseInt`. Strings are sequences of characters;
    case mapping and whitespace are restricted as documented on each function. */
module Text {
  import opened Wrappers

  /** A string option is truthy in JavaScript when present and non-empty. */
  predicate TruthyText(s: Option<string>) { s.Some? && s.value != "" }

  /** `c.toLowerCase()` for the ASCII letters; every other character is kept. */
  function LowerChar(c: char): (d: char)
    ensures 'A' <= c <= 'Z' ==> d as int == c as int + 32
    ensures !('A' <= c <= 'Z') ==> d == c
  {
    if 'A' <= c <= 'Z' then (c as int + 32) as char else c
  }

  /** `s.toLowerCase()`, character by character. */
  function Lower(s: string): (r: string)
    ensures |r| == |s|
    ensures forall i :: 0 <= i < |s| ==> r[i] == LowerChar(s[i])
  {
    if s == [] then [] else [LowerChar(s[0])] + Lower(s[1..])
  }

  /** `s.startsWith(p)`. */
  predicate StartsWith(s: string, p: string)
  {
    |p| <= |s| && s[..|p|] == p
  }

  /** `p` occurs in `s` starting at position `i`. */
  predicate OccursAt(s: string, p: string, i: int)
  {
    0 <= i && i + |p| <= |s| && s[i..i + |p|] == p
  }

  /** `s.includes(sub)`: some position of `s` starts a copy of `sub`. The empty
      string is included in every string. */
  predicate Contains(s: string, sub: string)
  {
    exists i | 0 <= i <= |s| - |sub| :: OccursAt(s, sub, i)
  }

  /** The first position at which `p` occurs in `s` (`s.indexOf(p)`), or None
      when it does not occur. */
  function IndexOf(s: string, p: string): (r: Option<nat>)
    ensures r.Some? ==> OccursAt(s, p, r.value)
    ensures r.Some? ==> forall j :: 0 <= j < r.value ==> !OccursAt(s, p, j)
    ensures r.None? ==> forall j :: !OccursAt(s, p, j)
    decreases |s|
  {
    if |s| < |p| then None
    else if s[..|p|] == p then (assert OccursAt(s, p, 0); Some(0))
    else
      OccursShift(s, p);
      assert !OccursAt(s, p, 0);
      match IndexOf(s[1..], p)
      case None => None
      case Some(k) => Some(k + 1)
  }

  /** An occurrence at position `k >= 1` of `s` is an occurrence at `k - 1`
      of `s[1..]`. */
  lemma OccursShift(s: string, p: string)
    requires s != []
    ensures forall k :: 1 <= k ==> (OccursAt(s, p, k) <==> OccursAt(s[1..], p, k - 1))
  {
    forall k | 1 <= k
      ensures OccursAt(s, p, k) <==> OccursAt(s[1..], p, k - 1)
    {
      if k + |p| <= |s| {
        var t := s[1..];
        var a, b := s[k..k + |p|], t[k - 1..k - 1 + |p|];
        forall j | 0 <= j < |p| ensures a[j] == b[j] {
          assert t[k - 1 + j] == s[k + j];
        }
        assert a == b;
      }
    }
  }

  /** `s.replace(p, with)` where `p` is a string: only the FIRST occurrence of
      `p`, wherever it is, is replaced; a string without `p` is returned
      unchanged. */
  function ReplaceFirst(s: string, p: string, with: string): string
  {
    match IndexOf(s, p)
    case None => s
    case Some(i) => s[..i] + with + s[i + |p|..]
  }

  lemma ReplaceFirstPrefix(s: string, p: string)
    requires p != [] && StartsWith(s, p)
    ensures ReplaceFirst(s, p, "") == s[|p|..]
  {
    assert s[0..|p|] == p;
  }

  lemma ReplaceFirstAbsent(s: string, p: string, with: string)
    requires !Contains(s, p)
    ensures ReplaceFirst(s, p, with) == s
  {
  }

  /** The characters `String.prototype.trim` removes: the ASCII white
      space, the byte-order mark, the line and paragraph separators and the
      space separators of Unicode (category Zs). */
  predicate IsSpace(c: char)
  {
    c == ' ' || c == '\t' || c == '\n' || c == '\r' || c == '\U{000B}' || c == '\U{000C}'
    || c == '\U{00A0}' || c == '\U{1680}' || '\U{2000}' <= c <= '\U{200A}'
    || c == '\U{2028}' || c == '\U{2029}' || c == '\U{202F}' || c == '\U{205F}'
    || c == '\U{3000}' || c == '\U{FEFF}'
  }

  function TrimStart(s: string): (r: string)
    ensures |r| <= |s|
    ensures forall i :: 0 <= i < |r| ==> r[i] == s[|s| - |r| + i]
    ensures r != [] ==> !IsSpace(r[0])
    ensures forall i :: 0 <= i < |s| - |r| ==> IsSpace(s[i])
  {
    if s != [] && IsSpace(s[0]) then
      var r := TrimStart(s[1..]);
      SpaceThenSuffix(s, r);
      r
    else s
  }

  /** One white-space character in front of a string whose suffix `r` follows
      only white space: `r` is still a suffix that follows only white space. */
  lemma SpaceThenSuffix(s: string, r: string)
    requires s != [] && IsSpace(s[0]) && |r| <= |s| - 1
    requires forall i :: 0 <= i < |r| ==> r[i] == s[1..][|s| - 1 - |r| + i]
    requires forall i :: 0 <= i < |s| - 1 - |r| ==> IsSpace(s[1..][i])
    ensures forall i :: 0 <= i < |r| ==> r[i] == s[|s| - |r| + i]
    ensures forall i :: 0 <= i < |s| - |r| ==> IsSpace(s[i])
  {
    forall i | 0 <= i < |s| - |r| ensures IsSpace(s[i]) {
      if i > 0 {
        assert s[i] == s[1..][i - 1];
      }
    }
  }

  /** A string that starts with no white space is its own `trimStart`. */
  lemma TrimStartUnchanged(s: string)
    requires s != [] && !IsSpace(s[0])
    ensures TrimStart(s) == s
  {
  }

  function TrimEnd(s: string): (r: string)
    ensures |r| <= |s|
    ensures forall i :: 0 <= i < |r| ==> r[i] == s[i]
    ensures r != [] ==> !IsSpace(r[|r| - 1])
    ensures forall i :: |r| <= i < |s| ==> IsSpace(s[i])
  {
    if s != [] && IsSpace(s[|s| - 1]) then TrimEnd(s[..|s| - 1]) else s
  }

  /** `s.trim()`. */
  function Trim(s: string): string
  {
    TrimEnd(TrimStart(s))
  }

  /** `a < b` on strings: lexicographic order by character code. */
  predicate StrLt(a: string, b: string)
  {
    if a == [] then b != []
    else if b == [] then false
    else if a[0] != b[0] then a[0] < b[0]
    else StrLt(a[1..], b[1..])
  }

  /** `a <= b` on strings. */
  predicate StrLe(a: string, b: string)
  {
    a == b || StrLt(a, b)
  }

  lemma {:induction false} StrLtIrreflexive(a: string)
    ensures !StrLt(a, a)
  {
    if a != [] {
      StrLtIrreflexive(a[1..]);
    }
  }

  lemma {:induction false} StrLtTransitive(a: string, b: string, c: string)
    requires StrLt(a, b) && StrLt(b, c)
    ensures StrLt(a, c)
  {
    if a != [] && b != [] && c != [] && a[0] == b[0] && b[0] == c[0] {
      StrLtTransitive(a[1..], b[1..], c[1..]);
    }
  }

  /** No string lies between `a` and `b` when `b < a`. */
  lemma StrNoneBetween(a: string, t: string, b: string)
    requires StrLt(b, a)
    ensures !(StrLe(a, t) && StrLe(t, b))
  {
    if StrLe(a, t) && StrLe(t, b) {
      if a == t {
        if t != b { StrLtTransitive(b, a, b); }
        StrLtIrreflexive(b);
      } else {
        if t == b {
          StrLtTransitive(b, a, b);
        } else {
          StrLtTransitive(a, t, b);
          StrLtTransitive(a, b, a);
        }
        StrLtIrreflexive(b);
        StrLtIrreflexive(a);
      }
    }
  }

  predicate IsDigit(c: char) { '0' <= c <= '9' }

  function DigitValue(c: char): nat
    requires IsDigit(c)
  {
    c as int - '0' as int
  }

  /** The value of a string of decimal digits. */
  function DigitsValue(d: string): nat
    requires forall i :: 0 <= i < |d| ==> IsDigit(d[i])
  {
    if d == [] then 0 else DigitsValue(d[..|d| - 1]) * 10 + DigitValue(d[|d| - 1])
  }

  /** The longest run of decimal digits at the start of `s`. */
  function LeadingDigits(s: string): (d: string)
    ensures |d| <= |s| && d == s[..|d|]
    ensures forall i :: 0 <= i < |d| ==> IsDigit(d[i])
    ensures |d| < |s| ==> !IsDigit(s[|d|])
  {
    if s != [] && IsDigit(s[0]) then [s[0]] + LeadingDigits(s[1..]) else []
  }

  /** `parseInt(s)` for decimal input: leading white space is skipped, an
      optional sign is read, then the longest run of digits; None stands for
      NaN (no digit where one is expected). */
  function ParseInt(s: string): Option<int>
  {
    ParseSigned(TrimStart(s))
  }

  /** `parseInt` once the white space is skipped: the sign, then the digits. */
  function ParseSigned(t: string): Option<int>
  {
    var negative := t != [] && t[0] == '-';
    var body := if t != [] && (t[0] == '-' || t[0] == '+') then t[1..] else t;
    var digits := LeadingDigits(body);
    if digits == [] then None
    else Some(if negative then -(DigitsValue(digits) as int) else DigitsValue(digits))
  }

  function DigitChar(n: nat): (c: char)
    requires n < 10
    ensures IsDigit(c) && DigitValue(c) == n
  {
    ('0' as int + n) as char
  }

  /** The decimal rendering of a natural number, as `String(n)` gives it. */
  function DecimalString(n: nat): (s: string)
    ensures s != []
    ensures forall i :: 0 <= i < |s| ==> IsDigit(s[i])
  {
    if n < 10 then [DigitChar(n)] else DecimalString(n / 10) + [DigitChar(n % 10)]
  }

  lemma {:induction false} DecimalStringValue(n: nat)
    ensures DigitsValue(DecimalString(n)) == n
  {
    var s := DecimalString(n);
    if n < 10 {
      assert s[..0] == [];
    } else {
      assert s[..|s| - 1] == DecimalString(n / 10);
      DecimalStringValue(n / 10);
    }
  }

  lemma {:induction false} LeadingDigitsAll(d: string)
    requires forall i :: 0 <= i < |d| ==> IsDigit(d[i])
    ensures LeadingDigits(d) == d
  {
    if d != [] {
      LeadingDigitsAll(d[1..]);
    }
  }

  /** `parseInt(String(n)) === n`: reading back a rendered id gives the id. */
  lemma ParseDecimalString(n: nat)
    ensures ParseInt(DecimalString(n)) == Some(n)
  {
    ParseDigits(DecimalString(n));
    DecimalStringValue(n);
  }

  /** A non-empty run of digits parses to its value. */
  lemma ParseDigits(d: string)
    requires d != [] && forall i :: 0 <= i < |d| ==> IsDigit(d[i])
    ensures ParseInt(d) == Some(DigitsValue(d))
  {
    assert IsDigit(d[0]);
    TrimStartUnchanged(d);
    ParseSignedDigits(d);
  }

  lemma ParseSignedDigits(d: string)
    requires d != [] && forall i :: 0 <= i < |d| ==> IsDigit(d[i])
    ensures ParseSigned(d) == Some(DigitsValue(d))
  {
    assert d[0] != '-' && d[0] != '+' by {
      assert IsDigit(d[0]);
    }
    LeadingDigitsAll(d);
  }
}

=== FILE: transactions.dfy ===
/** The transaction-record store of services/transactionService.js: one record
    per deposit or withdrawal attempt, held in memory as a sequence in place of
    the database collection, plus the queries and statistics computed over it. */
module Transactions {
  import opened Wrappers
  import opened Collections
  import opened Sorting
  import opened Text

  const HOUR_MS: int := 60 * 60 * 1000
  const DAY_MS: int := 24 * HOUR_MS

  /** The schema's four transaction kinds. A stored record may still carry some
      other name (written by code outside this service); creating one is refused. */
  datatype TxType = PiDeposit | PiWithdrawal | PcmDeposit | PcmWithdrawal | Unrecognised(name: string)

  predicate IsSchemaType(t: TxType) { !t.Unrecognised? }

  predicate IsWithdrawal(t: TxType) { t == PiWithdrawal || t == PcmWithdrawal }

  datatype TxStatus = Pending | Completed | Failed

  /** One stored record. Times are milliseconds since the epoch; ids stand for
      the database's object ids. `completedAt`, `lastModifiedBy` and
      `lastModifiedAt` are read or written by the admin service. */
  datatype TxRecord = TxRecord(
    id: nat,
    userId: nat,
    txType: TxType,
    amount: real,
    status: TxStatus,
    txHash: Option<string>,
    fromAddress: Option<string>,
    toAddress: Option<string>,
    timestamp: int,
    fee: Option<real>,
    memo: Option<string>,
    errorMessage: Option<string>,
    completedAt: Option<int>,
    lastModifiedBy: Option<nat>,
    lastModifiedAt: Option<int>)

  /** The `data` object handed to `createTransaction`. */
  datatype NewTransaction = NewTransaction(
    userId: nat,
    txType: TxType,
    amount: real,
    fromAddress: Option<string>,
    toAddress: Option<string>,
    fee: Option<real>,
    memo: Option<string>)

  /** The record a successful `createTransaction` stores: the schema defaults
      are status PENDING and timestamp now. */
  function NewRecord(id: nat, data: NewTransaction, now: int): TxRecord
  {
    TxRecord(id, data.userId, data.txType, data.amount, Pending, None,
      data.fromAddress, data.toAddress, now, data.fee, data.memo, None, None, None, None)
  }

  /** The update object of `updateTransactionStatus` applied to a record: the
      status is always written, the hash and the error message only when they
      are truthy. */
  function WithStatus(r: TxRecord, status: TxStatus, txHash: Option<string>, errorMessage: Option<string>): TxRecord
  {
    r.(status := status,
       txHash := if TruthyText(txHash) then txHash else r.txHash,
       errorMessage := if TruthyText(errorMessage) then errorMessage else r.errorMessage)
  }

  /** The position of the record with the given id, if any. */
  function IndexOfId(records: seq<TxRecord>, id: nat): (r: Option<nat>)
    ensures r.Some? ==> r.value < |records| && records[r.value].id == id
    ensures r.Some? ==> forall j :: 0 <= j < r.value ==> records[j].id != id
    ensures r.None? ==> forall j :: 0 <= j < |records| ==> records[j].id != id
  {
    if records == [] then None
    else if records[0].id == id then Some(0)
    else match IndexOfId(records[1..], id)
      case None => None
      case Some(k) => Some(k + 1)
  }

  /** Ids are unique. */
  predicate UniqueIds(records: seq<TxRecord>)
  {
    forall i, j :: 0 <= i < j < |records| ==> records[i].id != records[j].id
  }

  /** A record the cleanup sweep deletes. */
  predicate Stale(r: TxRecord, cutoff: int)
  {
    r.status == Pending && r.timestamp < cutoff
  }

  /** `cleanupPendingTransactions`' age: '1h' is one hour, anything else a day. */
  function MaxAgeMs(maxAge: Option<string>): (ms: int)
    ensures ms == HOUR_MS <==> maxAge.GetOr("1h") == "1h"
    ensures ms == HOUR_MS || ms == DAY_MS
  {
    if maxAge.GetOr("1h") == "1h" then HOUR_MS else DAY_MS
  }

  /** The records the cleanup sweep keeps. */
  function Keeps(cutoff: int): TxRecord -> bool
  {
    r => !Stale(r, cutoff)
  }

  /** The records the cleanup sweep deletes. */
  function Sweeps(cutoff: int): TxRecord -> bool
  {
    r => Stale(r, cutoff)
  }

  class TransactionStore {
    var records: seq<TxRecord>
    var nextId: nat

    ghost predicate Valid()
      reads this
    {
      UniqueIds(records) && forall i :: 0 <= i < |records| ==> records[i].id < nextId
    }

    constructor ()
      ensures Valid() && records == [] && nextId == 0
    {
      records := [];
      nextId := 0;
    }

    /** `createTransaction`: stores a new PENDING record stamped `now`, or fails
        when the type is outside the schema's enum. */
    method CreateTransaction(data: NewTransaction, now: int) returns (r: Result<TxRecord, string>)
      requires Valid()
      modifies this
      ensures Valid()
      ensures r.Success? <==> IsSchemaType(data.txType)
      ensures r.Success? ==>
                && r.value == NewRecord(old(nextId), data, now)
                && r.value.status == Pending && r.value.timestamp == now
                && records == old(records) + [r.value] && nextId == old(nextId) + 1
      ensures r.Failure? ==>
                && r.error == "Failed to create transaction record"
                && records == old(records) && nextId == old(nextId)
    {
      if !IsSchemaType(data.txType) {
        return Failure("Failed to create transaction record");
      }
      var rec := NewRecord(nextId, data, now);
      records := records + [rec];
      nextId := nextId + 1;
      r := Success(rec);
    }

    /** `updateTransactionStatus`: overwrites the status of the record with
        the given id whatever its current status; sets the hash and the error
        message only when they are truthy. An unknown id changes nothing and
        yields None (the database returns null). */
    method UpdateTransactionStatus(id: nat, status: TxStatus, txHash: Option<string>, errorMessage: Option<string>)
      returns (r: Option<TxRecord>)
      requires Valid()
      modifies this
      ensures Valid() && nextId == old(nextId)
      ensures r.None? <==> IndexOfId(old(records), id).None?
      ensures r.None? ==> records == old(records)
      ensures r.Some? ==> var i := IndexOfId(old(records), id).value;
        r.value == WithStatus(old(records)[i], status, txHash, errorMessage)
        && records == old(records)[i := r.value]
        && r.value.status == status && r.value.id == id
    {
      var found := IndexOfId(records, id);
      if found.None? {
        return None;
      }
      var i := found.value;
      var updated := WithStatus(records[i], status, txHash, errorMessage);
      records := records[i := updated];
      r := Some(updated);
    }

    /** `cleanupPendingTransactions`: deletes exactly the PENDING records
        older than the cutoff and returns how many it deleted. */
    method CleanupPendingTransactions(maxAge: Option<string>, now: int) returns (deleted: nat)
      requires Valid()
      modifies this
      ensures Valid() && nextId == old(nextId)
      ensures records == Filter(old(records), Keeps(now - MaxAgeMs(maxAge)))
      ensures deleted == Count(old(records), Sweeps(now - MaxAgeMs(maxAge)))
      ensures deleted + |records| == |old(records)|
    {
      var cutoff := now - MaxAgeMs(maxAge);
      var kept;
      kept, deleted := Sweep(records, cutoff);
      CountSplit(records, Keeps(cutoff), Sweeps(cutoff));
      FilterKeepsUnique(records, Keeps(cutoff), nextId);
      records := kept;
    }
  }

  /** The loop of the cleanup sweep: walks the records once, keeping the
      fresh ones and counting the stale ones. */
  method Sweep(records: seq<TxRecord>, cutoff: int) returns (kept: seq<TxRecord>, deleted: nat)
    ensures kept == Filter(records, Keeps(cutoff))
    ensures deleted == |Filter(records, Sweeps(cutoff))|
  {
    kept := [];
    deleted := 0;
    var i := 0;
    while i < |records|
      invariant 0 <= i <= |records|
      invariant kept == Filter(records[..i], Keeps(cutoff))
      invariant deleted == |Filter(records[..i], Sweeps(cutoff))|
    {
      assert records[..i + 1][..i] == records[..i];
      if Stale(records[i], cutoff) {
        deleted := deleted + 1;
      } else {
        kept := kept + [records[i]];
      }
      i := i + 1;
    }
    assert records[..i] == records;
  }

  /** A filtered store keeps unique ids below the id counter. */
  lemma {:induction false} FilterKeepsUnique(records: seq<TxRecord>, p: TxRecord -> bool, bound: nat)
    requires UniqueIds(records) && forall i :: 0 <= i < |records| ==> records[i].id < bound
    ensures UniqueIds(Filter(records, p))
    ensures forall i :: 0 <= i < |Filter(records, p)| ==> Filter(records, p)[i].id < bound
  {
    if records != [] {
      var prefix := records[..|records| - 1];
      FilterKeepsUnique(prefix, p, bound);
      var f := Filter(prefix, p);
      forall i | 0 <= i < |f| ensures f[i].id != records[|records| - 1].id {
        assert f[i] in prefix;
      }
    }
  }
}

/** Queries over the store: filtering, the newest-first sort, skip/limit
    paging and the per-type `$group` statistics. */
module TransactionQueries {
  import opened Wrappers
  import opened Collections
  import opened Sorting
  import opened Transactions

  function NegTimestamp(r: TxRecord): int { -r.timestamp }

  /** The sort stage `{ timestamp: -1 }`: newest first, ties kept in store order. */
  function NewestFirst(s: seq<TxRecord>): (r: seq<TxRecord>)
    ensures multiset(r) == multiset(s)
    ensures forall i, j :: 0 <= i < j < |r| ==> r[i].timestamp >= r[j].timestamp
  {
    var r := SortBy(s, NegTimestamp);
    assert forall i, j :: 0 <= i < j < |r| ==> NegTimestamp(r[i]) <= NegTimestamp(r[j]);
    r
  }

  /** `.skip(skip).limit(limit)`, where a limit of 0 means no limit. */
  function Window<T>(s: seq<T>, skip: nat, limit: nat): (r: seq<T>)
    ensures |r| == if skip >= |s| then 0
                   else if limit == 0 || skip + limit > |s| then |s| - skip
                   else limit
    ensures forall i :: 0 <= i < |r| ==> r[i] == s[skip + i]
  {
    if skip >= |s| then []
    else if limit == 0 || skip + limit > |s| then s[skip..]
    else s[skip..skip + limit]
  }

  /** Consecutive pages tile the result: reading page after page returns
      every matching record once, in order. */
  lemma WindowsTile<T>(s: seq<T>, skip: nat, n: nat, m: nat)
    requires n > 0
    ensures Window(s, skip, n) + Window(s, skip + n, m) == Window(s, skip, if m == 0 then 0 else n + m)
  {
    var a := Window(s, skip, n);
    var b := Window(s, skip + n, m);
    var c := Window(s, skip, if m == 0 then 0 else n + m);
    assert |a + b| == |c|;
    forall i | 0 <= i < |c| ensures (a + b)[i] == c[i] {
      if i >= |a| {
        assert (a + b)[i] == b[i - |a|];
      }
    }
  }

  /** The `{ transactions, total, hasMore }` object of a paged query. */
  datatype Page = Page(transactions: seq<TxRecord>, total: nat, hasMore: bool)

  /** A paged query: the matching records newest first, the page at
      `skip`/`limit`, the total count and `hasMore = total > skip + limit`. */
  function PageOf(records: seq<TxRecord>, matches: TxRecord -> bool, skip: nat, limit: nat): (p: Page)
    ensures p.transactions == Window(NewestFirst(Filter(records, matches)), skip, limit)
    ensures p.total == Count(records, matches)
    ensures forall i :: 0 <= i < |p.transactions| ==>
              p.transactions[i] in records && matches(p.transactions[i])
    ensures forall i, j :: 0 <= i < j < |p.transactions| ==>
              p.transactions[i].timestamp >= p.transactions[j].timestamp
    ensures limit > 0 ==> |p.transactions| <= limit
    ensures p.hasMore <==> p.total > skip + limit
  {
    var all := NewestFirst(Filter(records, matches));
    SameElements(all, Filter(records, matches));
    Page(Window(all, skip, limit), |Filter(records, matches)|, |Filter(records, matches)| > skip + limit)
  }

  /** With a positive limit, `hasMore` is true exactly when the next page
      holds at least one record. */
  lemma HasMoreMeansNextPage(records: seq<TxRecord>, matches: TxRecord -> bool, skip: nat, limit: nat)
    requires limit > 0
    ensures PageOf(records, matches, skip, limit).hasMore
        <==> PageOf(records, matches, skip + limit, limit).transactions != []
  {
    SameElements(NewestFirst(Filter(records, matches)), Filter(records, matches));
  }

  /** Inclusive date bounds; an absent bound does not restrict. */
  predicate InRange(ts: int, start: Option<int>, end: Option<int>)
  {
    (start.None? || ts >= start.value) && (end.None? || ts <= end.value)
  }

  /** The options of `getUserTransactions`; absent ones take the defaults
      limit 50 and skip 0. */
  datatype UserQuery = UserQuery(
    txType: Option<TxType>, status: Option<TxStatus>,
    startDate: Option<int>, endDate: Option<int>,
    limit: Option<nat>, skip: Option<nat>)

  function UserMatch(userId: nat, q: UserQuery): TxRecord -> bool
  {
    (r: TxRecord) => r.userId == userId
      && (q.txType.None? || r.txType == q.txType.value)
      && (q.status.None? || r.status == q.status.value)
      && InRange(r.timestamp, q.startDate, q.endDate)
  }

  /** `getUserTransactions`: only the user's records, only those matching the
      optional type, status and date bounds, newest first, at most `limit` of
      them (50 unless given). */
  function GetUserTransactions(records: seq<TxRecord>, userId: nat, q: UserQuery): (p: Page)
    ensures forall i :: 0 <= i < |p.transactions| ==>
              var r := p.transactions[i];
              && r in records && r.userId == userId
              && (q.txType.None? || r.txType == q.txType.value)
              && (q.status.None? || r.status == q.status.value)
              && InRange(r.timestamp, q.startDate, q.endDate)
    ensures p.transactions == Window(NewestFirst(Filter(records, UserMatch(userId, q))), q.skip.GetOr(0), q.limit.GetOr(50))
    ensures p.total == Count(records, UserMatch(userId, q))
    ensures q.limit.None? ==> |p.transactions| <= 50
    ensures p.hasMore <==> p.total > q.skip.GetOr(0) + q.limit.GetOr(50)
  {
    PageOf(records, UserMatch(userId, q), q.skip.GetOr(0), q.limit.GetOr(50))
  }

  /** `getTransactionDetails`: the record with that id; a missing one is
      reported through the service's generic failure message. */
  function GetTransactionDetails(records: seq<TxRecord>, id: nat): (r: Result<TxRecord, string>)
    ensures r.Success? <==> exists i :: 0 <= i < |records| && records[i].id == id
    ensures r.Success? ==> r.value in records && r.value.id == id
    ensures r.Failure? ==> r.error == "Failed to fetch transaction details"
  {
    match IndexOfId(records, id)
    case None => Failure("Failed to fetch transaction details")
    case Some(i) => Success(records[i])
  }

  /** One `$group` bucket, accumulated record by record. */
  datatype Group = Group(count: nat, totalAmount: real, totalFees: real, successCount: nat, failureCount: nat)

  const EmptyGroup := Group(0, 0.0, 0.0, 0, 0)

  function Amount(r: TxRecord): real { r.amount }

  /** `$sum: '$fee'`: a record without a fee adds nothing. */
  function FeeOf(r: TxRecord): real { r.fee.GetOr(0.0) }

  function OfType(t: TxType): TxRecord -> bool { (r: TxRecord) => r.txType == t }

  function HasStatus(st: TxStatus): TxRecord -> bool { (r: TxRecord) => r.status == st }

  function AddToGroup(g: Group, r: TxRecord): Group
  {
    Group(g.count + 1, g.totalAmount + r.amount, g.totalFees + FeeOf(r),
      g.successCount + (if r.status == Completed then 1 else 0),
      g.failureCount + (if r.status == Failed then 1 else 0))
  }

  /** The `$group: { _id: '$type', ... }` stage, one record at a time. */
  function GroupByType(s: seq<TxRecord>): map<TxType, Group>
  {
    if s == [] then map[]
    else
      var g := GroupByType(s[..|s| - 1]);
      var r := s[|s| - 1];
      g[r.txType := AddToGroup(if r.txType in g then g[r.txType] else EmptyGroup, r)]
  }

  /** What a bucket holding the records `m` ought to say: their count, the
      sums of their amounts and fees, and how many are COMPLETED and FAILED. */
  function Summarise(m: seq<TxRecord>): Group
  {
    Group(|m|, SumReal(m, Amount), SumReal(m, FeeOf),
      Count(m, HasStatus(Completed)), Count(m, HasStatus(Failed)))
  }

  /** The bucket of type `t`. */
  function Bucket(s: seq<TxRecord>, t: TxType): Group
  {
    Summarise(Filter(s, OfType(t)))
  }

  lemma SummariseSnoc(m: seq<TxRecord>, r: TxRecord)
    ensures Summarise(m + [r]) == AddToGroup(Summarise(m), r)
  {
    SumRealSnoc(m, r, Amount);
    SumRealSnoc(m, r, FeeOf);
    FilterSnoc(m, r, HasStatus(Completed));
    FilterSnoc(m, r, HasStatus(Failed));
  }

  /** Appending one record adds it to its own type's bucket only. */
  lemma BucketStep(s: seq<TxRecord>, t: TxType)
    requires s != []
    ensures var s', r := s[..|s| - 1], s[|s| - 1];
            Bucket(s, t) == if r.txType == t then AddToGroup(Bucket(s', t), r) else Bucket(s', t)
  {
    var s', r := s[..|s| - 1], s[|s| - 1];
    assert s == s' + [r];
    FilterSnoc(s', r, OfType(t));
    if r.txType == t {
      SummariseSnoc(Filter(s', OfType(t)), r);
    } else {
      assert Filter(s, OfType(t)) == Filter(s', OfType(t)) + [];
      assert Filter(s', OfType(t)) + [] == Filter(s', OfType(t));
    }
  }

  /** Grouping yields one bucket per type present, and each bucket sums
      exactly the records of its type. */
  lemma {:induction false} GroupByTypeBuckets(s: seq<TxRecord>, t: TxType)
    ensures t in GroupByType(s) <==> Count(s, OfType(t)) > 0
    ensures t in GroupByType(s) ==> GroupByType(s)[t] == Bucket(s, t)
  {
    if s != [] {
      var s', r := s[..|s| - 1], s[|s| - 1];
      GroupByTypeBuckets(s', t);
      BucketStep(s, t);
      if r.txType == t && t !in GroupByType(s') {
        assert Filter(s', OfType(t)) == [];
      }
    }
  }

  /** One row of `getTransactionStats`. */
  datatype StatEntry = StatEntry(count: nat, totalAmount: real, avgAmount: real, totalFees: real)

  /** The statistics window: '7d' and '30d' are recognised; '24h' and every
      other name mean 24 hours. */
  function PeriodMs(period: Option<string>): (ms: int)
    ensures ms == DAY_MS <==> period.GetOr("24h") != "7d" && period.GetOr("24h") != "30d"
    ensures period.GetOr("24h") == "7d" ==> ms == 7 * DAY_MS
    ensures period.GetOr("24h") == "30d" ==> ms == 30 * DAY_MS
    ensures DAY_MS <= ms <= 30 * DAY_MS
  {
    var p := period.GetOr("24h");
    if p == "7d" then 7 * DAY_MS
    else if p == "30d" then 30 * DAY_MS
    else DAY_MS
  }

  /** The `$match` stage of `getTransactionStats`. */
  function StatsWindow(userId: nat, start: int): TxRecord -> bool
  {
    (r: TxRecord) => r.userId == userId && r.timestamp >= start && r.status == Completed
  }

  /** The records counted in the bucket of type `t`. */
  function StatsMatch(userId: nat, start: int, t: TxType): TxRecord -> bool
  {
    (r: TxRecord) => r.userId == userId && r.timestamp >= start && r.status == Completed && r.txType == t
  }

  function Summary(g: Group): StatEntry
  {
    StatEntry(g.count, g.totalAmount, if g.count == 0 then 0.0 else g.totalAmount / g.count as real, g.totalFees)
  }

  /** `getTransactionStats`: per-type statistics of the user's COMPLETED
      records in the period ending at `now`. */
  function TransactionStats(records: seq<TxRecord>, userId: nat, period: Option<string>, now: int): map<TxType, StatEntry>
  {
    var g := GroupByType(Filter(records, StatsWindow(userId, now - PeriodMs(period))));
    map t | t in g :: Summary(g[t])
  }

  /** A type has a row exactly when the user completed at least one record of
      that type in the period; the row counts and sums exactly those records
      and its average is their total over their count. */
  lemma StatsRow(records: seq<TxRecord>, userId: nat, period: Option<string>, now: int, t: TxType)
    ensures var stats := TransactionStats(records, userId, period, now);
            var m := Filter(records, StatsMatch(userId, now - PeriodMs(period), t));
            && (t in stats <==> |m| > 0)
            && (t in stats ==>
                 && stats[t].count == |m|
                 && stats[t].totalAmount == SumReal(m, Amount)
                 && stats[t].totalFees == SumReal(m, FeeOf)
                 && stats[t].avgAmount == stats[t].totalAmount / (|m| as real))
  {
    var start := now - PeriodMs(period);
    var w := Filter(records, StatsWindow(userId, start));
    var m := Filter(records, StatsMatch(userId, start, t));
    var g := GroupByType(w);
    var stats := TransactionStats(records, userId, period, now);
    assert stats == map t | t in g :: Summary(g[t]);
    GroupByTypeBuckets(w, t);
    FilterFilter(records, StatsWindow(userId, start), OfType(t), StatsMatch(userId, start, t));
    assert Filter(w, OfType(t)) == m;
    if t in stats {
      assert g[t] == Summarise(m);
      var e := stats[t];
      assert e == Summary(g[t]);
    }
  }
}

=== FILE: users.dfy ===
/** The server's user document (server/src/models/User.js): one wallet
    address per chain, the role and chain enums, string normalisation on
    assignment, and the pre-save password hashing. The hash function is a
    parameter. */
module Users {
  import opened Wrappers
  import opened Text

  /** The `chain` enum of a wallet address. */
  const CHAINS: set<string> := {"ETH", "BTC", "PCM", "PI"}

  /** The `role` enum; the default is "user". */
  const ROLES: set<string> := {"user", "admin", "restaurant_owner"}

  /** Mongoose `minlength` of the stored password. */
  const PASSWORD_MIN_LENGTH: nat := 6

  datatype WalletAddress = WalletAddress(chain: string, address: string)

  /** `walletAddresses.find(w => w.chain === chain)`, as a position. */
  function FindChain(ws: seq<WalletAddress>, chain: string): (r: Option<nat>)
    ensures r.Some? ==> r.value < |ws| && ws[r.value].chain == chain
    ensures r.Some? ==> forall k :: 0 <= k < r.value ==> ws[k].chain != chain
    ensures r.None? ==> forall k :: 0 <= k < |ws| ==> ws[k].chain != chain
  {
    if ws == [] then None
    else if ws[0].chain == chain then Some(0)
    else match FindChain(ws[1..], chain)
      case None => None
      case Some(i) => Some(i + 1)
  }

  /** The list `addWalletAddress` leaves behind: the first entry of the
      chain gets the new address, or a new entry is appended. */
  function Upsert(ws: seq<WalletAddress>, chain: string, address: string): seq<WalletAddress>
  {
    match FindChain(ws, chain)
    case Some(i) => ws[i := ws[i].(address := address)]
    case None => ws + [WalletAddress(chain, address)]
  }

  /** The wallet entry's validators: the chain is in its enum and the
      required address is a non-empty string. */
  predicate WalletValid(w: WalletAddress)
  {
    w.chain in CHAINS && w.address != []
  }

  predicate WalletsValid(ws: seq<WalletAddress>)
  {
    forall k :: 0 <= k < |ws| ==> WalletValid(ws[k])
  }

  /** Each chain appears at most once. */
  predicate ChainsDistinct(ws: seq<WalletAddress>)
  {
    forall i, j :: 0 <= i < j < |ws| ==> ws[i].chain != ws[j].chain
  }

  /** The first entry of a chain is the one `find` returns. */
  lemma FindChainAt(ws: seq<WalletAddress>, chain: string, i: nat)
    requires i < |ws| && ws[i].chain == chain
    requires forall k :: 0 <= k < i ==> ws[k].chain != chain
    ensures FindChain(ws, chain) == Some(i)
  {
  }

  /** A chain already present: its first entry takes the new address, the
      length is unchanged and every other entry is untouched. */
  lemma UpsertExisting(ws: seq<WalletAddress>, chain: string, address: string, i: nat)
    requires i < |ws| && ws[i].chain == chain
    requires forall k :: 0 <= k < i ==> ws[k].chain != chain
    ensures |Upsert(ws, chain, address)| == |ws|
    ensures Upsert(ws, chain, address)[i] == WalletAddress(chain, address)
    ensures forall k :: 0 <= k < |ws| && k != i ==> Upsert(ws, chain, address)[k] == ws[k]
  {
    FindChainAt(ws, chain, i);
  }

  /** A new chain: the entry is appended at the end. */
  lemma UpsertNew(ws: seq<WalletAddress>, chain: string, address: string)
    requires forall k :: 0 <= k < |ws| ==> ws[k].chain != chain
    ensures Upsert(ws, chain, address) == ws + [WalletAddress(chain, address)]
  {
  }

  /** Upserting keeps chains distinct, and afterwards the chain is found
      holding the new address. */
  lemma UpsertKeepsDistinct(ws: seq<WalletAddress>, chain: string, address: string)
    requires ChainsDistinct(ws)
    ensures ChainsDistinct(Upsert(ws, chain, address))
    ensures FindChain(Upsert(ws, chain, address), chain).Some?
    ensures Upsert(ws, chain, address)[FindChain(Upsert(ws, chain, address), chain).value] == WalletAddress(chain, address)
  {
    var r := Upsert(ws, chain, address);
    match FindChain(ws, chain)
    case Some(i) =>
      UpsertExisting(ws, chain, address, i);
      forall a, b | 0 <= a < b < |r| ensures r[a].chain != r[b].chain {
        assert r[a].chain == ws[a].chain && r[b].chain == ws[b].chain;
      }
      assert forall k :: 0 <= k < i ==> r[k].chain == ws[k].chain;
      FindChainAt(r, chain, i);
    case None =>
      forall a, b | 0 <= a < b < |r| ensures r[a].chain != r[b].chain {
        if b == |ws| {
          assert r[a] == ws[a];
        } else {
          assert r[a] == ws[a] && r[b] == ws[b];
        }
      }
      assert forall k :: 0 <= k < |ws| ==> r[k] == ws[k];
      FindChainAt(r, chain, |ws|);
  }

  /** Two lists whose chains agree on a common prefix, and whose extra
      entries are of other chains, give the same lookup result. */
  lemma {:induction false} FindChainSamePrefix(a: seq<WalletAddress>, b: seq<WalletAddress>, chain: string)
    requires |a| <= |b|
    requires forall k :: 0 <= k < |a| ==> a[k].chain == b[k].chain
    requires forall k :: |a| <= k < |b| ==> b[k].chain != chain
    ensures FindChain(a, chain) == FindChain(b, chain)
  {
    if a == [] {
      if b != [] {
        FindChainSamePrefix(a, b[1..], chain);
      }
    } else if a[0].chain != chain {
      FindChainSamePrefix(a[1..], b[1..], chain);
    }
  }

  /** Upserting one chain does not change what another chain's lookup finds. */
  lemma UpsertOtherChain(ws: seq<WalletAddress>, chain: string, address: string, other: string)
    requires other != chain
    ensures FindChain(Upsert(ws, chain, address), other) == FindChain(ws, other)
    ensures FindChain(ws, other).Some? ==>
              Upsert(ws, chain, address)[FindChain(ws, other).value] == ws[FindChain(ws, other).value]
  {
    var r := Upsert(ws, chain, address);
    match FindChain(ws, chain)
    case Some(i) =>
      UpsertExisting(ws, chain, address, i);
    case None =>
      UpsertNew(ws, chain, address);
    FindChainSamePrefix(ws, r, other);
  }

  /** Upserting the same address twice is the same as once. */
  lemma UpsertIdempotent(ws: seq<WalletAddress>, chain: string, address: string)
    ensures Upsert(Upsert(ws, chain, address), chain, address) == Upsert(ws, chain, address)
  {
    var r := Upsert(ws, chain, address);
    match FindChain(ws, chain)
    case Some(i) =>
      UpsertExisting(ws, chain, address, i);
      UpsertExisting(r, chain, address, i);
    case None =>
      UpsertNew(ws, chain, address);
      UpsertExisting(r, chain, address, |ws|);
  }

  /** The user document. */
  class UserDocument {
    var email: string
    var password: string
    var passwordModified: bool
    var name: string
    var phone: string
    var role: string
    var walletAddresses: seq<WalletAddress>

    /** The validators of the scalar fields: required strings are
        non-empty, the password has at least six characters and the role is
        in its enum. */
    predicate FieldsValid()
      reads this
    {
      && email != [] && name != [] && phone != []
      && |password| >= PASSWORD_MIN_LENGTH
      && role in ROLES
    }

    /** The schema validators `save` runs before the hooks: the scalar
        fields, and every wallet entry with its chain in the enum and its
        required address present. */
    predicate SchemaValid()
      reads this
    {
      FieldsValid() && WalletsValid(walletAddresses)
    }

    /** A new document: the schema's setters trim and lower-case the email
        and trim name and phone; the role defaults to "user"; the password
        counts as modified. */
    constructor (email: string, password: string, name: string, phone: string, role: Option<string>)
      ensures Fields() == UserFields(Lower(Trim(email)), password, true, Trim(name), Trim(phone), role.GetOr("user"), [])
    {
      this.email := Lower(Trim(email));
      this.password := password;
      this.passwordModified := true;
      this.name := Trim(name);
      this.phone := Trim(phone);
      this.role := role.GetOr("user");
      this.walletAddresses := [];
    }

    /** Every field of the document, as one value. */
    function Fields(): UserFields
      reads this
    {
      UserFields(email, password, passwordModified, name, phone, role, walletAddresses)
    }

    /** `save()`: validation first; when it passes, the pre-save hook
        replaces a modified password by its hash. A failed save changes
        nothing. */
    method Save(hash: string -> string) returns (ok: bool)
      modifies this
      ensures ok == old(SchemaValid())
      ensures password == if ok && old(passwordModified) then hash(old(password)) else old(password)
      ensures passwordModified == (old(passwordModified) && !ok)
      ensures email == old(email) && name == old(name) && phone == old(phone) && role == old(role)
      ensures walletAddresses == old(walletAddresses)
    {
      ok := SchemaValid();
      if ok && passwordModified {
        password := hash(password);
      }
      if ok {
        passwordModified := false;
      }
    }

    /** `addWalletAddress(chain, address)`: update or append in memory,
        then save; the in-memory change stays even when the save fails. */
    method AddWalletAddress(chain: string, address: string, hash: string -> string) returns (ok: bool)
      modifies this
      ensures walletAddresses == Upsert(old(walletAddresses), chain, address)
      ensures ok <==> old(FieldsValid()) && WalletsValid(walletAddresses)
      ensures ok ==> chain in CHAINS && address != []
      ensures old(SchemaValid()) ==> (ok <==> chain in CHAINS && address != [])
      ensures old(ChainsDistinct(walletAddresses)) ==> ChainsDistinct(walletAddresses)
      ensures password == if ok && old(passwordModified) then hash(old(password)) else old(password)
      ensures passwordModified == (old(passwordModified) && !ok)
      ensures email == old(email) && name == old(name) && phone == old(phone) && role == old(role)
    {
      var ws := walletAddresses;
      var found := FindChain(ws, chain);
      if found.Some? {
        walletAddresses := ws[found.value := ws[found.value].(address := address)];
      } else {
        walletAddresses := ws + [WalletAddress(chain, address)];
      }
      WalletsAfterUpsert(ws, chain, address);
      if ChainsDistinct(ws) {
        UpsertKeepsDistinct(ws, chain, address);
      }
      ok := Save(hash);
    }
  }

  datatype UserFields = UserFields(
    email: string, password: string, passwordModified: bool, name: string, phone: string,
    role: string, walletAddresses: seq<WalletAddress>)

  /** The chains present after an upsert are those before plus the new one. */
  lemma ChainsAfterUpsert(ws: seq<WalletAddress>, chain: string, address: string)
    ensures (forall k :: 0 <= k < |Upsert(ws, chain, address)| ==> Upsert(ws, chain, address)[k].chain in CHAINS)
            <==> (forall k :: 0 <= k < |ws| ==> ws[k].chain in CHAINS) && chain in CHAINS
  {
    var r := Upsert(ws, chain, address);
    match FindChain(ws, chain)
    case Some(i) =>
      UpsertExisting(ws, chain, address, i);
      assert forall k :: 0 <= k < |ws| ==> r[k].chain == ws[k].chain;
    case None =>
      UpsertNew(ws, chain, address);
      assert r[|ws|].chain == chain;
      assert forall k :: 0 <= k < |ws| ==> r[k] == ws[k];
  }

  /** After adding an address the wallets all validate only if the chain is
      in the enum and the address is present; and they do when they did
      before and both are. */
  lemma WalletsAfterUpsert(ws: seq<WalletAddress>, chain: string, address: string)
    ensures WalletsValid(Upsert(ws, chain, address)) ==> chain in CHAINS && address != []
    ensures WalletsValid(ws) && chain in CHAINS && address != [] ==> WalletsValid(Upsert(ws, chain, address))
  {
    var r := Upsert(ws, chain, address);
    match FindChain(ws, chain)
    case Some(i) =>
      UpsertExisting(ws, chain, address, i);
      assert r[i] == WalletAddress(chain, address);
    case None =>
      UpsertNew(ws, chain, address);
      assert r[|ws|] == WalletAddress(chain, address);
      assert forall k :: 0 <= k < |ws| ==> r[k] == ws[k];
  }
}

=== FILE: wallet_service.dfy ===
/** services/walletService.js: a user's balances, deposits and history on the
    Pi ledger. */
module WalletService {
  import opened Wrappers
  import opened Collections
  import opened Ledger

  /** The `{ PI, PCM }` balances object. */
  datatype Balances = Balances(pi: string, pcm: string)

  function NativeLine(): BalanceEntry -> bool { e => IsNative(e) }

  /** `getBalance`: both slots start at '0'; the loop sets PI from native
      entries and PCM from PCM entries of the configured issuer, ignoring the
      rest, so in each slot the last matching entry wins. */
  method GetBalance(net: Network, cfg: LedgerConfig, publicKey: string) returns (r: Result<Balances, string>)
    ensures publicKey !in net.accounts ==> r == Failure("Failed to get wallet balance")
    ensures publicKey in net.accounts ==>
              var b := net.accounts[publicKey].balances;
              r == Success(Balances(LastMatch(b, NativeLine()).GetOr("0"), LastMatch(b, PcmLine(cfg.pcmIssuer)).GetOr("0")))
  {
    if publicKey !in net.accounts {
      return Failure("Failed to get wallet balance");
    }
    var b := net.accounts[publicKey].balances;
    var balances := Balances("0", "0");
    var i := 0;
    while i < |b|
      invariant 0 <= i <= |b|
      invariant balances.pi == LastMatch(b[..i], NativeLine()).GetOr("0")
      invariant balances.pcm == LastMatch(b[..i], PcmLine(cfg.pcmIssuer)).GetOr("0")
    {
      assert b[..i + 1][..i] == b[..i];
      if b[i].NativeBalance? {
        balances := balances.(pi := b[i].balance);
      } else if IsPcmLine(b[i], cfg.pcmIssuer) {
        balances := balances.(pcm := b[i].balance);
      }
      i := i + 1;
    }
    assert b[..i] == b;
    r := Success(balances);
  }

  /** The PI slot reports the latest native entry, and '0' when there is none. */
  lemma GetBalancePiSlot(b: seq<BalanceEntry>)
    ensures (forall i :: 0 <= i < |b| ==> !b[i].NativeBalance?) ==> LastMatch(b, NativeLine()).GetOr("0") == "0"
    ensures forall i :: 0 <= i < |b| && b[i].NativeBalance? && (forall j :: i < j < |b| ==> !b[j].NativeBalance?)
              ==> LastMatch(b, NativeLine()).GetOr("0") == b[i].balance
  {
    LastMatchWins(b, NativeLine());
    forall i | 0 <= i < |b| && b[i].NativeBalance? && (forall j :: i < j < |b| ==> !b[j].NativeBalance?)
      ensures LastMatch(b, NativeLine()).GetOr("0") == b[i].balance
    {
      assert NativeLine()(b[i]);
      var k :| 0 <= k < |b| && NativeLine()(b[k])
               && LastMatch(b, NativeLine()).value == b[k].balance
               && forall j :: k < j < |b| ==> !NativeLine()(b[j]);
      assert k == i;
    }
  }

  datatype Wallet = Wallet(publicKey: string, secretKey: string)

  /** The looked-up user document; only its wallet matters here. */
  datatype WalletUser = WalletUser(id: nat, wallet: Option<Wallet>)

  /** `user.wallet?.publicKey` is truthy. */
  predicate HasWalletKey(user: Option<WalletUser>)
  {
    user.Some? && user.value.wallet.Some? && user.value.wallet.value.publicKey != ""
  }

  /** A call of the Pi payment service. */
  datatype PaymentRequest = PaymentRequest(userId: nat, amount: real, kind: string, destination: string, asset: Option<Asset>)

  /** `depositPi`: without a wallet key it fails before any payment is
      requested; otherwise it requests a DEPOSIT payment to the wallet and
      returns what the payment service answers. */
  function DepositPi(user: Option<WalletUser>, amount: real, createPayment: PaymentRequest -> Option<string>): (r: Result<string, string>)
    ensures !HasWalletKey(user) ==> r == Failure("Failed to deposit Pi")
    ensures r.Success? <==>
              HasWalletKey(user)
              && createPayment(PaymentRequest(user.value.id, amount, "DEPOSIT", user.value.wallet.value.publicKey, None)).Some?
    ensures r.Success? ==>
              createPayment(PaymentRequest(user.value.id, amount, "DEPOSIT", user.value.wallet.value.publicKey, None)) == Some(r.value)
    ensures r.Failure? ==> r.error == "Failed to deposit Pi"
  {
    if !HasWalletKey(user) then Failure("Failed to deposit Pi")
    else
      var u := user.value;
      match createPayment(PaymentRequest(u.id, amount, "DEPOSIT", u.wallet.value.publicKey, None))
      case None => Failure("Failed to deposit Pi")
      case Some(p) => Success(p)
  }

  /** `depositPi` as written: the service never requires the `User` model,
      so `User.findById` throws inside the try block and every call reports
      "Failed to deposit Pi" without requesting a payment. */
  function DepositPiAsWritten(user: Option<WalletUser>, amount: real, createPayment: PaymentRequest -> Option<string>)
    : (r: Result<string, string>)
    ensures r.Failure? && r.error == "Failed to deposit Pi"
  {
    Failure("Failed to deposit Pi")
  }

  /** A user with a wallet key whose payment the service answers gets it
      from the corrected deposit, and nothing as written. */
  lemma DepositPiAsWrittenNeverPays(user: Option<WalletUser>, amount: real, createPayment: PaymentRequest -> Option<string>)
    requires HasWalletKey(user)
    requires createPayment(PaymentRequest(user.value.id, amount, "DEPOSIT", user.value.wallet.value.publicKey, None)).Some?
    ensures DepositPi(user, amount, createPayment).Success?
    ensures DepositPiAsWritten(user, amount, createPayment).Failure?
  {
  }

  /** `createPcmTrustline` as written: when the trustline is missing, the
      signing step reads a `user` that is not in scope, so the call always
      fails there and submits nothing. */
  function CreatePcmTrustlineAsWritten(net: Network, cfg: LedgerConfig, publicKey: string): (c: Call<()>)
    ensures c.submitted == []
    ensures c.result.Success? <==>
              publicKey in net.accounts && HasPcmTrustline(net.accounts[publicKey].balances, cfg.pcmIssuer)
  {
    if publicKey !in net.accounts then Call([], Failure("Failed to create PCM trustline"))
    else if HasPcmTrustline(net.accounts[publicKey].balances, cfg.pcmIssuer) then Call([], Success(()))
    else Call([], Failure("Failed to create PCM trustline"))
  }

  /** The discrepancy: an account without the trustline never gets one,
      whatever the network would accept. */
  lemma CreatePcmTrustlineAsWrittenNeverOpens(net: Network, cfg: LedgerConfig, publicKey: string)
    requires publicKey in net.accounts && !HasPcmTrustline(net.accounts[publicKey].balances, cfg.pcmIssuer)
    requires net.baseFee.Some?
    requires forall tx :: net.submit(tx).Accepted?
    ensures CreatePcmTrustlineAsWritten(net, cfg, publicKey).result.Failure?
    ensures CreatePcmTrustline(net, cfg, publicKey, "").result.Success?
  {
  }

  /** `createPcmTrustline` signing with the wallet owner's secret: nothing is
      submitted when the trustline exists; otherwise exactly one changeTrust
      with limit '1000000' on the owner's account. */
  function CreatePcmTrustline(net: Network, cfg: LedgerConfig, publicKey: string, ownerSecret: string): (c: Call<()>)
    ensures |c.submitted| <= 1
    ensures (publicKey in net.accounts && HasPcmTrustline(net.accounts[publicKey].balances, cfg.pcmIssuer))
              ==> c == Call([], Success(()))
    ensures c.submitted != [] ==>
              net.baseFee.Some? && c.submitted == [TrustlineTx(publicKey, cfg.pcmIssuer, net.baseFee.value, ownerSecret)]
    ensures c.result.Success? <==>
              publicKey in net.accounts
              && (HasPcmTrustline(net.accounts[publicKey].balances, cfg.pcmIssuer)
                  || (net.baseFee.Some? && net.submit(TrustlineTx(publicKey, cfg.pcmIssuer, net.baseFee.value, ownerSecret)).Accepted?))
    ensures c.result.Failure? ==> c.result.error == "Failed to create PCM trustline"
  {
    if publicKey !in net.accounts then Call([], Failure("Failed to create PCM trustline"))
    else if HasPcmTrustline(net.accounts[publicKey].balances, cfg.pcmIssuer) then Call([], Success(()))
    else if net.baseFee.None? then Call([], Failure("Failed to create PCM trustline"))
    else
      var tx := TrustlineTx(publicKey, cfg.pcmIssuer, net.baseFee.value, ownerSecret);
      if net.submit(tx).Accepted? then Call([tx], Success(())) else Call([tx], Failure("Failed to create PCM trustline"))
  }

  /** `depositPcm`: fails without a wallet key; otherwise ensures the
      trustline first and only then requests a DEPOSIT_PCM payment in PCM. */
  function DepositPcm(net: Network, cfg: LedgerConfig, user: Option<WalletUser>, amount: real,
                      createPayment: PaymentRequest -> Option<string>): (c: Call<string>)
    ensures !HasWalletKey(user) ==> c == Call([], Failure("Failed to deposit PCM"))
    ensures HasWalletKey(user) ==>
              c.submitted == CreatePcmTrustline(net, cfg, user.value.wallet.value.publicKey, user.value.wallet.value.secretKey).submitted
    ensures c.result.Success? <==>
              HasWalletKey(user)
              && CreatePcmTrustline(net, cfg, user.value.wallet.value.publicKey, user.value.wallet.value.secretKey).result.Success?
              && createPayment(PaymentRequest(user.value.id, amount, "DEPOSIT_PCM", user.value.wallet.value.publicKey, Some(PcmAsset(cfg)))).Some?
    ensures c.result.Success? ==>
              createPayment(PaymentRequest(user.value.id, amount, "DEPOSIT_PCM", user.value.wallet.value.publicKey, Some(PcmAsset(cfg)))) == Some(c.result.value)
    ensures c.result.Failure? ==> c.result.error == "Failed to deposit PCM"
  {
    if !HasWalletKey(user) then Call([], Failure("Failed to deposit PCM"))
    else
      var w := user.value.wallet.value;
      var t := CreatePcmTrustline(net, cfg, w.publicKey, w.secretKey);
      if t.result.Failure? then Call(t.submitted, Failure("Failed to deposit PCM"))
      else match createPayment(PaymentRequest(user.value.id, amount, "DEPOSIT_PCM", w.publicKey, Some(PcmAsset(cfg))))
        case None => Call(t.submitted, Failure("Failed to deposit PCM"))
        case Some(p) => Call(t.submitted, Success(p))
  }

  /** `depositPcm` as written: the missing `User` model makes the lookup
      throw first, so the trustline step never runs, nothing is submitted
      and every call reports "Failed to deposit PCM". */
  function DepositPcmAsWritten(net: Network, cfg: LedgerConfig, user: Option<WalletUser>, amount: real,
                               createPayment: PaymentRequest -> Option<string>): (c: Call<string>)
    ensures c.submitted == [] && c.result == Failure("Failed to deposit PCM")
  {
    Call([], Failure("Failed to deposit PCM"))
  }

  /** A user with a wallet key, on a network where the trustline step
      succeeds and a payment service that answers, is paid by the corrected
      deposit and not as written. */
  lemma DepositPcmAsWrittenNeverPays(net: Network, cfg: LedgerConfig, user: Option<WalletUser>, amount: real,
                                     createPayment: PaymentRequest -> Option<string>)
    requires HasWalletKey(user)
    requires CreatePcmTrustline(net, cfg, user.value.wallet.value.publicKey, user.value.wallet.value.secretKey).result.Success?
    requires createPayment(PaymentRequest(user.value.id, amount, "DEPOSIT_PCM", user.value.wallet.value.publicKey,
                                          Some(PcmAsset(cfg)))).Some?
    ensures DepositPcm(net, cfg, user, amount, createPayment).result.Success?
    ensures DepositPcmAsWritten(net, cfg, user, amount, createPayment).result.Failure?
  {
  }

  /** One operation of `getTransactionHistory`'s result. */
  datatype OperationSummary = OperationSummary(opType: string, amount: Option<string>, asset: Option<string>, from: Option<string>, to: Option<string>)

  datatype HistoryEntry = HistoryEntry(id: string, createdAt: string, operations: seq<OperationSummary>)

  function Summarise(op: HistoryOp): OperationSummary
  {
    OperationSummary(op.opType, op.amount, if op.assetType == "native" then Some("PI") else op.assetCode, op.from, op.to)
  }

  function SummariseAll(ops: seq<HistoryOp>): (r: seq<OperationSummary>)
    ensures |r| == |ops|
    ensures forall k :: 0 <= k < |ops| ==>
              && r[k].opType == ops[k].opType && r[k].amount == ops[k].amount
              && r[k].from == ops[k].from && r[k].to == ops[k].to
              && (ops[k].assetType == "native" ==> r[k].asset == Some("PI"))
              && (ops[k].assetType != "native" ==> r[k].asset == ops[k].assetCode)
  {
    seq(|ops|, k requires 0 <= k < |ops| => Summarise(ops[k]))
  }

  /** The page of history `getTransactionHistory` reads: the newest 20. */
  const WALLET_HISTORY_LIMIT: nat := 20

  /** `getTransactionHistory`: the newest 20 transactions, newest first,
      each with its operations summarised in order. */
  function GetTransactionHistory(net: Network, publicKey: string): (r: Result<seq<HistoryEntry>, string>)
    ensures publicKey !in net.history ==> r == Failure("Failed to get transaction history")
    ensures publicKey in net.history ==>
              var h := net.history[publicKey];
              && r.Success?
              && |r.value| == (if |h| < WALLET_HISTORY_LIMIT then |h| else WALLET_HISTORY_LIMIT)
              && forall k :: 0 <= k < |r.value| ==>
                   r.value[k].id == h[|h| - 1 - k].id
                   && r.value[k].createdAt == h[|h| - 1 - k].createdAt
                   && r.value[k].operations == SummariseAll(h[|h| - 1 - k].operations)
  {
    if publicKey !in net.history then Failure("Failed to get transaction history")
    else
      var txs := Take(Reverse(net.history[publicKey]), WALLET_HISTORY_LIMIT);
      Success(seq(|txs|, k requires 0 <= k < |txs| => HistoryEntry(txs[k].id, txs[k].createdAt, SummariseAll(txs[k].operations))))
  }
}

=== FILE: withdrawals.dfy ===
/** services/withdrawalService.js: validating a withdrawal request and
    carrying it out against the ledger, recording it in the transaction store. */
module Withdrawals {
  import opened Wrappers
  import opened Collections
  import opened Text
  import opened Ledger
  import opened Transactions
  import opened TransactionQueries

  /** The currency string selects the Pi rules when it is exactly 'PI' and
      the PCM rules otherwise. */
  function WithdrawalTypeFor(currency: string): TxType
  {
    if currency == "PI" then PiWithdrawal else PcmWithdrawal
  }

  function DailyLimit(currency: string): real
  {
    if currency == "PI" then 1000.0 else 5000.0
  }

  /** The user's COMPLETED withdrawals of the currency's type in the 24 hours
      before `now`. */
  function RecentWithdrawals(records: seq<TxRecord>, userId: nat, currency: string, now: int): seq<TxRecord>
  {
    Filter(records, StatsMatch(userId, now - DAY_MS, WithdrawalTypeFor(currency)))
  }

  /** `validateWithdrawal` as written: the amount check comes first, then the
      balance, then the daily cap, and the cap is consulted only when the
      24-hour statistics hold a row for the withdrawal type. */
  function ValidateWithdrawal(records: seq<TxRecord>, userId: nat, amount: JsNum, currency: string,
                              currentBalance: real, now: int): (r: Outcome<string>)
    ensures r == Fail("Invalid withdrawal amount") <==> !amount.Gt(0.0)
    ensures r == Fail("Insufficient balance") <==> amount.Gt(0.0) && amount.r > currentBalance
    ensures r == Fail("Daily withdrawal limit exceeded") <==>
              && amount.Gt(0.0) && amount.r <= currentBalance
              && |RecentWithdrawals(records, userId, currency, now)| > 0
              && SumReal(RecentWithdrawals(records, userId, currency, now), Amount) + amount.r > DailyLimit(currency)
    ensures r.Pass? || r.error in {"Invalid withdrawal amount", "Insufficient balance", "Daily withdrawal limit exceeded"}
  {
    if !amount.Gt(0.0) then Fail("Invalid withdrawal amount")
    else if amount.r > currentBalance then Fail("Insufficient balance")
    else
      var stats := TransactionStats(records, userId, Some("24h"), now);
      var t := WithdrawalTypeFor(currency);
      StatsRow(records, userId, Some("24h"), now, t);
      if t in stats && stats[t].totalAmount + amount.r > DailyLimit(currency) then Fail("Daily withdrawal limit exceeded")
      else Pass
  }

  /** A record that counts against the Pi cap. */
  function PiWithdrawalAt(id: nat, userId: nat, amount: real, ts: int): TxRecord
  {
    TxRecord(id, userId, PiWithdrawal, amount, Completed, None, None, None, ts, None, None, None, None, None, None)
  }

  /** With no earlier withdrawal in the window, a single Pi withdrawal above
      the 1000 cap is accepted. */
  lemma ValidateWithdrawalSkipsFirstCap()
    ensures ValidateWithdrawal([], 1, Val(1500.0), "PI", 2000.0, 0) == Pass
    ensures ValidateWithdrawalCapped([], 1, Val(1500.0), "PI", 2000.0, 0) == Fail("Daily withdrawal limit exceeded")
  {
    assert RecentWithdrawals([], 1, "PI", 0) == [];
  }

  /** 950 PI withdrawn today is what the window holds. */
  lemma WindowOfOne(now: int)
    ensures var recs := [PiWithdrawalAt(0, 1, 950.0, now)];
            |RecentWithdrawals(recs, 1, "PI", now)| == 1
            && SumReal(RecentWithdrawals(recs, 1, "PI", now), Amount) == 950.0
  {
    var rec := PiWithdrawalAt(0, 1, 950.0, now);
    FilterSingle(rec, StatsMatch(1, now - DAY_MS, PiWithdrawal));
    SumRealSnoc([], rec, Amount);
    assert [] + [rec] == [rec];
  }

  /** With 950 PI already withdrawn today, 50 more is allowed (the cap is
      inclusive) and 60 more is refused. */
  lemma ValidateWithdrawalCapExample(now: int)
    ensures ValidateWithdrawal([PiWithdrawalAt(0, 1, 950.0, now)], 1, Val(50.0), "PI", 2000.0, now) == Pass
    ensures ValidateWithdrawal([PiWithdrawalAt(0, 1, 950.0, now)], 1, Val(60.0), "PI", 2000.0, now)
            == Fail("Daily withdrawal limit exceeded")
  {
    WindowOfOne(now);
    var recs := [PiWithdrawalAt(0, 1, 950.0, now)];
    var pass := ValidateWithdrawal(recs, 1, Val(50.0), "PI", 2000.0, now);
    assert pass != Fail("Invalid withdrawal amount") && pass != Fail("Insufficient balance");
    assert pass != Fail("Daily withdrawal limit exceeded");
  }

  /** `validateWithdrawal` with the cap applied to every request, a missing
      statistics row counting as nothing withdrawn yet. */
  function ValidateWithdrawalCapped(records: seq<TxRecord>, userId: nat, amount: JsNum, currency: string,
                                    currentBalance: real, now: int): (r: Outcome<string>)
    ensures r == Fail("Invalid withdrawal amount") <==> !amount.Gt(0.0)
    ensures r == Fail("Insufficient balance") <==> amount.Gt(0.0) && amount.r > currentBalance
    ensures r.Pass? <==>
              && amount.Gt(0.0) && amount.r <= currentBalance
              && SumReal(RecentWithdrawals(records, userId, currency, now), Amount) + amount.r <= DailyLimit(currency)
  {
    if !amount.Gt(0.0) then Fail("Invalid withdrawal amount")
    else if amount.r > currentBalance then Fail("Insufficient balance")
    else
      var stats := TransactionStats(records, userId, Some("24h"), now);
      var t := WithdrawalTypeFor(currency);
      StatsRow(records, userId, Some("24h"), now, t);
      var sofar := if t in stats then stats[t].totalAmount else 0.0;
      if sofar + amount.r > DailyLimit(currency) then Fail("Daily withdrawal limit exceeded")
      else Pass
  }

  datatype WithdrawalAsset = Pi | Pcm

  function RecordType(a: WithdrawalAsset): TxType
  {
    match a case Pi => PiWithdrawal case Pcm => PcmWithdrawal
  }

  function MemoPrefix(a: WithdrawalAsset): string
  {
    match a case Pi => "Food Pi Hub withdrawal: " case Pcm => "Food Pi Hub PCM withdrawal: "
  }

  function FailureMessage(a: WithdrawalAsset): string
  {
    match a case Pi => "Failed to process Pi withdrawal" case Pcm => "Failed to process PCM withdrawal"
  }

  function SourceAccount(a: WithdrawalAsset, cfg: LedgerConfig): string
  {
    match a case Pi => cfg.piWalletAddress case Pcm => cfg.pcmDistributorAddress
  }

  function SourceSecret(a: WithdrawalAsset, cfg: LedgerConfig): string
  {
    match a case Pi => cfg.piWalletSecret case Pcm => cfg.pcmDistributorSecret
  }

  function AssetOf(a: WithdrawalAsset, cfg: LedgerConfig): Asset
  {
    match a case Pi => Native case Pcm => PcmAsset(cfg)
  }

  /** The memo naming the record behind a withdrawal. */
  function Memo(a: WithdrawalAsset, recordId: nat): string
  {
    MemoPrefix(a) + DecimalString(recordId)
  }

  /** The record id can be read back out of the memo. */
  lemma MemoNamesRecord(a: WithdrawalAsset, recordId: nat)
    ensures |Memo(a, recordId)| >= |MemoPrefix(a)|
    ensures ParseInt(Memo(a, recordId)[|MemoPrefix(a)|..]) == Some(recordId)
  {
    assert Memo(a, recordId)[|MemoPrefix(a)|..] == DecimalString(recordId);
    ParseDecimalString(recordId);
  }

  /** The single-payment transaction a withdrawal submits. */
  function WithdrawalTx(a: WithdrawalAsset, cfg: LedgerConfig, recordId: nat, amount: real, destination: string, fee: nat): LedgerTx
  {
    LedgerTx(SourceAccount(a, cfg), fee, [Payment(destination, AssetOf(a, cfg), amount)], Some(Memo(a, recordId)), SourceSecret(a, cfg))
  }

  /** The request `withdrawPi`/`withdrawPcm` hands to `createTransaction`. */
  function WithdrawalRequest(a: WithdrawalAsset, userId: nat, amount: real, destination: string): NewTransaction
  {
    NewTransaction(userId, RecordType(a), amount, None, Some(destination), None, None)
  }

  datatype Receipt = Receipt(success: bool, transactionId: nat, txHash: string)

  /** The withdrawal is submitted once the source account loads and the base
      fee is known; it succeeds when the ledger accepts it. */
  predicate Submits(net: Network, a: WithdrawalAsset, cfg: LedgerConfig)
  {
    SourceAccount(a, cfg) in net.accounts && net.baseFee.Some?
  }

  /** `withdrawPi` and `withdrawPcm`: a PENDING record of the matching type is
      stored first; it becomes COMPLETED with the ledger hash only when the
      payment is accepted, and is otherwise left PENDING while the call fails
      with the fixed message. */
  method Withdraw(store: TransactionStore, net: Network, cfg: LedgerConfig, a: WithdrawalAsset,
                  userId: nat, amount: real, destination: string, now: int) returns (r: Result<Receipt, string>)
    requires store.Valid()
    modifies store
    ensures store.Valid()
    ensures store.nextId == old(store.nextId) + 1
    ensures var pending := NewRecord(old(store.nextId), WithdrawalRequest(a, userId, amount, destination), now);
            && pending.status == Pending && pending.txType == RecordType(a) && pending.toAddress == Some(destination)
            && (r.Success? <==>
                  Submits(net, a, cfg)
                  && net.submit(WithdrawalTx(a, cfg, old(store.nextId), amount, destination, net.baseFee.value)).Accepted?)
            && (r.Success? ==>
                  var h := net.submit(WithdrawalTx(a, cfg, old(store.nextId), amount, destination, net.baseFee.value)).hash;
                  && r.value == Receipt(true, old(store.nextId), h)
                  && store.records == old(store.records) + [WithStatus(pending, Completed, Some(h), None)])
            && (r.Failure? ==>
                  r.error == FailureMessage(a) && store.records == old(store.records) + [pending])
  {
    var created := store.CreateTransaction(WithdrawalRequest(a, userId, amount, destination), now);
    assert created.Success?;
    var rec := created.value;
    if SourceAccount(a, cfg) !in net.accounts || net.baseFee.None? {
      return Failure(FailureMessage(a));
    }
    var tx := WithdrawalTx(a, cfg, rec.id, amount, destination, net.baseFee.value);
    match net.submit(tx)
    case Rejected =>
      return Failure(FailureMessage(a));
    case Accepted(h) =>
      assert store.records[|store.records| - 1] == rec;
      assert IndexOfId(store.records, rec.id).Some?;
      var updated := store.UpdateTransactionStatus(rec.id, Completed, Some(h), None);
      return Success(Receipt(true, rec.id, h));
  }

  /** The ledger SDK's limit on a text memo, in bytes. */
  const MEMO_TEXT_MAX: nat := 28

  /** The length of a rendered database object id. */
  const OBJECT_ID_DIGITS: nat := 24

  const HEX_DIGITS: string := "0123456789abcdef"

  /** The last `width` hexadecimal digits of `n`, padded with zeros. */
  function HexDigits(n: nat, width: nat): (h: string)
    ensures |h| == width
  {
    if width == 0 then [] else HexDigits(n / 16, width - 1) + [HEX_DIGITS[n % 16]]
  }

  /** The text a record's `_id` renders as in the code: an object id of 24
      hexadecimal digits, for which the store's `nat` id stands. */
  function ObjectIdHex(id: nat): (h: string)
    ensures |h| == OBJECT_ID_DIGITS
  {
    HexDigits(id, OBJECT_ID_DIGITS)
  }

  /** The memo the code builds from the object id is 48 bytes for Pi and 52
      for PCM (every character is ASCII), over the 28-byte limit. */
  lemma MemoTooLong(a: WithdrawalAsset, id: nat)
    ensures |MemoPrefix(a) + ObjectIdHex(id)| == (match a case Pi => 48 case Pcm => 52)
    ensures |MemoPrefix(a) + ObjectIdHex(id)| > MEMO_TEXT_MAX
  {
  }

  /** `withdrawPi` and `withdrawPcm` as written: the PENDING record is
      stored, and once the account and fee are loaded `Memo.text` rejects
      the memo built from the record's object id, so nothing is submitted,
      the record stays PENDING and the call fails with the fixed message. */
  method WithdrawAsWritten(store: TransactionStore, net: Network, cfg: LedgerConfig, a: WithdrawalAsset,
                           userId: nat, amount: real, destination: string, now: int) returns (r: Result<Receipt, string>)
    requires store.Valid()
    modifies store
    ensures store.Valid()
    ensures store.nextId == old(store.nextId) + 1
    ensures r == Failure(FailureMessage(a))
    ensures store.records == old(store.records) + [NewRecord(old(store.nextId), WithdrawalRequest(a, userId, amount, destination), now)]
  {
    var created := store.CreateTransaction(WithdrawalRequest(a, userId, amount, destination), now);
    assert created.Success?;
    var rec := created.value;
    if SourceAccount(a, cfg) !in net.accounts || net.baseFee.None? {
      return Failure(FailureMessage(a));
    }
    var memo := MemoPrefix(a) + ObjectIdHex(rec.id);
    MemoTooLong(a, rec.id);
    // `Memo.text` throws on a memo over the limit, before anything is signed
    assert |memo| > MEMO_TEXT_MAX;
    r := Failure(FailureMessage(a));
  }

  datatype FeeQuote = FeeQuote(baseFee: nat, totalFee: nat, currency: string)

  /** `getWithdrawalFees`: one operation, so the total fee is the base fee;
      the currency defaults to 'PI'. */
  function GetWithdrawalFees(currency: Option<string>, net: Network): (r: Result<FeeQuote, string>)
    ensures r.Success? <==> net.baseFee.Some?
    ensures r.Success? ==> r.value.totalFee == r.value.baseFee == net.baseFee.value
    ensures r.Success? ==> r.value.currency == currency.GetOr("PI")
    ensures r.Failure? ==> r.error == "Failed to fetch withdrawal fees"
  {
    match net.baseFee
    case None => Failure("Failed to fetch withdrawal fees")
    case Some(fee) => Success(FeeQuote(fee, fee * 1, currency.GetOr("PI")))
  }

  datatype TimeEstimate = TimeEstimate(estimatedSeconds: int, currency: string)

  /** `estimateWithdrawalTime`: 5000 plus the amount rounded down to a
      multiple of 1000. */
  function EstimateWithdrawalTime(amount: real, currency: string): TimeEstimate
  {
    TimeEstimate(5000 + (amount / 1000.0).Floor * 1000, currency)
  }

  /** The estimate exceeds the base time by the amount rounded down to whole
      thousands: never more than the amount, and less than a thousand below it. */
  lemma EstimateBrackets(amount: real, currency: string)
    ensures var extra := EstimateWithdrawalTime(amount, currency).estimatedSeconds - 5000;
            (extra as real) <= amount < (extra as real) + 1000.0 && extra % 1000 == 0
  {
    var q := (amount / 1000.0).Floor;
    assert (q as real) <= amount / 1000.0 < (q as real) + 1.0;
    assert (q * 1000) as real == (q as real) * 1000.0;
  }

  /** A larger amount never gets a shorter estimate. */
  lemma EstimateMonotone(a: real, b: real, currency: string)
    requires a <= b
    ensures EstimateWithdrawalTime(a, currency).estimatedSeconds <= EstimateWithdrawalTime(b, currency).estimatedSeconds
  {
    assert a / 1000.0 <= b / 1000.0;
  }
}

=== FILE: wrappers.dfy ===
/** Failure-carrying results shared by every module of the model. */
module Wrappers {

  datatype Option<+T> = None | Some(value: T) {
    function GetOr(default: T): T {
      match this
      case Some(v) => v
      case None => default
    }
  }

  /** A computation that either yields a value or fails with an error message
      (the source's thrown `Error`s and HTTP error responses). */
  datatype Result<+R, +E> = Success(value: R) | Failure(error: E) {
    predicate IsFailure() { Failure? }
  }

  /** An HTTP error reply: the status code and the `message` of its body. */
  datatype HttpError = HttpError(status: nat, message: string)

  /** A check that passes or fails with an error, carrying no value. */
  datatype Outcome<+E> = Pass | Fail(error: E)

  /** A JavaScript number as the source receives it from a request: absent,
      NaN, or a finite value. */
  datatype JsNum = Undefined | NaN | Val(r: real) {
    /** JavaScript truthiness: undefined, NaN and 0 are falsy. */
    predicate Truthy() { Val? && r != 0.0 }
    /** `this > c`: false whenever the number is undefined or NaN. */
    predicate Gt(c: real) { Val? && r > c }
  }
}
